=== FILE: README.md ===
# templating: a Dafny model of the template engine core

This project models the core of `src/templating.py`, a small text template
engine. It has three parts.

- **The decomposer.** `Template.Decompose` cuts a template source into
  literal text and operation records. It finds every `${...}` directive (with
  its `\n\s*` prefix when the directive sits on its own line) and classifies
  it in priority order:
  1. a translation `${T:en=...,fr=...}`;
  2. a control keyword `if`, `else`, `for`, `with` or `end`;
  3. a variable `path(:attributes)?(|formatters)?`.

  Anything else is an "Unrecognized directive". The regular expressions are
  modelled as hand-written recognisers of the shapes they accept.
- **The interpreter.** `Template.apply` is a stack machine with a program
  counter, frames opened by `if`, `for` and `with`, a mute flag and a list of
  output fragments. Its helpers `_resolveInContext` (dotted paths) and
  `_evaluateExpression` (the condition of an `if`) are modelled too. Each turn
  of the source's loop is one `Step`, and `Run` repeats it under a fuel bound.
  Data is a JSON-shaped `Value` (None, booleans, integers, strings, lists,
  string-keyed dicts).
- **The schema inferencer.** `getInformation` walks the compiled template
  without data. It rewrites `this` to the enclosing prefix
  (`_getAbsoluteSlotName`) and builds the nested slot tables of `Type`,
  `ListType` and `MapType` through `defineSlot`. `export` turns them into
  plain values. The walks `listVariables` and `listTranslations` list what a
  template uses.

Modules follow the source: `Results` (Python exceptions as `Err` values),
`Text`, `Values`, `Dicts` (insertion-ordered dicts), `Operations` (the
compiled form), `Decomposer`, `Directives`, `Resolution`, `SlotNames`,
`Literals` (Python's `repr` of strings and dicts, and its reading back),
`Interpreter`, `Schema` and `Information`. Each `...Laws` module holds the
lemmas about its namesake. `LoopPasses` follows whole `for` loops whose
bodies may hold anything: each pass is a trace of interpreter turns. `Findings` holds the two places where the code and
its evident intent part ways.

The source runs under Python 2 and Python 3, and several behaviours differ
between them. The model follows one version per behaviour:

- `\w` and `\s` in the regular expressions match ASCII only. This is
  Python 2, where the patterns are compiled without `re.UNICODE`; under
  Python 3 they would also match non-ASCII letters and whitespace.
- `str.strip()` and `int()` drop Python's Unicode whitespace set, as both
  versions do.
- Integers are emitted through `str`. This is Python 2: the type test names
  `long`, which Python 3 does not define.
- The `json` formatter accepts its two extra arguments. This is Python 2
  (see Left out).
- `this` is rewritten in slot names. This is Python 3, where
  `isinstance(name, str)` holds; under Python 2 a decoded name is `unicode`
  and is never rewritten.
- A path segment that `int()` accepts indexes the context whatever its
  size. This is Python 3, where `int()` always gives an `int`; under
  Python 2 a segment beyond `sys.maxint` gives a `long` (see Left out).
- The table in the missing-translation marker is written as Python 3.7
  writes it: keys in insertion order, no `u` prefix, and the quote and
  escapes of `str.__repr__`. Python 3.7 is the one Python 3 version that
  both keeps dict insertion order and still has `cgi.escape`, which the
  formatter table (src/templating.py:60) reads on import.

## Model

| member | source | states |
|---|---|---|
| Decomposer.Decompose | src/templating.py:190-268 | the compiled list starts with the literal of the text before the first directive match and ends with the literal of the text after the last one |
| Decomposer.FirstStart | src/templating.py:195-196 | the first directive match at or after a position: no match starts before it, and one starts there unless it is the end of the text |
| Decomposer.LastEnd | src/templating.py:195-267 | the end of the last directive match: the search finds no match after it |
| Decomposer.ScanFirst | src/templating.py:195-196 | the first piece of a scan is the text up to the first match |
| Decomposer.ScanLast | src/templating.py:266-267 | the last piece of a scan is the text after the last match |
| Decomposer.FindDirectiveFirst | src/templating.py:51-51 | the match found is the leftmost one: no directive match starts between the search position and it, and when none is found no position matches |
| Decomposer.Compile | src/templating.py:196-266 | every piece yields at least one operation, and the first and last text pieces become the first and last literals |
| DecomposerLaws.BracesIsDirective | src/templating.py:51-51 | the `\$\{[^\}]+\}` recogniser succeeds at a position exactly when a `${`, one or more non-`}` characters and a `}` start there |
| DecomposerLaws.NoMatchIffNoDirective | src/templating.py:195-195 | the scan finds no match exactly when the text holds no `${...}` directive |
| DecomposerLaws.IdentityExactly | src/templating.py:195-196 | a template compiles to the single literal of its whole text if and only if it holds no directive |
| DecomposerLaws.ScanShift | src/templating.py:195-196 | scanning is independent of the text before the scan position: matches found after a prefix are the matches of the rest |
| DecomposerLaws.InlineDirective | src/templating.py:195-202 | text, an inline directive and the rest compile to the text's literal, the directive's operations (no prefix) and the rest's compilation |
| DecomposerLaws.OwnLineDirective | src/templating.py:195-202 | a directive on its own line is found with its newline-and-indent prefix, which the literal before it does not include |
| DecomposerLaws.LoneDirective | src/templating.py:195-267 | a template that is one directive compiles to an empty literal, its operations and an empty literal |
| Directives.Classify | src/templating.py:197-265 | a translation compiles to exactly two operations, its prefix literal then the table; any other directive to exactly one: a control operation when a keyword leads, and otherwise a resolve with the directive's prefix and a path that starts the content; with neither a translation nor a keyword, the directive is accepted exactly when it starts with an ASCII letter or digit |
| Directives.MatchVariable | src/templating.py:52-52 | the variable pattern matches exactly when the content starts with an ASCII letter or digit; its path is a non-empty start of the content, and an attribute or formatter group, when present, is a non-empty run of the characters its class allows |
| Directives.ParseTranslations | src/templating.py:209-227 | the loop fails only with ValueError (no `=` left to split on) or IndexError (an empty value); the table it returns keeps the keys it started with, in place, and one entry per key |
| DirectiveLaws.UnrecognizedExactly | src/templating.py:252-265 | a directive is rejected as unrecognized exactly when its content does not start with an ASCII letter or digit |
| DirectiveLaws.ClassifyClaimed | src/templating.py:252-263 | content the variable form accepts is never rejected as unrecognized |
| DirectiveLaws.KeywordAtStart | src/templating.py:229-251 | a content that starts with a control keyword compiles to that control operation whatever follows, so `endDate` is an `end` and `iffy` an `if` |
| DirectiveLaws.KeywordLeads | src/templating.py:199-231 | content led by a keyword is not a translation, and the keyword is found in the pattern's order |
| DirectiveLaws.ForLimit | src/templating.py:239-244 | `for:p` stores limit -1, `for:p` with a bar and a decimal integer N stores N, for every N, and `for` without an operand fails on `None.split` |
| DirectiveLaws.VariableMatch | src/templating.py:52-52 | a dotted path followed by an optional attribute group (after a colon) and an optional formatter group (after a bar) is matched back into the same path and groups |
| DirectiveLaws.AttributeGroupOf | src/templating.py:257-258 | attributes written with `,` between them split back into the same list |
| DirectiveLaws.FormatterGroupOf | src/templating.py:259-262 | formatter names joined by `+` split back into the same list |
| DirectiveLaws.VariableRoundTrip | src/templating.py:252-263 | a written variable directive that is neither a translation nor led by a keyword compiles to a resolve with the same path, the attributes (None when absent) and the formatters (`[]` when absent) |
| TranslationLaws.LastText | src/templating.py:227-227 | the value a language ends up with is absent exactly when no item names it, and otherwise is the text of an item that names it |
| TranslationLaws.ParseListText | src/templating.py:209-227 | parsing a list of quoted or bare items assigns each lower-cased language its value, in order |
| TranslationLaws.UnclosedQuote | src/templating.py:209-218 | a value that opens a quote it never closes is re-read, quote included, and with no `=` left in it the loop fails on unpacking |
| TranslationLaws.MatchListText | src/templating.py:54-54 | `T:` followed by a well-formed item list is matched in full |
| TranslationLaws.TranslationRoundTrip | src/templating.py:199-228 | a written `T:` list compiles to the prefix literal and the table of its items |
| TranslationLaws.AssignLookup | src/templating.py:227-227 | a language's entry in the table is the value of its last item, so a repeated key keeps its last value |
| TranslationLaws.AssignUnique | src/templating.py:203-227 | the table never holds a language twice |
| Text.SplitJoin | src/templating.py:257-260 | `str.split` on a separator undoes the join of parts that do not contain it |
| Text.ParseIntToString | src/templating.py:244-244 | `int()` reads back every integer written in decimal |
| Dicts.Put | src/templating.py:140-142 | after `t[k] = v` the key maps to `v`, and the dict grows by one entry exactly when the key was new |
| Dicts.PutOther | src/templating.py:140-142 | every other key keeps its value |
| Dicts.PutOrder | src/templating.py:140-147 | the key order is unchanged when the key was present and gains the key at its end when it was not |
| Dicts.PutUnique | src/templating.py:140-142 | a dict keeps one entry per key |
| Dicts.LookupNone | src/templating.py:145-145 | a key is missing exactly when no entry carries it |
| Values.PyEqIsEquality | src/templating.py:419-422 | Python's `==` on values without booleans is structural equality |
| Values.Len | src/templating.py:502-502 | `len` is defined on strings, lists and dicts, and is 0 exactly on the falsy ones |
| Values.Index | src/templating.py:379-380 | `context[index]` on a list takes the item, counting from the end for a negative index; out of range it is an IndexError, and on a dict a KeyError |
| Resolution.Segment | src/templating.py:366-387 | a falsy context gives None; a dict is asked for a non-numeric key and gives None when the key is missing |
| Resolution.ResolveIn | src/templating.py:366-395 | a falsy context gives None; an undotted name is one lookup; failures are only index, key and type errors |
| Resolution.ResolveBySegments | src/templating.py:388-395 | resolving a dotted path equals looking its segments up one after another, stopping with None at a falsy context |
| Resolution.Evaluate | src/templating.py:397-434 | no expression (or an empty one) is true, and an expression the pattern rejects fails on `None.group` |
| Resolution.BarePath | src/templating.py:401-432 | a condition that is a bare path evaluates to the value the path resolves to |
| Resolution.DollarRejected | src/templating.py:55-55 | a condition containing `$` after its path does not match and fails |
| Resolution.Comparison | src/templating.py:418-422 | `p==lit` and `p!=lit` compare the resolved value with the parsed literal using Python's `==` |
| Resolution.PresenceTest | src/templating.py:408-416 | `p?` evaluates to the count of truthy items of a list or dict, and otherwise to the truthiness of the value |
| Resolution.Presence | src/templating.py:408-416 | the `?` result is truthy exactly when some item of a container, or the value itself, is truthy |
| Resolution.MatchExpression | src/templating.py:55-55 | the condition pattern matches exactly when the text holds no `$` and a name character follows its leading blanks; the path it takes is a path text, the operator is absent, `==` or `!=`, and the literal holds no `$` |
| Resolution.Compare | src/templating.py:406-432 | `?` without operator gives the presence count; with no operator and any other literal the result is the value itself, and it fails exactly when a non-empty literal is not JSON; `==` and `!=` give booleans; the only failure is a ValueError |
| SlotNames.AbsoluteSlotName | src/templating.py:349-364 | `this.x` becomes `prefix.x` (`x` with no prefix), `this` becomes `prefix.`, and any other name is unchanged |
| Interpreter.TranslationText | src/templating.py:481-487 | a translation emits the text for the locale when present, and otherwise the missing-translation marker, with no fallback to the default locale |
| Interpreter.MissingTranslation | src/templating.py:487-487 | the marker names the locale and shows the table so that it reads back as the same table |
| Literals.Escape | src/templating.py:487-487 | `repr` writes a character as itself exactly when it is neither the quote, a backslash, a tab, a newline, a return nor unprintable |
| Literals.ReadRepr | src/templating.py:487-487 | `repr` of a string loses nothing: the literal, escapes included, reads back as the string |
| Literals.ReadLiteralRepr | src/templating.py:487-487 | a literal written by `repr` ends at its closing quote, whatever text follows it |
| Literals.HexRead | src/templating.py:487-487 | the hexadecimal digits of an escape read back as the code point |
| Literals.ReadDictRepr | src/templating.py:487-487 | `repr` of a translation table reads back as the table, keys in insertion order |
| Literals.StrReprExamples | src/templating.py:487-487 | a text with an apostrophe and no double quote is put in double quotes, and a newline is written as a backslash and `n` |
| Literals.DictReprExample | src/templating.py:487-487 | `{'en': "'"}` is how the one-entry table mapping `en` to an apostrophe is shown |
| Interpreter.Localize | src/templating.py:468-469 | a dict value is replaced by its locale entry when truthy, and otherwise by its `en` entry |
| Interpreter.Emitted | src/templating.py:474-480 | None emits the missing-variable marker, a string itself, and an integer its decimal text that `int()` reads back; anything else raises "must be a string" |
| Interpreter.Formatted | src/templating.py:470-471 | no formatters leave the value unchanged; a chain with any formatter other than `json` fails, with a KeyError for a name outside the global table and a TypeError for `escapeHTML` or `repr`, which cannot take the three arguments they are called with |
| Interpreter.LiteralOut | src/templating.py:566-575 | the first fragment written inside a block loses one leading newline, and empty text writes nothing |
| Interpreter.IsEmpty | src/templating.py:502-502 | a collection is empty when falsy or of length 0, and `len` of a truthy number or boolean fails |
| Interpreter.LoopBound | src/templating.py:522-531 | a loop may run over every item with limit -1, over at most `limit` items otherwise, and over none of a falsy collection |
| Interpreter.InnerPrefix | src/templating.py:501-501 | as written a block's prefix fails exactly for a one-character path; as intended it is the absolute slot name |
| Interpreter.ElseMute | src/templating.py:493-494 | as written `else` negates the mute flag; as intended it leaves a block muted from outside muted |
| Interpreter.Step | src/templating.py:455-576 | one turn writes at most one fragment, only appends to the output, and writes nothing while muted |
| Interpreter.OpenIf | src/templating.py:488-492 | `if` needs a dict context (`current.get`) and writes nothing |
| Interpreter.OpenWith | src/templating.py:510-515 | `with` needs a dict context and an operand, writes nothing and keeps the mute flag |
| Interpreter.OpenFor | src/templating.py:495-509 | a `for` looks the collection up first, so a lookup failure comes first; it needs a dict context, writes nothing, and pushes exactly one loop frame, at pass 0, recording the position of the `for`, the limit and the collection |
| Interpreter.OpenLoop | src/templating.py:498-509 | a `for` pushes one loop frame saving scope, prefix, position, limit, collection, `this` and mute, and mutes when the collection is falsy |
| Interpreter.Close | src/templating.py:516-560 | the `end` of an `if` or `with` pops its frame and brings back its prefix and mute flag; the `end` of a loop goes back to the operation after the `for`, one pass further, exactly when that pass is below the loop bound, and otherwise pops the frame and brings back the saved mute flag; nothing is written |
| Interpreter.Run | src/templating.py:454-576 | a run that ends without failure has gone past the last operation |
| Interpreter.Apply | src/templating.py:436-579 | an empty template renders as the empty string, and `apply` fails exactly when the machine stops with a failure, since no exception is caught |
| InterpreterLaws.RunExtends | src/templating.py:454-576 | a run only ever appends to the output it started with |
| InterpreterLaws.PlainTextUnchanged | src/templating.py:195-579 | a template without directives compiles to its text and renders as itself |
| InterpreterLaws.BlockTrimsNewline | src/templating.py:566-575 | inside a block, with nothing written yet, a literal loses its leading newline |
| InterpreterLaws.LiteralKept | src/templating.py:566-575 | otherwise an unmuted non-empty literal is appended as it is |
| InterpreterLaws.ResolveEmits | src/templating.py:466-480 | an unmuted `${path}` appends the marker for None, the string, or the decimal integer, and fails on anything else |
| InterpreterLaws.MutedResolveFails | src/templating.py:467-467 | a path is looked up even while muted, so its lookup failure still stops the run |
| InterpreterLaws.MissingVariableMarked | src/templating.py:474-475 | a key missing from the context appends `[[ERROR: Missing variable P]]` and the run goes on |
| InterpreterLaws.TranslateEmits | src/templating.py:481-487 | an unmuted translation appends the text for the locale |
| InterpreterLaws.TranslationRendered | src/templating.py:199-487 | a lone `${T:...}` renders as the last value given for the locale, or the missing-translation marker showing the table |
| InterpreterLaws.IfOpens | src/templating.py:488-492 | `if` pushes one frame saving scope, prefix, `this` and mute, and sets mute to mute or not the condition |
| InterpreterLaws.IfWithoutCondition | src/templating.py:433-434 | `if` without an expression keeps writing |
| InterpreterLaws.ElseNegates | src/templating.py:493-494 | as written, `else` negates the mute flag and changes nothing else |
| InterpreterLaws.BlockRestores | src/templating.py:555-560 | the `end` of an `if` or `with` restores the scope, prefix, `this` and mute saved by its opener, sets `i` to -1 and pops exactly that frame |
| InterpreterLaws.StrayEnd | src/templating.py:516-518 | an `end` with no open block is an IndexError |
| LoopLaws.SimpleStep | src/templating.py:466-487 | an unmuted literal, resolve or translation appends its output and moves on |
| LoopLaws.MutedSimpleStep | src/templating.py:466-566 | while muted a literal, a resolvable resolve or a translation appends nothing |
| LoopLaws.EnterList | src/templating.py:495-509 | a `for` over a non-empty list binds `this` to the first item and `i` to 0, pushes its frame and keeps the mute flag |
| LoopLaws.EnterEmpty | src/templating.py:502-509 | a `for` over a falsy collection binds `this` to None and `i` to -1 and mutes |
| LoopLaws.EndContinues | src/templating.py:519-539 | at `end`, while passes remain, control returns after the `for` with `this` and `i` bound to the next item and index |
| LoopLaws.EndLeaves | src/templating.py:540-554 | at the last `end` the loop restores scope, prefix, `this` and mute, sets `i` to the pass count and pops its frame |
| LoopLaws.Passes | src/templating.py:522-533 | the body runs n times over n items with limit -1 or a limit of at least n, and `limit` times for a limit from 1 to n |
| LoopLaws.LoopRuns | src/templating.py:495-554 | for a body of literals (not starting with a newline), resolves and translations: a loop over a non-empty list writes the body's output for each pass in order, with `this` and `i` bound to the pass's item and index, then continues after its `end` with `this` restored and `i` the pass count |
| LoopLaws.EmptyLoop | src/templating.py:495-554 | for a body of literals (not starting with a newline), resolves and translations whose paths all resolve (a muted resolve still looks its path up, src/templating.py:466-467): a loop over a falsy collection runs its body once, muted, writing nothing, and continues after its `end` with `this` restored and `i` = 1 |
| LoopPasses.RunTrace | src/templating.py:457-575 | a recorded sequence of turns of the `while` loop may stand for the first turns of a run, one unit of fuel per turn |
| LoopPasses.EndStartsPass | src/templating.py:519-543 | the `end` after a pass with passes left starts the next pass with the next item and index bound, the prefix of the `for`, and the flag and output the pass left |
| LoopPasses.RunEnters | src/templating.py:495-509 | a `for` over a non-empty list, whatever the flag, starts its first pass under the inner prefix with the flag kept |
| LoopPasses.LoopPasses | src/templating.py:495-554 | for any body (nested blocks, `else`, a newline-led literal): a loop over a non-empty list makes n passes with limit -1, otherwise max(1, min(limit, n)) passes, each starting with the next item bound and the flag and output the previous pass left, then leaves with `this` restored, `i` the pass count, and the prefix, frames and flag of the `for` |
| LoopPasses.EmptyPass | src/templating.py:495-554 | for any body: a loop over a falsy collection makes one pass started muted with `this` None and `i` -1, keeps what that pass writes, and leaves with `this` restored, `i` = 1 and the flag of the `for` |
| LoopPasses.ForElseEmpty | src/templating.py:493-509 | over an absent list, `${for:xs}${else}none${end}` writes "none", since the `else` unmutes the one muted pass |
| LoopPasses.ElseCarries | src/templating.py:493-543 | the continue branch does not restore the flag, so over two items `${for:xs}A${else}B${end}` writes "A" then "B" |
| LoopPasses.NewlineOnce | src/templating.py:566-574 | the newline after `${for:xs}` is dropped only while nothing has been written, so a newline-led `A` over two items writes "A" then "\nA" |
| Findings.ElseInMutedBlock | src/templating.py:493-494 | as written an `else` inside a block muted from outside un-mutes it; as intended it stays muted |
| Findings.NestedElseAsWritten | src/templating.py:488-560 | as written, the `else` branch of an `if` nested inside a false `if` is rendered |
| Findings.NestedElseIntended | src/templating.py:488-560 | as intended, a false outer `if` renders nothing of its nested `if`/`else` |
| Findings.ShortLoopPath | src/templating.py:495-501 | as written a `for` over a one-character path raises IndexError; as intended it opens with the absolute slot name as prefix |
| Findings.ShortWithPath | src/templating.py:510-515 | the same for a `with` over a one-character path, which as intended enters the resolved value |
| Findings.ShortLoopAsWritten | src/templating.py:495-501 | as written `${for:x}${end}` over `x = ['a']` fails with IndexError |
| Findings.ShortLoopIntended | src/templating.py:495-554 | as intended the same template renders the empty string |
| Schema.SplitOnce | src/templating.py:135-136 | `split('.', 1)` gives the whole undotted name, or the dot-free head and the rest after the first dot |
| Schema.Export | src/templating.py:87-161 | a scalar exports as `'Any'` exactly when it has no attributes (None or empty), and otherwise as `{'value': 'Any', 'attributes': ...}`; a list as a one-item list holding its item map's export, or `'Any'` before any item slot; a map as its table's export |
| SchemaLaws.DefineFinds | src/templating.py:104-151 | after `defineSlot(name, v)` the name designates `v`, through fresh maps where a scalar or nothing stood and through a list's item map |
| SchemaLaws.DefineOtherHead | src/templating.py:133-151 | only the slot named by the first segment changes |
| SchemaLaws.DefineFrame | src/templating.py:133-151 | every name that parts ways with the defined one designates what it did before |
| SchemaLaws.DefineOrder | src/templating.py:140-147 | `order` gains the first segment at its end on first sight and is otherwise unchanged |
| SchemaLaws.DefineOverScalar | src/templating.py:145-150 | a scalar met on a dotted path is replaced by a fresh map leading to the new slot |
| SchemaLaws.DefineTidy | src/templating.py:133-151 | every map of the schema, at every depth, lists each name once in `order` |
| SchemaLaws.ImportExport | src/templating.py:87-161 | an export loses nothing: read back, it gives the slot it came from, for every schema with one entry per name and no empty attribute list |
| SchemaLaws.ImportExportTable | src/templating.py:153-161 | the same for a map's table: names, their order and every slot come back |
| SchemaLaws.ExportTableLists | src/templating.py:153-161 | a map exports its names in definition order under `order` and each slot's export under its name in `values` |
| Information.InfoStep | src/templating.py:315-335 | `if` is an unknown operation, `else` an IndexError, `with` without operand an AttributeError, an `end` fails exactly with no open block, and the depth changes by one per `for`/`with`/`end` |
| Information.Enter | src/templating.py:322-329 | a `for` or `with` saves the prefix, makes its absolute name the prefix and defines its slot there |
| Information.ListVariables | src/templating.py:287-299 | the raw resolve paths, de-duplicated in first-seen order: a path is listed exactly when some resolve carries it, and once |
| Information.ResolvePathsHold | src/templating.py:292-298 | the resolve paths are exactly the paths of the template's resolves |
| Information.FirstSeenHolds | src/templating.py:289-298 | de-duplication keeps every name and lists none twice |
| Information.WalkSucceeds | src/templating.py:313-335 | the walk succeeds exactly when every operation is handled (no `if`, `else` or operand-less `with`) and no `end` closes more blocks than are open |
| Information.WalkTidy | src/templating.py:313-335 | every table the walk builds keeps one entry per name |
| Information.GetInformation | src/templating.py:309-336 | `getInformation` succeeds exactly on such templates, and the schema it returns lists each name once in every `order` |
| InformationLaws.WalkNests | src/templating.py:322-332 | a walk that closes what it opens keeps the saved prefixes below it, and its depth grows by the blocks it leaves open |
| InformationLaws.BlockRestoresPrefix | src/templating.py:330-332 | a balanced run of operations ends with the prefix and saved prefixes it started with |
| InformationLaws.ResolveRegisters | src/templating.py:318-319 | a resolve defines a scalar with its attributes at its absolute name and leaves the prefix alone |
| InformationLaws.ForRegisters | src/templating.py:322-325 | a `for` defines a list at its absolute name and makes that name the prefix |
| InformationLaws.LoopItemsSchema | src/templating.py:309-336 | `${for:items}${this.name}${end}` infers a list `items` whose item map holds the scalar `name` |
| InformationLaws.ResolvePathsAppend | src/templating.py:292-298 | the listed paths of two templates joined are the paths of the first then of the second |
| InformationLaws.BothBranchesListed | src/templating.py:287-299 | both branches of an `if`/`else` contribute their variables |
| InformationLaws.ListTranslationsAppend | src/templating.py:301-307 | the tables of two templates joined are the tables of the first then of the second |
| Information.ListTranslations | src/templating.py:301-307 | a table is listed exactly when some translation operation carries it |

## Left out

- LoopLaws.LoopRuns: stated only for bodies of literals that do not start with a newline, resolves and translations (`SimpleBody`), with each pass's output taken from `Written`. Two behaviours of the source keep the plain statement from holding for other bodies: the `end` that starts another pass does not restore the flag, so an `else` in the body carries into the next pass; and a newline-led literal is trimmed only while nothing has been written. `LoopPasses.LoopPasses` states the loop for every body, with the passes taken from the interpreter's own turns.
- LoopLaws.EmptyLoop: stated only for the same plain bodies, and only when every path in the body resolves, because a muted resolve still looks its path up and can fail. `LoopPasses.EmptyPass` covers every body, including an `else` that unmutes the pass.
- `json.dumps` is a foreign call, so it is a parameter of the interpreter (`Env.dumps`). Passing the locale and the operation as its `skipkeys` and `ensure_ascii` flags works only under Python 2; under Python 3 the `json` formatter would raise a TypeError as well. `apply` ignores its own `formatters` argument, as the source does.
- `int()` also accepts `_` between digits (Python 3.6 and later) and non-ASCII digits; `ParseInt` accepts surrounding whitespace, an optional sign and ASCII decimal digits only.
- `json.loads` of a comparison literal is a foreign call and is a parameter (`Env.parseJson`, `None` where it raises).
- Floats are not modelled; numbers are integers.
- Interpreter.Emitted follows Python 2, where an integer is written through `str`. Under Python 3 the name `long` in the type test is undefined, so any value that is not a string raises NameError.
- `EnsureUnicode` and `IsString` are encoding plumbing: templates are `seq<char>`, with no bytes input and no decoding.
- `str.lower()` is modelled on ASCII letters; Python lower-cases every Unicode letter.
- Post-processors (`addPostProcessor`) are caller callbacks; `Apply` is the joined output before them.
- Resolution.Segment: a numeric segment always indexes the context, as under Python 3. Under Python 2 a segment outside the machine integer range (beyond `sys.maxint`) is a `long`, which fails `type(index) is int` (src/templating.py:376-377). There a dict is asked for the segment as a key, and any other context gives None. So `${xs.99999999999999999999}` on a list writes the missing-variable marker under Python 2, where the model stops with IndexError (KeyError on a dict).
- Resolution.Segment: the `hasattr`/`getattr` fallback, taken on every non-dict context for a non-numeric segment, gives None; attributes are not modelled. On a list or a string Python finds methods such as `count` or `upper`, so `${items.count}` stops the render with "must be a string" (and is truthy in a condition) where the model writes the missing-variable marker.
- Writing `this` and `i` into the caller's dict is modelled as an update of the current scope map. The aliasing it causes in the caller's nested objects is not.
- A `None` appended in place of a missing prefix is `Literal("")`; every consumer treats both alike.
- Interpreter.Run is bounded by fuel (`OutOfFuel` is a model-only failure). The source always terminates, and the fuel only bounds the number of turns a proof unrolls.
- `ListType.defineSlot`'s "Incompatible slot types" branch is unreachable, because its content is always `None` or a `MapType`. It is not modelled.
- `order` and `content` of a `MapType` are one insertion-ordered dict: the source adds a name to both at the same time, so they always list the same names in the same order.
- The order of `values` in an export is not modelled: it is a Python dict whose order a reader of the export does not use.
- `strict`, `encoding` and `defaultLocale` are fixed as the constructor sets them (`defaultLocale` is `'en'`).
- Literals.Unprintable covers the controls, the Latin-1 controls, the no-break space, the soft hyphen and the Unicode space and line separators. Python 3 also escapes the other characters its Unicode database does not count as printable (format characters such as U+200B, unassigned and private-use code points, surrogates), with `\U` and eight digits above U+FFFF; the model writes those as themselves.
- Under Python 2 the marker's table would be written as `{u'en': u'Hi'}`, in the dict's hash order; the model writes the Python 3.7 form only.
- SchemaLaws.ImportExport needs every attribute list to be non-empty: an empty list exports as `'Any'`, exactly like no list at all, so the two cannot be told apart when read back.
- `_getAbsoluteSlotName` rewrites `this` only for `str` names. Under Python 2, names from a decoded template are `unicode`, and no name would be rewritten.

## Findings

| source | as written | input that shows it | evidently intended | confidence | as-written member | corrected member |
|---|---|---|---|---|---|---|
| src/templating.py:493-494 | `${else}` sets `mute = not mute` whatever muted the block, so inside an `if` muted from outside it un-mutes the `else` branch | `${if:x}${if:x}A${else}B${end}${end}` with an empty context renders `B` | a block muted by an outer block stays muted in both branches | medium, not executed | Findings.NestedElseAsWritten | Findings.NestedElseIntended |
| src/templating.py:501 | `_getAbsoluteSlotName(name, prefix)` receives the path string where the operation list is expected, so `operation[1]` is the path's second character, and a one-character path raises IndexError | `${for:x}${end}` with `x = ['a']` raises IndexError | the prefix is the absolute slot name of the path, as in `getInformation` | high, not executed | Findings.ShortLoopAsWritten | Findings.ShortLoopIntended |

=== FILE: decomposer.dfy ===
/** `Template.Decompose` (src/templating.py:190-268): the template text is cut
    at every `${...}` directive found by `RE_DIRECTIVE` (line 51), left to
    right. The text between directives becomes a literal and each directive
    becomes the operations its content classifies to. */
module Decomposer {
  import opened Results
  import opened Text
  import opened Operations
  import opened Directives

  /** One match of `RE_DIRECTIVE`: where it starts and ends, the `\n\s*`
      prefix it was found with (the first alternative), and its content. */
  datatype DirectiveMatch = DirectiveMatch(start: nat, prefix: Option<string>, content: string, end: nat)

  /** `${` followed by `[^}]+}` at `j`: where the content ends, if it matches. */
  function BracesAt(s: string, j: nat): (r: Option<nat>)
    requires j <= |s|
    ensures r.Some? ==> j + 2 < r.value < |s| && s[r.value] == '}'
  {
    if j + 1 < |s| && s[j] == '$' && s[j + 1] == '{' then
      var c := RunEnd(s, j + 2, NotCloseBrace);
      if c > j + 2 && c < |s| then Some(c) else None
    else None
  }

  /** What `RE_DIRECTIVE` matches when tried at position `i`: first the form
      `\n\s*${...}` that keeps its prefix, then the bare `${...}`. */
  function MatchAt(s: string, i: nat): (r: Option<DirectiveMatch>)
    requires i <= |s|
    ensures r.Some? ==> r.value.start == i && i < r.value.end <= |s|
  {
    var withPrefix :=
      if i < |s| && s[i] == '\n' then
        var j := RunEnd(s, i + 1, IsReSpace);
        match BracesAt(s, j)
        case Some(c) => Some(DirectiveMatch(i, Some(s[i..j]), s[j + 2..c], c + 1))
        case None => None
      else None;
    if withPrefix.Some? then withPrefix
    else match BracesAt(s, i)
      case Some(c) => Some(DirectiveMatch(i, None, s[i + 2..c], c + 1))
      case None => None
  }

  /** The next match `finditer` reports at or after `from`: the leftmost one. */
  function FindDirective(s: string, from: nat): (r: Option<DirectiveMatch>)
    requires from <= |s|
    ensures r.Some? ==> from <= r.value.start < r.value.end <= |s|
    decreases |s| - from, 1
  {
    TryFrom(s, from)
  }

  /** One attempt of the scan: a match at `from`, or the search from the next position. */
  function TryFrom(s: string, from: nat): (r: Option<DirectiveMatch>)
    requires from <= |s|
    ensures r.Some? ==> from <= r.value.start < r.value.end <= |s|
    decreases |s| - from, 0
  {
    match MatchAt(s, from)
    case Some(m) => Some(m)
    case None => if from == |s| then None else FindDirective(s, from + 1)
  }

  /** One step of the search, as `finditer` takes it. */
  lemma {:induction false} FindStep(s: string, from: nat, from1: nat)
    requires from <= |s| && from1 == from + 1
    ensures MatchAt(s, from).Some? ==> FindDirective(s, from) == MatchAt(s, from)
    ensures MatchAt(s, from).None? && from < |s| ==> FindDirective(s, from) == FindDirective(s, from1)
    ensures MatchAt(s, from).None? && from == |s| ==> FindDirective(s, from).None?
  {
    assert FindDirective(s, from) == TryFrom(s, from);
  }

  /** The match found is a match, and the leftmost: nothing matches before
      it, and nothing matches at all when none is found. */
  lemma {:induction false} FindDirectiveFirst(s: string, from: nat)
    requires from <= |s|
    ensures FindDirective(s, from).Some? ==> MatchAt(s, FindDirective(s, from).value.start) == FindDirective(s, from)
    ensures FindDirective(s, from).Some? ==> forall k :: from <= k < FindDirective(s, from).value.start ==> MatchAt(s, k).None?
    ensures FindDirective(s, from).None? ==> forall k :: from <= k <= |s| ==> MatchAt(s, k).None?
    decreases |s| - from
  {
    var from1 := from + 1;
    FindStep(s, from, from1);
    if MatchAt(s, from).None? && from < |s| {
      FindDirectiveFirst(s, from1);
    }
  }

  /** Where the first directive at or after `offset` starts, or the end of
      the text when there is none. */
  function FirstStart(s: string, offset: nat): (r: nat)
    requires offset <= |s|
    ensures offset <= r <= |s|
    ensures forall k :: offset <= k < r ==> MatchAt(s, k).None?
    ensures r < |s| ==> MatchAt(s, r).Some?
  {
    FindDirectiveFirst(s, offset);
    match FindDirective(s, offset)
    case None => |s|
    case Some(m) => m.start
  }

  /** Where the last directive reported from `offset` on ends (`offset`
      itself when there is none): no directive is found after it. */
  function LastEnd(s: string, offset: nat): (r: nat)
    requires offset <= |s|
    ensures offset <= r <= |s|
    ensures FindDirective(s, r).None?
    decreases |s| - offset
  {
    match FindDirective(s, offset)
    case None => offset
    case Some(m) => LastEnd(s, m.end)
  }

  /** A stretch of the template text: plain text, or the content of a
      directive with the `\n\s*` prefix it was found with. */
  datatype Piece = Text(text: string) | Directive(content: string, prefix: Option<string>)

  /** The text from `offset` on, cut at every directive `finditer` reports:
      the text up to the next directive, that directive, and the rest in
      turn; the text after the last directive ends the list. */
  function Scan(s: string, offset: nat): (r: seq<Piece>)
    requires offset <= |s|
    ensures |r| >= 1 && r[0].Text? && r[|r| - 1].Text?
    decreases |s| - offset
  {
    match FindDirective(s, offset)
    case None => [Text(s[offset..])]
    case Some(m) => [Text(s[offset..m.start]), Directive(m.content, m.prefix)] + Scan(s, m.end)
  }

  /** The scan starts with the text before the first directive. */
  lemma {:induction false} ScanFirst(s: string, offset: nat)
    requires offset <= |s|
    ensures Scan(s, offset)[0] == Text(s[offset..FirstStart(s, offset)])
  {
    if FindDirective(s, offset).None? {
      assert s[offset..|s|] == s[offset..];
    }
  }

  /** The scan ends with the text after the last directive. */
  lemma {:induction false} ScanLast(s: string, offset: nat)
    requires offset <= |s|
    ensures Scan(s, offset)[|Scan(s, offset)| - 1] == Text(s[LastEnd(s, offset)..])
    decreases |s| - offset
  {
    match FindDirective(s, offset)
    case None =>
    case Some(m) =>
      var front := [Text(s[offset..m.start]), Directive(m.content, m.prefix)];
      var rest := Scan(s, m.end);
      assert Scan(s, offset) == front + rest;
      assert LastEnd(s, offset) == LastEnd(s, m.end);
      ScanLast(s, m.end);
      assert (front + rest)[|front + rest| - 1] == rest[|rest| - 1];
  }

  /** The operations of one piece: a text is one literal. */
  function PieceOps(piece: Piece): (r: Result<seq<Op>>)
    ensures r.Ok? ==> |r.value| >= 1
  {
    match piece
    case Text(t) => Ok([Literal(t)])
    case Directive(d, prefix) => Classify(d, prefix)
  }

  /** The operations of the pieces one after the other; the first directive
      that does not compile stops the template, as the exception raised in
      the middle of the source's loop does. */
  function Compile(pieces: seq<Piece>): (r: Result<seq<Op>>)
    ensures r.Ok? ==> |r.value| >= |pieces|
    ensures r.Ok? && pieces != [] && pieces[0].Text? ==> r.value[0] == Literal(pieces[0].text)
    ensures r.Ok? && pieces != [] && pieces[|pieces| - 1].Text? ==> r.value[|r.value| - 1] == Literal(pieces[|pieces| - 1].text)
  {
    if pieces == [] then Ok([])
    else
      var ops :- PieceOps(pieces[0]);
      var rest :- Compile(pieces[1..]);
      Ok(ops + rest)
  }

  /** `Template.Decompose(source)`. */
  function Decompose(s: string): (r: Result<seq<Op>>)
    ensures r.Ok? ==> |r.value| >= 1
    ensures r.Ok? ==> r.value[0] == Literal(s[..FirstStart(s, 0)])
    ensures r.Ok? ==> r.value[|r.value| - 1] == Literal(s[LastEnd(s, 0)..])
  {
    ScanFirst(s, 0);
    ScanLast(s, 0);
    Compile(Scan(s, 0))
  }
}

=== FILE: decomposer_laws.dfy ===
/** What decomposition promises: a text without a directive is one literal,
    a directive is found wherever `${`, a non-empty content and `}` occur,
    and a directive between two texts contributes exactly its own
    operations, whether written inline or on a line of its own. */
module DecomposerLaws {
  import opened Results
  import opened Text
  import opened Operations
  import opened Directives
  import opened Decomposer

  /** `${`, then at least one character other than `}`, then a `}` later on. */
  predicate DirectiveAt(s: string, i: nat) {
    i + 2 < |s| && s[i] == '$' && s[i + 1] == '{' && s[i + 2] != '}' && '}' in s[i + 2..]
  }

  predicate HasDirective(s: string) {
    exists i :: 0 <= i < |s| && DirectiveAt(s, i)
  }

  lemma {:induction false} BracesIsDirective(s: string, j: nat)
    requires j <= |s|
    ensures BracesAt(s, j).Some? <==> DirectiveAt(s, j)
  {
    if DirectiveAt(s, j) {
      var c := RunEnd(s, j + 2, NotCloseBrace);
      var m :| 0 <= m < |s[j + 2..]| && s[j + 2..][m] == '}';
      assert s[j + 2 + m] == '}';
      RunEndSpan(s, j + 2, NotCloseBrace);
      assert c <= j + 2 + m;
    }
    if BracesAt(s, j).Some? {
      var c := BracesAt(s, j).value;
      assert s[j + 2..][c - j - 2] == '}';
    }
  }

  /** Every match of `RE_DIRECTIVE` contains a directive, and every
      directive is matched where it starts. */
  lemma {:induction false} MatchIsDirective(s: string, i: nat)
    requires i <= |s|
    ensures MatchAt(s, i).Some? ==> exists j :: i <= j < |s| && DirectiveAt(s, j)
    ensures i < |s| && DirectiveAt(s, i) ==> MatchAt(s, i).Some?
  {
    BracesIsDirective(s, i);
    if i < |s| && s[i] == '\n' {
      var j := RunEnd(s, i + 1, IsReSpace);
      BracesIsDirective(s, j);
    }
  }

  /** No match is found from position 0 exactly when the text holds no directive. */
  lemma {:induction false} NoMatchIffNoDirective(s: string)
    ensures FindDirective(s, 0).None? <==> !HasDirective(s)
  {
    FindDirectiveFirst(s, 0);
    if FindDirective(s, 0).Some? {
      MatchIsDirective(s, FindDirective(s, 0).value.start);
    }
    if HasDirective(s) {
      var i :| 0 <= i < |s| && DirectiveAt(s, i);
      MatchIsDirective(s, i);
    }
  }

  /** A template without directives decomposes to itself as one literal, and
      only such a template does. */
  lemma {:induction false} IdentityExactly(s: string)
    ensures Decompose(s) == Ok([Literal(s)]) <==> !HasDirective(s)
  {
    NoMatchIffNoDirective(s);
    if FindDirective(s, 0).None? {
      assert s[0..] == s;
      var pieces := Scan(s, 0);
      assert pieces == [Text(s)];
      assert pieces[1..] == [];
      assert [Literal(s)] + [] == [Literal(s)];
      assert Compile(pieces) == Ok([Literal(s)] + []);
    } else {
      assert |Scan(s, 0)| >= 3;
    }
  }

  // ---------------------------------------------------------------------
  // Matching depends only on the text from the tried position on
  // ---------------------------------------------------------------------

  lemma {:induction false} RunEndShift(p: string, s: string, i: nat, f: char -> bool)
    requires i <= |s|
    ensures RunEnd(p + s, |p| + i, f) == |p| + RunEnd(s, i, f)
  {
    var e := RunEnd(s, i, f);
    var t := p + s;
    RunEndSpan(s, i, f);
    assert forall k :: |p| + i <= k < |p| + e ==> t[k] == s[k - |p|];
    if |p| + e < |t| {
      assert t[|p| + e] == s[e];
    }
    RunEndAt(t, |p| + i, f, |p| + e);
  }

  function Shift(m: Option<DirectiveMatch>, n: nat): Option<DirectiveMatch> {
    if m.None? then None
    else Some(DirectiveMatch(n + m.value.start, m.value.prefix, m.value.content, n + m.value.end))
  }

  lemma {:induction false} ShiftSome(m: DirectiveMatch, n: nat)
    ensures Shift(Some(m), n) == Some(DirectiveMatch(n + m.start, m.prefix, m.content, n + m.end))
  {
  }

  lemma {:induction false} BracesShift(p: string, s: string, j: nat)
    requires j <= |s|
    ensures BracesAt(p + s, |p| + j) == match BracesAt(s, j) case Some(c) => Some(|p| + c) case None => None
  {
    var t := p + s;
    if j + 1 < |s| {
      assert t[|p| + j] == s[j] && t[|p| + j + 1] == s[j + 1];
      RunEndShift(p, s, j + 2, NotCloseBrace);
    }
  }

  /** What the first alternative of `RE_DIRECTIVE` tries at `i`. */
  function PrefixedAt(s: string, i: nat): Option<DirectiveMatch>
    requires i <= |s|
  {
    if i < |s| && s[i] == '\n' then
      var j := RunEnd(s, i + 1, IsReSpace);
      match BracesAt(s, j)
      case Some(c) => Some(DirectiveMatch(i, Some(s[i..j]), s[j + 2..c], c + 1))
      case None => None
    else None
  }

  /** What the second alternative of `RE_DIRECTIVE` tries at `i`. */
  function BareAt(s: string, i: nat): Option<DirectiveMatch>
    requires i <= |s|
  {
    match BracesAt(s, i)
    case Some(c) => Some(DirectiveMatch(i, None, s[i + 2..c], c + 1))
    case None => None
  }

  lemma {:induction false} MatchAtSplit(s: string, i: nat)
    requires i <= |s|
    ensures MatchAt(s, i) == if PrefixedAt(s, i).Some? then PrefixedAt(s, i) else BareAt(s, i)
  {
  }

  lemma {:induction false} SliceShift(p: string, s: string, a: nat, b: nat)
    requires a <= b <= |s|
    ensures (p + s)[|p| + a..|p| + b] == s[a..b]
  {
  }

  lemma {:induction false} PrefixedAtIs(s: string, i: nat, j: nat)
    requires i < |s| && s[i] == '\n' && RunEnd(s, i + 1, IsReSpace) == j
    ensures PrefixedAt(s, i) == match BracesAt(s, j)
                                case Some(c) => Some(DirectiveMatch(i, Some(s[i..j]), s[j + 2..c], c + 1))
                                case None => None
  {
  }

  lemma {:induction false} PrefixedShift(p: string, s: string, i: nat)
    requires i < |s| && s[i] == '\n'
    ensures PrefixedAt(p + s, |p| + i) == Shift(PrefixedAt(s, i), |p|)
  {
    var t := p + s;
    var i1 := i + 1;
    assert t[|p| + i] == s[i];
    var j := RunEnd(s, i1, IsReSpace);
    var pi, pj := |p| + i, |p| + j;
    RunEndShift(p, s, i1, IsReSpace);
    BracesShift(p, s, j);
    SliceShift(p, s, i, j);
    PrefixedAtIs(s, i, j);
    PrefixedAtIs(t, pi, pj);
    match BracesAt(s, j)
    case Some(c) =>
      var j2 := j + 2;
      SliceShift(p, s, j2, c);
    case None =>
  }

  lemma {:induction false} BareShift(p: string, s: string, i: nat)
    requires i <= |s|
    ensures BareAt(p + s, |p| + i) == Shift(BareAt(s, i), |p|)
  {
    var t := p + s;
    BracesShift(p, s, i);
    match BracesAt(s, i)
    case Some(c) =>
      SliceShift(p, s, i + 2, c);
    case None =>
  }

  lemma {:induction false} MatchShift(p: string, s: string, i: nat)
    requires i <= |s|
    ensures MatchAt(p + s, |p| + i) == Shift(MatchAt(s, i), |p|)
  {
    MatchAtSplit(s, i);
    MatchAtSplit(p + s, |p| + i);
    BareShift(p, s, i);
    if i < |s| && s[i] == '\n' {
      PrefixedShift(p, s, i);
    } else {
      assert |p| + i < |p + s| ==> (p + s)[|p| + i] == s[i];
    }
  }

  lemma {:induction false} FindShift(p: string, s: string, i: nat)
    requires i <= |s|
    ensures FindDirective(p + s, |p| + i) == Shift(FindDirective(s, i), |p|)
    decreases |s| - i
  {
    MatchShift(p, s, i);
    if MatchAt(s, i).None? && i < |s| {
      FindShift(p, s, i + 1);
    }
  }

  /** One round of scanning when no directive follows `offset`. */
  lemma {:induction false} ScanRest(s: string, offset: nat, text: string)
    requires offset <= |s| && FindDirective(s, offset).None? && s[offset..] == text
    ensures Scan(s, offset) == [Text(text)]
  {
  }

  /** One round of scanning when the next directive is the given match. */
  lemma {:induction false} ScanAt(s: string, offset: nat, start: nat, prefix: Option<string>, content: string, end: nat)
    requires offset <= |s| && FindDirective(s, offset) == Some(DirectiveMatch(start, prefix, content, end))
    ensures offset <= start < end <= |s|
    ensures Scan(s, offset) == [Text(s[offset..start]), Directive(content, prefix)] + Scan(s, end)
  {
  }

  lemma {:induction false} SuffixShift(p: string, s: string, i: nat)
    requires i <= |s|
    ensures (p + s)[|p| + i..] == s[i..]
  {
  }

  lemma {:induction false} FindShiftNone(p: string, s: string, i: nat)
    requires i <= |s| && FindDirective(s, i).None?
    ensures FindDirective(p + s, |p| + i).None?
  {
    FindShift(p, s, i);
  }

  lemma {:induction false} FindShiftSome(p: string, s: string, i: nat, m: DirectiveMatch)
    requires i <= |s| && FindDirective(s, i) == Some(m)
    ensures FindDirective(p + s, |p| + i) == Some(DirectiveMatch(|p| + m.start, m.prefix, m.content, |p| + m.end))
  {
    FindShift(p, s, i);
    ShiftSome(m, |p|);
  }

  /** Behind `p`, the last round of scanning `s` is the same. */
  lemma {:induction false} ShiftedRest(p: string, s: string, i: nat)
    requires i <= |s| && FindDirective(s, i).None?
    ensures Scan(p + s, |p| + i) == [Text(s[i..])]
  {
    FindShiftNone(p, s, i);
    SuffixShift(p, s, i);
    ScanRest(p + s, |p| + i, s[i..]);
  }

  /** Behind `p`, a round of scanning `s` finds the same directive. */
  lemma {:induction false} ShiftedAt(p: string, s: string, i: nat, m: DirectiveMatch)
    requires i <= |s| && FindDirective(s, i) == Some(m)
    ensures m.end <= |s|
    ensures Scan(p + s, |p| + i) == [Text(s[i..m.start]), Directive(m.content, m.prefix)] + Scan(p + s, |p| + m.end)
  {
    var q, a, b, e := p + s, |p| + i, |p| + m.start, |p| + m.end;
    FindShiftSome(p, s, i, m);
    ScanAt(q, a, b, m.prefix, m.content, e);
    SliceShift(p, s, i, m.start);
  }

  /** Scanning a text from a position is scanning what follows it. */
  lemma {:induction false} ScanShift(p: string, s: string, i: nat)
    requires i <= |s|
    ensures Scan(p + s, |p| + i) == Scan(s, i)
    decreases |s| - i
  {
    match FindDirective(s, i)
    case None =>
      ScanRest(s, i, s[i..]);
      ShiftedRest(p, s, i);
    case Some(m) =>
      ScanAt(s, i, m.start, m.prefix, m.content, m.end);
      ShiftedAt(p, s, i, m);
      ScanShift(p, s, m.end);
      var front := [Text(s[i..m.start]), Directive(m.content, m.prefix)];
      calc {
        Scan(p + s, |p| + i);
        front + Scan(p + s, |p| + m.end);
        front + Scan(s, m.end);
        Scan(s, i);
      }
  }

  // ---------------------------------------------------------------------
  // A directive between two texts
  // ---------------------------------------------------------------------

  /** `lit` holds no `${`. */
  predicate NoOpening(lit: string) {
    forall k :: 0 <= k < |lit| - 1 ==> !(lit[k] == '$' && lit[k + 1] == '{')
  }

  /** `lit` ends with a line break followed by whitespace only: a directive
      right after it would be matched together with that line break. */
  predicate EndsOnOwnLine(lit: string) {
    exists k :: 0 <= k < |lit| && lit[k] == '\n' && forall m :: k < m < |lit| ==> IsReSpace(lit[m])
  }

  /** Joining the operations of a directive to the literal before it and
      the decomposition of the text after it, errors propagating in order. */
  function Glue(lit: string, ops: Result<seq<Op>>, rest: Result<seq<Op>>): Result<seq<Op>> {
    match ops
    case Err(e) => Err(e)
    case Ok(o) =>
      match rest
      case Err(e) => Err(e)
      case Ok(r) => Ok([Literal(lit)] + o + r)
  }

  /** No match starts inside a plain literal that is followed by `$` or a line break. */
  lemma {:induction false} NoMatchInLiteral(s: string, lit: string, k: nat)
    requires |lit| < |s| && s[..|lit|] == lit && (s[|lit|] == '$' || s[|lit|] == '\n')
    requires NoOpening(lit) && !EndsOnOwnLine(lit)
    requires k < |lit|
    ensures MatchAt(s, k).None?
  {
    assert forall m :: 0 <= m < |lit| ==> s[m] == lit[m];
    if s[k] == '\n' {
      var j := RunEnd(s, k + 1, IsReSpace);
      RunEndSpan(s, k + 1, IsReSpace);
      assert lit[k] == '\n';
      assert !(forall m :: k < m < |lit| ==> IsReSpace(lit[m]));
      var m :| k < m < |lit| && !IsReSpace(lit[m]);
      assert !IsReSpace(s[m]);
      assert j <= m;
      assert !IsReSpace(s[j]);
      assert BracesAt(s, j).None?;
    }
    assert BracesAt(s, k).None?;
  }

  lemma {:induction false} FindSkip(s: string, from: nat, to: nat)
    requires from <= to <= |s|
    requires forall k :: from <= k < to ==> MatchAt(s, k).None?
    ensures FindDirective(s, from) == FindDirective(s, to)
    decreases |s| - from
  {
    if from < to {
      FindSkip(s, from + 1, to);
    }
  }

  /** The text after a directive at `start` that ends at `end` is scanned on its own. */
  lemma {:induction false} ScanAfter(s: string, lit: string, m: DirectiveMatch, rest: string)
    requires FindDirective(s, 0) == Some(m) && m.start == |lit| && s[..|lit|] == lit
    requires m.end <= |s| && s[m.end..] == rest
    ensures Scan(s, 0) == [Text(lit), Directive(m.content, m.prefix)] + Scan(rest, 0)
  {
    ScanAt(s, 0, m.start, m.prefix, m.content, m.end);
    assert s == s[..m.end] + rest;
    ScanShift(s[..m.end], rest, 0);
    assert s[0..m.start] == lit;
  }

  /** A text and a directive in front of more pieces compile to the literal,
      the directive's operations and the rest, the first error winning. */
  lemma {:induction false} CompileFront(lit: string, d: string, prefix: Option<string>, rest: seq<Piece>)
    ensures Compile([Text(lit), Directive(d, prefix)] + rest) == Glue(lit, Classify(d, prefix), Compile(rest))
  {
    var pieces := [Text(lit), Directive(d, prefix)] + rest;
    assert pieces[1..] == [Directive(d, prefix)] + rest;
    assert pieces[1..][1..] == rest;
    match Classify(d, prefix)
    case Err(_) =>
    case Ok(o) =>
      match Compile(rest)
      case Err(_) =>
      case Ok(r) =>
        assert [Literal(lit)] + (o + r) == [Literal(lit)] + o + r;
  }

  /** The template after a directive at `start` that ends at `end` decomposes on its own. */
  lemma {:induction false} DecomposeAfter(s: string, lit: string, m: DirectiveMatch, rest: string)
    requires FindDirective(s, 0) == Some(m) && m.start == |lit| && s[..|lit|] == lit
    requires m.end <= |s| && s[m.end..] == rest
    ensures Decompose(s) == Glue(lit, Classify(m.content, m.prefix), Decompose(rest))
  {
    ScanAfter(s, lit, m, rest);
    CompileFront(lit, m.content, m.prefix, Scan(rest, 0));
  }

  /** `${d}` at `j`, with `d` free of `}`, is matched up to its brace. */
  lemma {:induction false} BracesOf(s: string, j: nat, c: nat, e: nat, d: string)
    requires |d| >= 1 && '}' !in d
    requires c == j + 2 + |d| && e == c + 1
    requires e <= |s| && s[j..e] == "${" + d + "}"
    ensures BracesAt(s, j) == Some(c) && s[j + 2..c] == d
  {
    var w := s[j..e];
    assert s[j] == w[0] && s[j + 1] == w[1] && s[c] == w[|d| + 2];
    assert forall k :: j + 2 <= k < c ==> s[k] == w[k - j] == d[k - j - 2];
    RunEndAt(s, j + 2, NotCloseBrace, c);
    assert s[j + 2..c] == w[2..|d| + 2];
  }

  /** A directive written inline after a plain literal compiles to its own
      operations, with no prefix. */
  lemma {:induction false} InlineDirective(lit: string, d: string, rest: string)
    requires NoOpening(lit) && !EndsOnOwnLine(lit)
    requires |d| >= 1 && '}' !in d
    ensures Decompose(lit + "${" + d + "}" + rest) == Glue(lit, Classify(d, None), Decompose(rest))
  {
    var s := lit + "${" + d + "}" + rest;
    var i := |lit|;
    var c := i + 2 + |d|;
    var e := c + 1;
    assert s[..i] == lit;
    assert s[i..e] == "${" + d + "}";
    assert s[e..] == rest;
    forall k | 0 <= k < i ensures MatchAt(s, k).None? {
      NoMatchInLiteral(s, lit, k);
    }
    FindSkip(s, 0, i);
    BracesOf(s, i, c, e, d);
    MatchAtSplit(s, i);
    assert MatchAt(s, i) == Some(DirectiveMatch(i, None, d, e));
    DecomposeAfter(s, lit, DirectiveMatch(i, None, d, e), rest);
  }

  /** A template that is one inline directive compiles to its operations
      between two empty literals. */
  lemma {:induction false} LoneDirective(d: string, ops: seq<Op>)
    requires |d| >= 1 && '}' !in d && Classify(d, None) == Ok(ops)
    ensures Decompose("${" + d + "}") == Ok([Literal("")] + ops + [Literal("")])
  {
    assert "${" + d + "}" == "" + "${" + d + "}" + "";
    InlineDirective("", d, "");
    assert !HasDirective("");
    IdentityExactly("");
  }

  /** The line break and indentation in front of a directive are its prefix. */
  lemma {:induction false} OwnLineMatch(s: string, i: nat, j: nat, c: nat, e: nat, ws: string, d: string)
    requires forall k :: 0 <= k < |ws| ==> IsReSpace(ws[k])
    requires |d| >= 1 && '}' !in d
    requires j == i + 1 + |ws| && c == j + 2 + |d| && e == c + 1
    requires e <= |s| && s[i..e] == "\n" + ws + "${" + d + "}"
    ensures MatchAt(s, i) == Some(DirectiveMatch(i, Some("\n" + ws), d, e))
  {
    SliceSplit(s, i, j, e, "\n" + ws, "${" + d + "}");
    IndentRun(s, i, j, ws);
    BracesOf(s, j, c, e, d);
    PrefixedAtIs(s, i, j);
    MatchAtSplit(s, i);
  }

  /** The indentation after a line break runs up to the `$` that follows it. */
  lemma {:induction false} IndentRun(s: string, i: nat, j: nat, ws: string)
    requires forall k :: 0 <= k < |ws| ==> IsReSpace(ws[k])
    requires j == i + 1 + |ws| && j < |s| && s[i..j] == "\n" + ws && s[j] == '$'
    ensures s[i] == '\n' && RunEnd(s, i + 1, IsReSpace) == j
  {
    assert s[i] == s[i..j][0];
    assert forall k :: i + 1 <= k < j ==> s[k] == s[i..j][k - i] == ws[k - i - 1];
    RunEndAt(s, i + 1, IsReSpace, j);
  }

  /** A directive alone on its line, after a line break and indentation,
      compiles with that line break and indentation as its prefix. */
  lemma {:induction false} OwnLineDirective(lit: string, ws: string, d: string, rest: string)
    requires NoOpening(lit) && !EndsOnOwnLine(lit)
    requires forall k :: 0 <= k < |ws| ==> IsReSpace(ws[k])
    requires |d| >= 1 && '}' !in d
    ensures Decompose(lit + "\n" + ws + "${" + d + "}" + rest)
            == Glue(lit, Classify(d, Some("\n" + ws)), Decompose(rest))
  {
    var s := lit + "\n" + ws + "${" + d + "}" + rest;
    var i := |lit|;
    var j := i + 1 + |ws|;
    var c := j + 2 + |d|;
    var e := c + 1;
    assert s[..i] == lit;
    assert s[i..e] == "\n" + ws + "${" + d + "}";
    assert s[e..] == rest;
    forall k | 0 <= k < i ensures MatchAt(s, k).None? {
      NoMatchInLiteral(s, lit, k);
    }
    FindSkip(s, 0, i);
    OwnLineMatch(s, i, j, c, e, ws, d);
    DecomposeAfter(s, lit, DirectiveMatch(i, Some("\n" + ws), d, e), rest);
  }
}

=== FILE: dicts.dfy ===
/** Python dicts with string keys, in insertion order: a key keeps the
    position of its first assignment and the value of its last one. The
    translation tables of `${T:...}` and the slot tables of the schema
    (`MapType.content` with its `order` list) are both such dicts. */
module Dicts {
  import opened Results

  type Dict<V> = seq<(string, V)>

  predicate UniqueKeys<V>(t: Dict<V>) {
    forall i, j :: 0 <= i < j < |t| ==> t[i].0 != t[j].0
  }

  /** The first entries of a dict form a dict. */
  lemma {:induction false} UniqueKeysPrefix<V>(t: Dict<V>, n: nat)
    requires UniqueKeys(t) && n <= |t|
    ensures UniqueKeys(t[..n])
  {
    var front := t[..n];
    forall i, j | 0 <= i < j < |front| ensures front[i].0 != front[j].0 {
      assert front[i] == t[i] && front[j] == t[j];
    }
  }

  /** The keys in insertion order: the `order` list of a `MapType`. */
  function Keys<V>(t: Dict<V>): (r: seq<string>)
    ensures |r| == |t| && forall i :: 0 <= i < |t| ==> r[i] == t[i].0
  {
    if t == [] then [] else [t[0].0] + Keys(t[1..])
  }

  /** `k in t` and `t[k]` together. */
  function Lookup<V(==)>(t: Dict<V>, k: string): (r: Option<V>)
    ensures r.Some? ==> exists i :: 0 <= i < |t| && t[i] == (k, r.value)
  {
    if t == [] then None
    else if t[0].0 == k then Some(t[0].1)
    else Lookup(t[1..], k)
  }

  /** A key is missing exactly when no entry carries it. */
  lemma {:induction false} LookupNone<V>(t: Dict<V>, k: string)
    ensures Lookup(t, k).None? <==> forall i :: 0 <= i < |t| ==> t[i].0 != k
  {
    if t != [] && t[0].0 != k {
      LookupNone(t[1..], k);
      assert forall i :: 1 <= i < |t| ==> t[i] == t[1..][i - 1];
    }
  }

  /** `t[k] = v`: the key maps to the new value, keeps its position when it
      was present and is appended when it was not. */
  function Put<V>(t: Dict<V>, k: string, v: V): (r: Dict<V>)
    ensures Lookup(r, k) == Some(v)
    ensures |r| == if Lookup(t, k).Some? then |t| else |t| + 1
    ensures Lookup(t, k).None? ==> r[|t|] == (k, v)
  {
    if t == [] then [(k, v)]
    else if t[0].0 == k then [(k, v)] + t[1..]
    else [t[0]] + Put(t[1..], k, v)
  }

  /** Every entry after `t[k] = v` is the new one or an old one. */
  lemma {:induction false} PutEntries<V>(t: Dict<V>, k: string, v: V)
    ensures forall i :: 0 <= i < |Put(t, k, v)| ==> Put(t, k, v)[i] == (k, v) || Put(t, k, v)[i] in t
  {
    if t != [] && t[0].0 != k {
      PutEntries(t[1..], k, v);
      var r := Put(t, k, v);
      forall i | 1 <= i < |r| ensures r[i] == (k, v) || r[i] in t {
        assert r[i] == Put(t[1..], k, v)[i - 1];
      }
    }
  }

  /** Every other key keeps its value. */
  lemma {:induction false} PutOther<V>(t: Dict<V>, k: string, v: V, k': string)
    requires k' != k
    ensures Lookup(Put(t, k, v), k') == Lookup(t, k')
  {
    if t != [] && t[0].0 != k {
      PutOther(t[1..], k, v, k');
      assert Put(t, k, v)[1..] == Put(t[1..], k, v);
    }
  }

  /** Every entry keeps its key and its position. */
  lemma {:induction false} PutKeys<V>(t: Dict<V>, k: string, v: V)
    ensures forall i :: 0 <= i < |t| ==> Put(t, k, v)[i].0 == t[i].0
  {
    if t != [] && t[0].0 != k {
      PutKeys(t[1..], k, v);
      assert forall i :: 1 <= i < |t| ==> Put(t, k, v)[i] == Put(t[1..], k, v)[i - 1];
    }
  }

  /** The order of the keys after `t[k] = v`: unchanged when `k` was
      present, `k` added at the end when it was not. */
  lemma {:induction false} PutOrder<V>(t: Dict<V>, k: string, v: V)
    ensures Keys(Put(t, k, v)) == if k in Keys(t) then Keys(t) else Keys(t) + [k]
  {
    var r := Put(t, k, v);
    PutKeys(t, k, v);
    LookupNone(t, k);
    if k in Keys(t) {
      assert Keys(r) == Keys(t);
    } else {
      assert Keys(r) == Keys(t) + [k];
    }
  }

  /** `t[k] = v` keeps every entry's key in place, and one entry per key. */
  lemma {:induction false} PutKeeps<V>(t: Dict<V>, k: string, v: V)
    ensures |t| <= |Put(t, k, v)| && forall i :: 0 <= i < |t| ==> Put(t, k, v)[i].0 == t[i].0
    ensures UniqueKeys(t) ==> UniqueKeys(Put(t, k, v))
  {
    PutKeys(t, k, v);
    if UniqueKeys(t) {
      PutUnique(t, k, v);
    }
  }

  /** A dict keeps one entry per key. */
  lemma {:induction false} PutUnique<V>(t: Dict<V>, k: string, v: V)
    requires UniqueKeys(t)
    ensures UniqueKeys(Put(t, k, v))
  {
    var r := Put(t, k, v);
    PutKeys(t, k, v);
    LookupNone(t, k);
    forall i, j | 0 <= i < j < |r| ensures r[i].0 != r[j].0 {
      assert r[i].0 == t[i].0;
      if j < |t| {
        assert r[j].0 == t[j].0;
      } else {
        assert Lookup(t, k).None? && r[j] == (k, v);
      }
    }
  }
}

=== FILE: directive_laws.dfy ===
/** What the directive classifier promises: the order in which the three
    forms are tried, and that each form reads back what a well-formed
    directive of that form says. */
module DirectiveLaws {
  import opened Results
  import opened Text
  import opened Operations
  import opened Directives

  // ---------------------------------------------------------------------
  // Priority: what makes a directive unrecognised, and keywords at the start
  // ---------------------------------------------------------------------

  /** "Unrecognized directive" is raised exactly for content that does not
      start with an ASCII letter or digit: any such start is claimed by the
      translation, the control or the variable form. */
  lemma {:induction false} UnrecognizedExactly(d: string, prefix: Option<string>)
    ensures (Classify(d, prefix).Err? && Classify(d, prefix).error.SyntaxError?)
            <==> (d == [] || !IsAlnum(d[0]))
  {
    if d == [] || !IsAlnum(d[0]) {
      assert !StartsWith(d, "T:") by {
        if |d| >= 2 { assert d[..2][0] == d[0]; }
      }
      assert MatchTranslation(d).None?;
      assert Keyword(d).None? by {
        if |d| >= 2 { assert d[..2][0] == d[0]; }
        if |d| >= 3 { assert d[..3][0] == d[0]; }
        if |d| >= 4 { assert d[..4][0] == d[0]; }
      }
      assert MatchVariable(d).None?;
    } else {
      assert MatchVariable(d).Some?;
      ClassifyClaimed(d, prefix);
    }
  }

  /** Only the variable form raises "Unrecognized directive". */
  lemma {:induction false} ClassifyClaimed(d: string, prefix: Option<string>)
    requires MatchVariable(d).Some?
    ensures !(Classify(d, prefix).Err? && Classify(d, prefix).error.SyntaxError?)
  {
    match MatchTranslation(d)
    case Some(list) =>
      var t := ParseTranslations(list, []);
    case None =>
      match Keyword(d)
      case Some(kw) =>
        var op := ControlOp(kw, ControlOperand(d, |kw|));
        assert op.Err? ==> !op.error.SyntaxError?;
      case None =>
  }

  /** What a keyword-led directive's operand is: the text after a `:` that
      immediately follows the keyword, when there is any. */
  function OperandAfter(rest: string): Option<string> {
    if |rest| >= 2 && rest[0] == ':' then Some(rest[1..]) else None
  }

  /** A control keyword is recognised from the first characters alone, whatever
      follows it: `endDate` is an `End` and `iffy` an `If`. */
  lemma {:induction false} KeywordAtStart(kw: string, rest: string, prefix: Option<string>)
    requires kw in ["if", "else", "for", "with", "end"]
    requires '}' !in rest
    ensures Classify(kw + rest, prefix)
            == (match ControlOp(kw, OperandAfter(rest))
                case Ok(op) => Ok([op])
                case Err(e) => Err(e))
  {
    KeywordLeads(kw, rest);
    KeywordOperand(kw, rest);
  }

  /** Content that starts with a keyword is no translation and has that keyword. */
  lemma {:induction false} KeywordLeads(kw: string, rest: string)
    requires kw in ["if", "else", "for", "with", "end"]
    ensures MatchTranslation(kw + rest).None? && Keyword(kw + rest) == Some(kw)
  {
    var d := kw + rest;
    assert d[..|kw|] == kw;
    assert d[0] == kw[0] != 'T';
    assert !StartsWith(d, "T:") by {
      if |d| >= 2 { assert d[..2][0] == d[0]; }
    }
    if kw != "if" {
      assert !StartsWith(d, "if") by { assert d[..2][0] == d[0]; }
    }
    if kw != "else" && kw != "if" {
      assert !StartsWith(d, "else") by {
        if |d| >= 4 {
          assert d[..4][0] == d[0];
          assert d[..4][1] == d[1];
          if kw == "end" { assert d[1] == 'n'; }
        }
      }
    }
    if kw == "with" || kw == "end" {
      assert !StartsWith(d, "for") by { assert d[..3][0] == d[0]; }
    }
    if kw == "end" {
      assert !StartsWith(d, "with") by {
        if |d| >= 4 { assert d[..4][0] == d[0]; }
      }
    }
  }

  /** The operand read after a keyword is the text after a leading `:`. */
  lemma {:induction false} KeywordOperand(kw: string, rest: string)
    requires '}' !in rest
    ensures ControlOperand(kw + rest, |kw|) == OperandAfter(rest)
  {
    var d := kw + rest;
    var k := |kw|;
    if |rest| >= 1 && rest[0] == ':' {
      assert d[k] == rest[0];
      assert forall j :: k + 1 <= j < |d| ==> d[j] == rest[j - k];
      RunEndAt(d, k + 1, NotCloseBrace, |d|);
      var e := RunEnd(d, k + 1, NotCloseBrace);
      assert e == |d| == k + |rest|;
      if |rest| >= 2 {
        assert d[k + 1..e] == rest[1..];
      }
    } else if |rest| >= 1 {
      assert d[k] == rest[0];
    }
  }

  /** `${for:PATH|N}` records the limit `N`; without `|N` the limit is -1. */
  lemma {:induction false} ForLimit(path: string, n: int)
    requires '|' !in path
    ensures ControlOp("for", Some(path)) == Ok(For(path, -1))
    ensures ControlOp("for", Some(path + "|" + IntToString(n))) == Ok(For(path, n))
    ensures ControlOp("for", None) == Err(AttributeError)
  {
    SplitJoin([path], '|');
    var digits := IntToString(n);
    assert '|' !in digits by {
      var m: nat := if n < 0 then -n else n;
      assert AllDigits(NatToString(m));
    }
    SplitJoin([path, digits], '|');
    assert Join([path, digits], '|') == path + "|" + digits;
    ParseIntToString(n);
  }

  // ---------------------------------------------------------------------
  // Variable form
  // ---------------------------------------------------------------------

  /** `.s1.s2...`: the dotted continuation of a path. */
  function Dotted(segments: seq<string>): string {
    if segments == [] then "" else "." + segments[0] + Dotted(segments[1..])
  }

  predicate AllChars(s: string, p: char -> bool) {
    forall k :: 0 <= k < |s| ==> p(s[k])
  }

  /** A path the variable pattern reads in full: a first segment of ASCII
      letters and digits, then segments of word characters after dots. */
  predicate IsPath(head: string, segments: seq<string>) {
    && |head| >= 1 && AllChars(head, IsAlnum)
    && forall i :: 0 <= i < |segments| ==> |segments[i]| >= 1 && AllChars(segments[i], IsWordChar)
  }

  /** The source text of a well-formed resolve directive. */
  function VariableText(path: string, attributes: Option<seq<string>>, formatters: seq<string>): string
    requires attributes.Some? ==> |attributes.value| >= 1
  {
    path
    + (match attributes case Some(a) => ":" + Join(a, ',') case None => "")
    + (if formatters == [] then "" else "|" + Join(formatters, '+'))
  }

  /** The path group ends where the dotted segments end. */
  lemma {:induction false} PathEndOf(d: string, pre: string, segments: seq<string>, post: string)
    requires d == pre + Dotted(segments) + post
    requires forall i :: 0 <= i < |segments| ==> |segments[i]| >= 1 && AllChars(segments[i], IsWordChar)
    requires post == [] || post[0] == ':' || post[0] == '|'
    ensures PathEnd(d, |pre|) == |pre| + |Dotted(segments)|
    decreases |segments|
  {
    if segments == [] {
    } else {
      var s := segments[0];
      var pre' := pre + "." + s;
      assert d == pre' + Dotted(segments[1..]) + post;
      assert d[|pre|] == '.' && d[|pre| + 1] == s[0];
      var tail := Dotted(segments[1..]) + post;
      assert tail == [] || tail[0] == '.' || tail[0] == ':' || tail[0] == '|';
      assert forall k :: |pre| + 1 <= k < |pre'| ==> d[k] == s[k - |pre| - 1];
      if |pre'| < |d| {
        assert d[|pre'|] == tail[0];
      }
      RunEndAt(d, |pre| + 1, IsWordChar, |pre'|);
      PathEndOf(d, pre', segments[1..], post);
    }
  }

  /** A text none of whose characters satisfies `p`, or a first character that does not. */
  lemma {:induction false} RunEndLead(d: string, at: nat, p: char -> bool)
    requires at < |d| && !p(d[at])
    ensures RunEnd(d, at, p) == at
  {
  }

  /** A suffix group `<lead>[class]+` is read back in full. */
  lemma {:induction false} SuffixOf(d: string, at: nat, lead: char, member: char -> bool, body: string, post: string)
    requires at + 1 + |body| + |post| == |d|
    requires d[at..] == [lead] + body + post
    requires |body| >= 1 && AllChars(body, member)
    requires post == [] || !member(post[0])
    ensures Suffix(d, at, lead, member) == (Some(body), at + 1 + |body|)
  {
    var e := at + 1 + |body|;
    assert forall k :: at + 1 <= k < e ==> d[k] == body[k - at - 1];
    if e < |d| {
      assert d[e] == post[0];
    }
    RunEndAt(d, at + 1, member, e);
    assert d[at + 1..e] == body;
  }

  /** A suffix group is absent when its lead character is not there. */
  lemma {:induction false} SuffixAbsent(d: string, at: nat, lead: char, member: char -> bool)
    requires at <= |d|
    requires at == |d| || d[at] != lead
    ensures Suffix(d, at, lead, member) == (None, at)
  {
  }

  /** A directive without `=` is never a translation: every item needs one. */
  lemma {:induction false} NoEqualsNoTranslation(d: string)
    requires '=' !in d
    ensures MatchTranslation(d).None?
  {
    if StartsWith(d, "T:") {
      var w := RunEnd(d, 2, IsWordChar);
      assert w == |d| || d[w] != '=';
    }
  }

  /** Starting with a keyword is decided by the path when a non-letter follows it. */
  lemma {:induction false} KeywordOfPath(path: string, d: string)
    requires |path| >= 1 && StartsWith(d, path)
    requires |d| == |path| || !IsLetter(d[|path|])
    requires Keyword(path).None?
    ensures Keyword(d).None?
  {
    forall kw | kw in ["if", "else", "for", "with", "end"]
      ensures !StartsWith(d, kw)
    {
      if |kw| <= |path| {
        assert path[..|kw|] == d[..|kw|];
      } else if |kw| <= |d| {
        assert d[..|kw|][|path|] != kw[|path|];
      }
    }
  }

  lemma {:induction false} AllCharsConcat(a: string, b: string, p: char -> bool)
    requires AllChars(a, p) && AllChars(b, p)
    ensures AllChars(a + b, p)
  {
    forall k | 0 <= k < |a + b| ensures p((a + b)[k]) {
      if k >= |a| {
        assert (a + b)[k] == b[k - |a|];
      }
    }
  }

  /** A character a variable directive may be written with. */
  predicate IsVariableChar(c: char) {
    IsAttributeChar(c) || IsFormatterChar(c) || c == '.' || c == ':' || c == '|'
  }

  lemma {:induction false} DottedChars(segments: seq<string>)
    requires forall i :: 0 <= i < |segments| ==> AllChars(segments[i], IsWordChar)
    ensures AllChars(Dotted(segments), IsVariableChar)
    ensures Dotted(segments) == [] || Dotted(segments)[0] == '.'
    decreases |segments|
  {
    if segments != [] {
      DottedChars(segments[1..]);
      AllCharsConcat(".", segments[0], IsVariableChar);
      AllCharsConcat("." + segments[0], Dotted(segments[1..]), IsVariableChar);
    }
  }

  /** The path group of `RE_VARIABLE` covers exactly a well-formed path. */
  lemma {:induction false} PathOf(head: string, segments: seq<string>, post: string)
    requires IsPath(head, segments)
    requires post == [] || post[0] == ':' || post[0] == '|'
    ensures var d := head + Dotted(segments) + post;
            PathEnd(d, RunEnd(d, 0, IsAlnum)) == |head + Dotted(segments)|
  {
    var d := head + Dotted(segments) + post;
    assert forall k :: 0 <= k < |head| ==> d[k] == head[k];
    DottedChars(segments);
    if |head| < |d| {
      assert d[|head|] == (Dotted(segments) + post)[0];
    }
    RunEndAt(d, 0, IsAlnum, |head|);
    PathEndOf(d, head, segments, post);
  }

  /** The text of an optional group: its lead character and body, or nothing. */
  function GroupText(lead: char, g: Option<string>): string {
    match g
    case Some(x) => [lead] + x
    case None => ""
  }

  /** An optional suffix group, present or absent, is read back as written. */
  lemma {:induction false} GroupOf(d: string, at: nat, lead: char, member: char -> bool, g: Option<string>, post: string)
    requires at <= |d| && d[at..] == GroupText(lead, g) + post
    requires g.Some? ==> |g.value| >= 1 && AllChars(g.value, member)
    requires post == [] || (!member(post[0]) && post[0] != lead)
    ensures Suffix(d, at, lead, member) == (g, at + |GroupText(lead, g)|)
  {
    if g.Some? {
      SuffixOf(d, at, lead, member, g.value, post);
    } else {
      if at < |d| {
        assert d[at] == d[at..][0];
      }
      SuffixAbsent(d, at, lead, member);
    }
  }

  /** `RE_VARIABLE.match` is decided by where its path and its two groups end. */
  lemma {:induction false} MatchVariableAt(d: string, p: nat, a: Option<string>, q: nat, f: Option<string>)
    requires d != [] && IsAlnum(d[0])
    requires PathEnd(d, RunEnd(d, 0, IsAlnum)) == p
    requires p <= |d| && Suffix(d, p, ':', IsAttributeChar) == (a, q)
    requires q <= |d| && Suffix(d, q, '|', IsFormatterChar).0 == f
    ensures MatchVariable(d) == Some((d[..p], a, f))
  {
  }

  /** `RE_VARIABLE` reads a well-formed directive text back into its three groups. */
  lemma {:induction false} VariableMatch(head: string, segments: seq<string>, a: Option<string>, f: Option<string>)
    requires IsPath(head, segments)
    requires a.Some? ==> |a.value| >= 1 && AllChars(a.value, IsAttributeChar)
    requires f.Some? ==> |f.value| >= 1 && AllChars(f.value, IsFormatterChar)
    ensures var path := head + Dotted(segments);
            MatchVariable(path + GroupText(':', a) + GroupText('|', f)) == Some((path, a, f))
  {
    var path := head + Dotted(segments);
    var attrText := GroupText(':', a);
    var fmtText := GroupText('|', f);
    var d := path + attrText + fmtText;
    var post := attrText + fmtText;
    assert d == head + Dotted(segments) + post;
    assert post == [] || post[0] == ':' || post[0] == '|';
    PathOf(head, segments, post);
    var p := |path|;
    assert d[..p] == path;
    assert d[p..] == attrText + fmtText;
    assert fmtText == [] || fmtText[0] == '|';
    assert !IsAttributeChar('|');
    assert a.Some? ==> |a.value| >= 1 && AllChars(a.value, IsAttributeChar);
    GroupOf(d, p, ':', IsAttributeChar, a, fmtText);
    var q := p + |attrText|;
    assert d[q..] == fmtText + [];
    GroupOf(d, q, '|', IsFormatterChar, f, []);
    assert d[0] == head[0];
    MatchVariableAt(d, p, a, q, f);
  }

  /** The attribute group a list of attributes is written as. */
  function AttributeGroup(attributes: Option<seq<string>>): Option<string>
    requires attributes.Some? ==> |attributes.value| >= 1
  {
    match attributes case Some(xs) => Some(Join(xs, ',')) case None => None
  }

  /** The formatter group a list of formatters is written as. */
  function FormatterGroup(formatters: seq<string>): Option<string> {
    if formatters == [] then None else Some(Join(formatters, '+'))
  }

  /** Attributes made of word characters and spaces give a well-formed group
      that splits back on `,` into the same attributes. */
  lemma {:induction false} AttributeGroupOf(attributes: Option<seq<string>>)
    requires attributes.Some? ==> |attributes.value| >= 1 && |Join(attributes.value, ',')| >= 1
    requires attributes.Some? ==> forall i :: 0 <= i < |attributes.value| ==>
               AllChars(attributes.value[i], IsWordOrSpace)
    ensures var a := AttributeGroup(attributes);
            && (a.Some? ==> |a.value| >= 1 && AllChars(a.value, IsAttributeChar))
            && (a.Some? ==> Split(a.value, ',') == attributes.value)
            && AllChars(GroupText(':', a), IsVariableChar)
  {
    if attributes.Some? {
      var xs := attributes.value;
      JoinChars(xs, ',', IsWordOrSpace, IsAttributeChar);
      forall i | 0 <= i < |xs| ensures ',' !in xs[i] {
        assert forall k :: 0 <= k < |xs[i]| ==> IsWordOrSpace(xs[i][k]);
        assert !IsWordOrSpace(',');
      }
      SplitJoin(xs, ',');
      AllCharsConcat(":", Join(xs, ','), IsVariableChar);
    }
  }

  /** Formatters made of word characters give a well-formed group that splits
      back on `+` into the same formatters. */
  lemma {:induction false} FormatterGroupOf(formatters: seq<string>)
    requires formatters != [] ==> |Join(formatters, '+')| >= 1
    requires forall i :: 0 <= i < |formatters| ==> AllChars(formatters[i], IsWordChar)
    ensures var f := FormatterGroup(formatters);
            && (f.Some? ==> |f.value| >= 1 && AllChars(f.value, IsFormatterChar))
            && (f.Some? ==> Split(f.value, '+') == formatters)
            && AllChars(GroupText('|', f), IsVariableChar)
  {
    if formatters != [] {
      JoinChars(formatters, '+', IsWordChar, IsFormatterChar);
      forall i | 0 <= i < |formatters| ensures '+' !in formatters[i] {
        assert forall k :: 0 <= k < |formatters[i]| ==> IsWordChar(formatters[i][k]);
      }
      SplitJoin(formatters, '+');
      AllCharsConcat("|", Join(formatters, '+'), IsVariableChar);
    }
  }

  /** A path followed by variable groups is neither a translation nor a keyword. */
  lemma {:induction false} NeitherTranslationNorKeyword(head: string, segments: seq<string>, post: string)
    requires IsPath(head, segments)
    requires Keyword(head + Dotted(segments)).None?
    requires AllChars(post, IsVariableChar)
    requires post == [] || post[0] == ':' || post[0] == '|'
    ensures var d := head + Dotted(segments) + post;
            MatchTranslation(d).None? && Keyword(d).None?
  {
    var path := head + Dotted(segments);
    var d := path + post;
    DottedChars(segments);
    assert AllChars(head, IsVariableChar);
    AllCharsConcat(head, Dotted(segments), IsVariableChar);
    AllCharsConcat(path, post, IsVariableChar);
    assert '=' !in d by {
      assert forall k :: 0 <= k < |d| ==> IsVariableChar(d[k]);
      assert !IsVariableChar('=');
    }
    NoEqualsNoTranslation(d);
    assert d[..|path|] == path;
    if |path| < |d| {
      assert d[|path|] == post[0];
    }
    KeywordOfPath(path, d);
  }

  /** Content that only the variable form claims compiles to one `Resolve`. */
  lemma {:induction false} ClassifyVariable(d: string, prefix: Option<string>, path: string, a: Option<string>, f: Option<string>)
    requires MatchTranslation(d).None? && Keyword(d).None?
    requires MatchVariable(d) == Some((path, a, f))
    ensures Classify(d, prefix)
            == Ok([Resolve(path, match a case Some(x) => Some(Split(x, ',')) case None => None,
                           match f case Some(y) => Split(y, '+') case None => [], prefix)])
  {
  }

  /** A well-formed variable directive is claimed by the variable form alone,
      which reads back its path and both groups. */
  lemma {:induction false} VariableClaimed(head: string, segments: seq<string>,
                                           attributes: Option<seq<string>>, formatters: seq<string>)
    requires IsPath(head, segments)
    requires Keyword(head + Dotted(segments)).None?
    requires attributes.Some? ==> |attributes.value| >= 1 && |Join(attributes.value, ',')| >= 1
    requires attributes.Some? ==> forall i :: 0 <= i < |attributes.value| ==>
               AllChars(attributes.value[i], IsWordOrSpace)
    requires formatters != [] ==> |Join(formatters, '+')| >= 1
    requires forall i :: 0 <= i < |formatters| ==> AllChars(formatters[i], IsWordChar)
    ensures var path := head + Dotted(segments);
            var d := VariableText(path, attributes, formatters);
            && MatchTranslation(d).None? && Keyword(d).None?
            && MatchVariable(d) == Some((path, AttributeGroup(attributes), FormatterGroup(formatters)))
  {
    var path := head + Dotted(segments);
    var a := AttributeGroup(attributes);
    var f := FormatterGroup(formatters);
    var d := VariableText(path, attributes, formatters);
    assert d == path + GroupText(':', a) + GroupText('|', f);
    AttributeGroupOf(attributes);
    FormatterGroupOf(formatters);
    VariableMatch(head, segments, a, f);
    GroupsNeither(head, segments, GroupText(':', a), GroupText('|', f));
  }

  /** A path followed by the text of variable groups is neither a translation nor a keyword. */
  lemma {:induction false} GroupsNeither(head: string, segments: seq<string>, attrText: string, fmtText: string)
    requires IsPath(head, segments)
    requires Keyword(head + Dotted(segments)).None?
    requires AllChars(attrText, IsVariableChar) && AllChars(fmtText, IsVariableChar)
    requires attrText == [] || attrText[0] == ':'
    requires fmtText == [] || fmtText[0] == '|'
    ensures var d := head + Dotted(segments) + attrText + fmtText;
            MatchTranslation(d).None? && Keyword(d).None?
  {
    var post := attrText + fmtText;
    AllCharsConcat(attrText, fmtText, IsVariableChar);
    assert head + Dotted(segments) + attrText + fmtText == head + Dotted(segments) + post;
    NeitherTranslationNorKeyword(head, segments, post);
  }

  /** A well-formed variable directive compiles back to the path, attributes
      and formatters it was written with: attributes split on `,` (None when
      absent), formatters split on `+` (empty when absent). */
  lemma {:induction false} VariableRoundTrip(head: string, segments: seq<string>,
                                             attributes: Option<seq<string>>, formatters: seq<string>,
                                             prefix: Option<string>)
    requires IsPath(head, segments)
    requires Keyword(head + Dotted(segments)).None?
    requires attributes.Some? ==> |attributes.value| >= 1 && |Join(attributes.value, ',')| >= 1
    requires attributes.Some? ==> forall i :: 0 <= i < |attributes.value| ==>
               AllChars(attributes.value[i], IsWordOrSpace)
    requires formatters != [] ==> |Join(formatters, '+')| >= 1
    requires forall i :: 0 <= i < |formatters| ==> AllChars(formatters[i], IsWordChar)
    ensures var path := head + Dotted(segments);
            Classify(VariableText(path, attributes, formatters), prefix)
            == Ok([Resolve(path, attributes, formatters, prefix)])
  {
    var path := head + Dotted(segments);
    var a := AttributeGroup(attributes);
    var f := FormatterGroup(formatters);
    AttributeGroupOf(attributes);
    FormatterGroupOf(formatters);
    VariableClaimed(head, segments, attributes, formatters);
    ClassifyVariable(VariableText(path, attributes, formatters), prefix, path, a, f);
  }

  /** Joining parts whose characters are in one class, with a separator in a
      second class that contains the first, gives text in the second class. */
  lemma {:induction false} JoinChars(parts: seq<string>, sep: char, inner: char -> bool, outer: char -> bool)
    requires |parts| >= 1
    requires forall i :: 0 <= i < |parts| ==> AllChars(parts[i], inner)
    requires forall c :: inner(c) ==> outer(c)
    requires outer(sep)
    ensures AllChars(Join(parts, sep), outer)
    decreases |parts|
  {
    if |parts| > 1 {
      JoinChars(parts[1..], sep, inner, outer);
      var j := Join(parts, sep);
      assert j == parts[0] + [sep] + Join(parts[1..], sep);
      forall k | 0 <= k < |j| ensures outer(j[k]) {
        if k < |parts[0]| {
          assert j[k] == parts[0][k];
        } else if k > |parts[0]| {
          assert j[k] == Join(parts[1..], sep)[k - |parts[0]| - 1];
        }
      }
    }
  }
}

=== FILE: directives.dfy ===
/** Classification of the content of one `${...}` directive
    (src/templating.py:50-55, 199-265). Each regular expression of the source
    is a hand-written recogniser for exactly the shape it accepts, and the
    three are tried in the source's order: translation, control, variable. */
module Directives {
  import opened Results
  import opened Text
  import opened Dicts
  import opened Operations

  // ---------------------------------------------------------------------
  // Translation form: `T:(ITEM(,ITEM)*)`, ITEM = `\w+=('[^']+'|"[^"]+"|[^},]+)`
  // ---------------------------------------------------------------------

  /** A character of a bare value, `[^},]`. */
  predicate IsBareChar(c: char) { c != '}' && c != ',' }

  /** Where the quoted value `q[^q]+q` opening at `v` ends, if it closes
      with at least one character inside. */
  function QuotedEnd(d: string, v: nat, q: char): (r: Option<nat>)
    requires v < |d|
    ensures r.Some? ==> v + 2 < r.value <= |d|
  {
    if d[v] != q then None
    else match Find(d, q, v + 1)
      case Some(k) => if k > v + 1 then Some(k + 1) else None
      case None => None
  }

  /** The end of the value alternatives, tried in order at `v`. */
  function ValueEnd(d: string, v: nat): (r: Option<nat>)
    requires v <= |d|
    ensures r.Some? ==> v < r.value <= |d|
  {
    if v == |d| then None
    else match QuotedEnd(d, v, '\'')
      case Some(e) => Some(e)
      case None =>
        match QuotedEnd(d, v, '"')
        case Some(e) => Some(e)
        case None => if IsBareChar(d[v]) then Some(RunEnd(d, v, IsBareChar)) else None
  }

  /** The end of one `lang=value` item starting at `p`, if one starts there. */
  function ItemEnd(d: string, p: nat): (r: Option<nat>)
    requires p <= |d|
    ensures r.Some? ==> p < r.value <= |d|
  {
    var w := RunEnd(d, p, IsWordChar);
    if w == p || w == |d| || d[w] != '=' then None else ValueEnd(d, w + 1)
  }

  /** The end of the greedy repetition `(,ITEM)*` starting at `p`. */
  function ItemsEnd(d: string, p: nat): (r: nat)
    requires p <= |d|
    ensures p <= r <= |d|
    decreases |d| - p, 1
  {
    if p < |d| && d[p] == ',' then NextItem(d, p) else p
  }

  /** One more round of the repetition at the comma at `p`, if an item follows it. */
  function NextItem(d: string, p: nat): (r: nat)
    requires p < |d| && d[p] == ','
    ensures p <= r <= |d|
    decreases |d| - p, 0
  {
    match ItemEnd(d, p + 1)
    case Some(e) => ItemsEnd(d, e)
    case None => p
  }

  /** `RE_TRANSLATION.match(d).group(1)`: the translation list `d` starts with. */
  function MatchTranslation(d: string): Option<string> {
    if !StartsWith(d, "T:") then None
    else match ItemEnd(d, 2)
      case None => None
      case Some(e) => Some(d[2..ItemsEnd(d, e)])
  }

  /** The `while rest:` loop (src/templating.py:209-227) that turns the matched
      list into a table. Keys lose their commas and are lower-cased; a value
      is single-quoted, double-quoted, or bare up to the next comma. */
  function ParseTranslations(rest: string, acc: Translations): (r: Result<Translations>)
    ensures r.Err? ==> r.error in {ValueError, IndexError}
    ensures r.Ok? ==> |acc| <= |r.value| && forall i :: 0 <= i < |acc| ==> r.value[i].0 == acc[i].0
    ensures r.Ok? && UniqueKeys(acc) ==> UniqueKeys(r.value)
    decreases |rest|, 3
  {
    if rest == [] then Ok(acc) else ParsePass(rest, acc)
  }

  /** One pass of the loop over a non-empty `rest`: the key up to the first
      `=`, then its value. */
  function ParsePass(rest: string, acc: Translations): (r: Result<Translations>)
    requires rest != []
    ensures r.Err? ==> r.error in {ValueError, IndexError}
    ensures r.Ok? ==> |acc| <= |r.value| && forall i :: 0 <= i < |acc| ==> r.value[i].0 == acc[i].0
    ensures r.Ok? && UniqueKeys(acc) ==> UniqueKeys(r.value)
    decreases |rest|, 2
  {
    match Find(rest, '=', 0)
      // `lang, rest = rest.split('=', 1)` has a single part to unpack
      case None => Err(ValueError)
      case Some(e) => ParseValue(rest[e + 1..], Lower(Remove(rest[..e], ',')), acc)
  }

  /** The value of `key` at the start of `r`, then the loop on what is left. */
  function ParseValue(r: string, key: string, acc: Translations): (res: Result<Translations>)
    ensures res.Err? ==> res.error in {ValueError, IndexError}
    ensures res.Ok? ==> |acc| <= |res.value| && forall i :: 0 <= i < |acc| ==> res.value[i].0 == acc[i].0
    ensures res.Ok? && UniqueKeys(acc) ==> UniqueKeys(res.value)
    decreases |r| + 1, 1
  {
    if r == [] then Err(IndexError)
    else if r[0] == '\'' || r[0] == '"' then ReadQuoted(r, key, acc)
    else ReadBare(r, key, acc)
  }

  /** A value in quotes. */
  function ReadQuoted(r: string, key: string, acc: Translations): (res: Result<Translations>)
    requires r != []
    ensures res.Err? ==> res.error in {ValueError, IndexError}
    ensures res.Ok? ==> |acc| <= |res.value| && forall i :: 0 <= i < |acc| ==> res.value[i].0 == acc[i].0
    ensures res.Ok? && UniqueKeys(acc) ==> UniqueKeys(res.value)
    decreases |r| + 1, 0
  {
    match Find(r, r[0], 1)
    // No closing quote: `rest.find` gives -1, the value is `rest[1:-1]` and
    // `rest[(i + 1):]` is the whole of `rest` again, quote included.
    case None =>
      var value := if |r| >= 2 then r[1..|r| - 1] else [];
      PutKeeps(acc, key, value);
      ParseTranslations(r, Put(acc, key, value))
    case Some(i) => PutKeeps(acc, key, r[1..i]); ParseTranslations(r[i + 1..], Put(acc, key, r[1..i]))
  }

  /** A bare value, up to the next comma or the end. */
  function ReadBare(r: string, key: string, acc: Translations): (res: Result<Translations>)
    ensures res.Err? ==> res.error in {ValueError, IndexError}
    ensures res.Ok? ==> |acc| <= |res.value| && forall i :: 0 <= i < |acc| ==> res.value[i].0 == acc[i].0
    ensures res.Ok? && UniqueKeys(acc) ==> UniqueKeys(res.value)
    decreases |r| + 1, 0
  {
    match Find(r, ',', 0)
    case Some(i) => PutKeeps(acc, key, r[..i]); ParseTranslations(r[i + 1..], Put(acc, key, r[..i]))
    case None => PutKeeps(acc, key, r); Ok(Put(acc, key, r))
  }

  // ---------------------------------------------------------------------
  // Control form: `(if|else|for|with|end)(:([^\}]+))?`, anchored at the start only
  // ---------------------------------------------------------------------

  /** The control keyword `d` starts with, in the pattern's order. */
  function Keyword(d: string): Option<string> {
    if StartsWith(d, "if") then Some("if")
    else if StartsWith(d, "else") then Some("else")
    else if StartsWith(d, "for") then Some("for")
    else if StartsWith(d, "with") then Some("with")
    else if StartsWith(d, "end") then Some("end")
    else None
  }

  /** `[^\}]` */
  predicate NotCloseBrace(c: char) { c != '}' }

  /** Group 3 of the control pattern: the text after a `:` that directly
      follows the keyword, up to the first `}`, when it is not empty. */
  function ControlOperand(d: string, k: nat): Option<string>
    requires k <= |d|
  {
    if k < |d| && d[k] == ':' then
      var e := RunEnd(d, k + 1, NotCloseBrace);
      if e > k + 1 then Some(d[k + 1..e]) else None
    else None
  }

  /** The operation a control keyword compiles to (src/templating.py:233-250). */
  function ControlOp(keyword: string, operand: Option<string>): Result<Op> {
    if keyword == "if" then Ok(If(operand))
    else if keyword == "else" then Ok(Else)
    else if keyword == "for" then
      match operand
      // `operand.split('|')` on None
      case None => Err(AttributeError)
      case Some(o) =>
        var parts := Split(o, '|');
        if |parts| == 1 then Ok(For(parts[0], -1))
        else match ParseInt(parts[1])
          case Some(n) => Ok(For(parts[0], n))
          case None => Err(ValueError)
    else if keyword == "with" then Ok(With(operand))
    else Ok(End(operand))
  }

  // ---------------------------------------------------------------------
  // Variable form: `([A-Za-z0-9]+(\.[A-Za-z_0-9]+)*)(\:[\w\s\,]+)?(\|[\w\d\+]+)?`
  // ---------------------------------------------------------------------

  /** `[\w\s]`: a character of one attribute */
  predicate IsWordOrSpace(c: char) { IsWordChar(c) || IsReSpace(c) }

  /** `[\w\s\,]` */
  predicate IsAttributeChar(c: char) { IsWordOrSpace(c) || c == ',' }

  /** `[\w\d\+]` */
  predicate IsFormatterChar(c: char) { IsWordChar(c) || c == '+' }

  /** The end of the greedy repetition `(\.[A-Za-z_0-9]+)*` starting at `p`. */
  function PathEnd(d: string, p: nat): (r: nat)
    requires p <= |d|
    ensures p <= r <= |d|
    decreases |d| - p
  {
    if p + 1 < |d| && d[p] == '.' && IsWordChar(d[p + 1]) then PathEnd(d, RunEnd(d, p + 1, IsWordChar))
    else p
  }

  /** An optional group `<lead>[class]+` at `p`: its text after the lead
      character, and where it ends. */
  function Suffix(d: string, p: nat, lead: char, member: char -> bool): (r: (Option<string>, nat))
    requires p <= |d|
    ensures p <= r.1 <= |d|
    ensures r.0.Some? ==> |r.0.value| >= 1 && forall k :: 0 <= k < |r.0.value| ==> member(r.0.value[k])
  {
    if p < |d| && d[p] == lead && RunEnd(d, p + 1, member) > p + 1 then
      var e := RunEnd(d, p + 1, member);
      RunEndSpan(d, p + 1, member);
      (Some(d[p + 1..e]), e)
    else (None, p)
  }

  /** `RE_VARIABLE.match(d)`: the path, the attribute text and the formatter text. */
  function MatchVariable(d: string): (r: Option<(string, Option<string>, Option<string>)>)
    ensures r.Some? <==> d != [] && IsAlnum(d[0])
    ensures r.Some? ==> 1 <= |r.value.0| <= |d| && d[..|r.value.0|] == r.value.0
    ensures r.Some? && r.value.1.Some? ==>
      |r.value.1.value| >= 1 && forall k :: 0 <= k < |r.value.1.value| ==> IsAttributeChar(r.value.1.value[k])
    ensures r.Some? && r.value.2.Some? ==>
      |r.value.2.value| >= 1 && forall k :: 0 <= k < |r.value.2.value| ==> IsFormatterChar(r.value.2.value[k])
  {
    if d == [] || !IsAlnum(d[0]) then None
    else
      var p := PathEnd(d, RunEnd(d, 0, IsAlnum));
      var (attributes, q) := Suffix(d, p, ':', IsAttributeChar);
      var (formatters, _) := Suffix(d, q, '|', IsFormatterChar);
      Some((d[..p], attributes, formatters))
  }

  /** The operations one directive compiles to, given its content and the
      `\n\s*` prefix it was found with, if any (src/templating.py:197-265). */
  function Classify(d: string, prefix: Option<string>): (r: Result<seq<Op>>)
    ensures r.Ok? ==> 1 <= |r.value| <= 2
    ensures r.Ok? && MatchTranslation(d).Some? ==>
      |r.value| == 2 && r.value[0] == Literal(prefix.GetOr("")) && r.value[1].Translate?
    ensures r.Ok? && MatchTranslation(d).None? ==> |r.value| == 1
    ensures r.Ok? && MatchTranslation(d).None? && Keyword(d).Some? ==>
      r.value[0].If? || r.value[0].Else? || r.value[0].For? || r.value[0].With? || r.value[0].End?
    ensures MatchTranslation(d).None? && Keyword(d).None? ==> (r.Ok? <==> d != [] && IsAlnum(d[0]))
    ensures r.Ok? && MatchTranslation(d).None? && Keyword(d).None? ==>
      r.value[0].Resolve? && r.value[0].prefix == prefix && 1 <= |r.value[0].path| <= |d| && d[..|r.value[0].path|] == r.value[0].path
  {
    match MatchTranslation(d)
    case Some(list) =>
      var t :- ParseTranslations(list, []);
      Ok([Literal(prefix.GetOr("")), Translate(t)])
    case None =>
      match Keyword(d)
      case Some(kw) =>
        var op :- ControlOp(kw, ControlOperand(d, |kw|));
        Ok([op])
      case None =>
        match MatchVariable(d)
        case Some((path, attributes, formatters)) =>
          var attrs := match attributes case Some(a) => Some(Split(a, ',')) case None => None;
          var fmts := match formatters case Some(f) => Split(f, '+') case None => [];
          Ok([Resolve(path, attrs, fmts, prefix)])
        case None => Err(SyntaxError(d))
  }
}

=== FILE: findings.dfy ===
/** The two places where `Template.apply` does not do what its design
    means (src/templating.py:493-494 and 501, 515), each shown on the code
    as written and on the corrected reading that the rest of the model can
    use: the operation-level difference first, then a whole template on
    which the rendered text differs. */
module Findings {
  import opened Results
  import opened Text
  import opened Values
  import opened Operations
  import opened Resolution
  import opened SlotNames
  import opened Interpreter
  import opened InterpreterLaws
  import opened LoopLaws

  // ---------------------------------------------------------------------
  // `${else}` inside a block that is muted as a whole
  // ---------------------------------------------------------------------

  /** As written, an `${else}` met while the enclosing block is muted turns
      output back on; corrected, the block stays muted and only an `${else}`
      whose own `if` ran unmuted negates the flag. */
  lemma {:induction false} ElseInMutedBlock(code: seq<Op>, env: Env, st: State)
    requires st.pc < |code| && code[st.pc] == Else
    requires st.mute && st.stack != [] && st.stack[|st.stack| - 1].mute
    ensures Step(code, env, AsWritten, st) == Ok(st.(pc := st.pc + 1, mute := false))
    ensures Step(code, env, Intended, st) == Ok(st.(pc := st.pc + 1))
  {
  }

  /** Corrected, `${else}` still flips the flag of an `if` whose enclosing
      block was writing. */
  lemma {:induction false} ElseInWritingBlock(code: seq<Op>, env: Env, reading: Reading, st: State)
    requires st.pc < |code| && code[st.pc] == Else
    requires st.stack != [] && !st.stack[|st.stack| - 1].mute
    ensures Step(code, env, reading, st) == Ok(st.(pc := st.pc + 1, mute := !st.mute))
  {
  }

  /** `${if:x}${if:x}A${else}B${end}${end}`, compiled. */
  function NestedElse(): seq<Op> {
    [If(Some("x")), If(Some("x")), Literal("A"), Else, Literal("B"), End(None), End(None)]
  }

  /** The condition `x` in an empty context is None, so the outer `if` mutes. */
  lemma {:induction false} MissingConditionFalse(parseJson: string -> Option<Value>)
    ensures Evaluate(Some("x"), Map(map[]), parseJson) == Ok(Null)
  {
    assert IsPathText("x") by { assert IsNameChar('x'); }
    BarePath("x", Map(map[]), parseJson);
  }

  /** A muted literal only moves the program counter. */
  lemma {:induction false} MutedLiteral(code: seq<Op>, env: Env, reading: Reading, st: State)
    requires st.pc < |code| && code[st.pc].Literal? && st.mute
    ensures Step(code, env, reading, st) == Ok(st.(pc := st.pc + 1))
  {
  }

  /** The `${end}` of an `if` block pops its frame and gives back what it saved. */
  lemma {:induction false} EndOfIf(code: seq<Op>, env: Env, reading: Reading, st: State, below: seq<Frame>, top: Frame)
    requires st.pc < |code| && code[st.pc].End? && top.IfFrame? && st.stack == below + [top]
    ensures Step(code, env, reading, st) ==
      Ok(State(st.pc + 1, Bind(top.scope, top.saved, -1), top.prefix, below, top.mute, st.out))
  {
    assert st.stack[..|st.stack| - 1] == below;
  }

  /** In an empty context, `${if:x}` pushes its frame and mutes. */
  lemma {:induction false} FalseIf(code: seq<Op>, env: Env, reading: Reading, st: State, frame: Frame)
    requires st.pc < |code| && code[st.pc] == If(Some("x")) && st.ctx == Map(map[])
    requires frame == IfFrame(map[], st.prefix, Null, st.mute)
    ensures Step(code, env, reading, st) == Ok(st.(pc := st.pc + 1, stack := st.stack + [frame], mute := true))
  {
    MissingConditionFalse(env.parseJson);
    IfOpens(code, env, reading, st, Some("x"));
  }

  /** The outer `if` mutes, the inner one opens muted, and the `A` is
      skipped, whichever way `${else}` is read. */
  lemma {:induction false} NestedElseOpens(env: Env, reading: Reading)
    ensures var scope: map<string, Value> := map[];
            var f0 := IfFrame(scope, Some(""), Null, false);
            var f1 := IfFrame(scope, Some(""), Null, true);
            Run(NestedElse(), env, reading, Start(Map(scope)), 7) ==
              Run(NestedElse(), env, reading, State(3, Map(scope), Some(""), [f0, f1], true, []), 4)
  {
    var code := NestedElse();
    var scope: map<string, Value> := map[];
    var c := Map(scope);
    var f0 := IfFrame(scope, Some(""), Null, false);
    var f1 := IfFrame(scope, Some(""), Null, true);
    var s0 := Start(c);
    var s1 := State(1, c, Some(""), [f0], true, []);
    var s2 := State(2, c, Some(""), [f0, f1], true, []);
    var s3 := State(3, c, Some(""), [f0, f1], true, []);
    FalseIf(code, env, reading, s0, f0);
    assert s0.stack + [f0] == [f0];
    RunTurn(code, env, reading, s0, s1, 7, 6);
    FalseIf(code, env, reading, s1, f1);
    assert s1.stack + [f1] == [f0, f1];
    RunTurn(code, env, reading, s1, s2, 6, 5);
    MutedLiteral(code, env, reading, s2);
    RunTurn(code, env, reading, s2, s3, 5, 4);
  }

  /** Both `${end}`s close their `if` blocks: the outer one's frame brings
      writing back. */
  lemma {:induction false} NestedElseCloses(env: Env, reading: Reading, mute: bool, out: seq<string>)
    ensures var scope: map<string, Value> := map[];
            var f0 := IfFrame(scope, Some(""), Null, false);
            var f1 := IfFrame(scope, Some(""), Null, true);
            Run(NestedElse(), env, reading, State(5, Map(scope), Some(""), [f0, f1], mute, out), 2) ==
              Ok(State(7, Bind(scope, Null, -1), Some(""), [], false, out))
  {
    var code := NestedElse();
    var scope: map<string, Value> := map[];
    var f0 := IfFrame(scope, Some(""), Null, false);
    var f1 := IfFrame(scope, Some(""), Null, true);
    var after := Bind(scope, Null, -1);
    var s5 := State(5, Map(scope), Some(""), [f0, f1], mute, out);
    var s6 := State(6, after, Some(""), [f0], true, out);
    var s7 := State(7, after, Some(""), [], false, out);
    var none: seq<Frame> := [];
    assert s5.stack == [f0] + [f1];
    EndOfIf(code, env, reading, s5, [f0], f1);
    RunTurn(code, env, reading, s5, s6, 2, 1);
    assert s6.stack == none + [f0];
    EndOfIf(code, env, reading, s6, none, f0);
    RunTurn(code, env, reading, s6, s7, 1, 0);
    RunDone(code, env, reading, s7, 0);
  }

  /** As written, the `B` of an inner `if` renders although the outer `if`
      is false. */
  lemma {:induction false} NestedElseAsWritten(env: Env)
    ensures Apply(NestedElse(), Map(map[]), env, AsWritten, 7) == Ok("B")
  {
    var code := NestedElse();
    var scope: map<string, Value> := map[];
    var c := Map(scope);
    var f0 := IfFrame(scope, Some(""), Null, false);
    var f1 := IfFrame(scope, Some(""), Null, true);
    var s3 := State(3, c, Some(""), [f0, f1], true, []);
    var s4 := State(4, c, Some(""), [f0, f1], false, []);
    var s5 := State(5, c, Some(""), [f0, f1], false, ["B"]);
    NestedElseOpens(env, AsWritten);
    ElseInMutedBlock(code, env, s3);
    RunTurn(code, env, AsWritten, s3, s4, 4, 3);
    LiteralKept(code, env, AsWritten, s4, "B");
    RunTurn(code, env, AsWritten, s4, s5, 3, 2);
    NestedElseCloses(env, AsWritten, false, ["B"]);
  }

  /** Corrected, nothing inside the false outer `if` renders. */
  lemma {:induction false} NestedElseIntended(env: Env)
    ensures Apply(NestedElse(), Map(map[]), env, Intended, 7) == Ok("")
  {
    var code := NestedElse();
    var scope: map<string, Value> := map[];
    var c := Map(scope);
    var f0 := IfFrame(scope, Some(""), Null, false);
    var f1 := IfFrame(scope, Some(""), Null, true);
    var s3 := State(3, c, Some(""), [f0, f1], true, []);
    var s4 := State(4, c, Some(""), [f0, f1], true, []);
    var s5 := State(5, c, Some(""), [f0, f1], true, []);
    NestedElseOpens(env, Intended);
    ElseInMutedBlock(code, env, s3);
    RunTurn(code, env, Intended, s3, s4, 4, 3);
    MutedLiteral(code, env, Intended, s4);
    RunTurn(code, env, Intended, s4, s5, 3, 2);
    NestedElseCloses(env, Intended, true, []);
  }

  // ---------------------------------------------------------------------
  // The prefix of a `for` or `with` block
  // ---------------------------------------------------------------------

  /** As written, a `for` over a one-character path stops the template with
      an IndexError once its collection resolves; corrected, the loop opens
      under the absolute name of the path. */
  lemma {:induction false} ShortLoopPath(code: seq<Op>, env: Env, st: State, path: string, limit: int, items: seq<Value>)
    requires st.pc < |code| && code[st.pc] == For(path, limit) && st.ctx.Map?
    requires |path| == 1 && ResolveIn(path, st.ctx) == Ok(List(items))
    ensures Step(code, env, AsWritten, st) == Err(IndexError)
    ensures Step(code, env, Intended, st).Ok?
    ensures Step(code, env, Intended, st).value.prefix == Some(AbsoluteSlotName(path, st.prefix.GetOr("")))
  {
  }

  /** The same for `with`: as written a one-character path is an
      IndexError, corrected the block opens on the value under the path's
      absolute name. */
  lemma {:induction false} ShortWithPath(code: seq<Op>, env: Env, st: State, path: string, v: Value)
    requires st.pc < |code| && code[st.pc] == With(Some(path)) && st.ctx.Map?
    requires |path| == 1 && ResolveIn(path, st.ctx) == Ok(v)
    ensures Step(code, env, AsWritten, st) == Err(IndexError)
    ensures Step(code, env, Intended, st).Ok?
    ensures Step(code, env, Intended, st).value.ctx == v
    ensures Step(code, env, Intended, st).value.prefix == Some(AbsoluteSlotName(path, st.prefix.GetOr("")))
  {
  }

  /** `${for:x}${end}`, compiled. */
  function ShortLoop(): seq<Op> {
    [For("x", -1), End(None)]
  }

  function OneItem(): map<string, Value> {
    map["x" := List([Str("a")])]
  }

  lemma {:induction false} OneItemResolves()
    ensures ResolveIn("x", Map(OneItem())) == Ok(List([Str("a")]))
  {
    assert ParseInt("x").None?;
  }

  /** As written, looping once over `x` fails. */
  lemma {:induction false} ShortLoopAsWritten(env: Env)
    ensures Apply(ShortLoop(), Map(OneItem()), env, AsWritten, 2) == Err(IndexError)
  {
    var code := ShortLoop();
    var s0 := Start(Map(OneItem()));
    OneItemResolves();
    ShortLoopPath(code, env, s0, "x", -1, [Str("a")]);
    assert Run(code, env, AsWritten, s0, 2) == Proceed(code, env, AsWritten, s0, 2);
    assert Proceed(code, env, AsWritten, s0, 2) == Advance(code, env, AsWritten, s0, 2);
  }

  /** Corrected, the loop runs its one (empty) pass and the template renders. */
  lemma {:induction false} ShortLoopIntended(env: Env)
    ensures Apply(ShortLoop(), Map(OneItem()), env, Intended, 2) == Ok("")
  {
    var code := ShortLoop();
    var scope := OneItem();
    var items := [Str("a")];
    var none: seq<Frame> := [];
    var saved := Get(scope, "this");
    var s2 := State(2, Bind(scope, saved, 1), Some(""), none, false, []);
    OneItemResolves();
    RunDone(code, env, Intended, s2, 0);
    RunEndLeaves(code, env, Intended, 1, 2, Bind(scope, items[0], 0), Some("x"), false, none, scope, Some(""),
                 0, 0, 1, -1, List(items), saved, false, [], 1, 0, Ok(s2));
    assert InnerPrefix(Intended, "x", Some("")) == Ok(Some("x"));
    RunEnterList(code, env, Intended, 0, 1, scope, Some(""), none, [], "x", -1, items, Some("x"), 2, 1, Ok(s2));
  }
}

=== FILE: information.dfy ===
/** `Template.getInformation`, `listVariables` and `listTranslations`
    (src/templating.py:287-336): walks over the compiled template that look
    at every operation, taken or not, and never at any data. */
module Information {
  import opened Results
  import opened Dicts
  import opened Operations
  import opened SlotNames
  import opened Schema
  import opened SchemaLaws

  // ---------------------------------------------------------------------
  // getInformation
  // ---------------------------------------------------------------------

  /** The walk's state: the root `MapType` (every slot is defined from the
      root, by its absolute name), the current prefix and the prefixes saved
      by the open `for` and `with` blocks. */
  datatype Walk = Walk(root: Dict<Slot>, prefix: string, context: seq<string>)

  /** How an operation changes the number of open blocks. */
  function Delta(op: Op): int {
    match op
    case For(_, _) => 1
    case With(_) => 1
    case End(_) => -1
    case _ => 0
  }

  /** A `for` or `with` defines its slot under its absolute name and makes
      that name the prefix, saving the old one. */
  function Enter(w: Walk, name: string, slot: Slot): (r: Walk)
    ensures r.prefix == name && r.context == w.context + [w.prefix]
    ensures SlotAt(r.root, name) == Some(slot)
  {
    DefineFinds(w.root, name, slot);
    Walk(DefineSlot(w.root, name, slot), name, w.context + [w.prefix])
  }

  /** One turn of the walk. A literal or a translation leaves it as it
      is; `if` is an unknown operation and `else`, which has no operand, an
      IndexError; `with` without an operand fails on `None.split`; `end`
      gives back the prefix saved last, and with none saved is an IndexError. */
  function InfoStep(w: Walk, op: Op): (r: Result<Walk>)
    ensures op.If? ==> r == Err(UnknownOperation)
    ensures op.Else? ==> r == Err(IndexError)
    ensures op == With(None) ==> r == Err(AttributeError)
    ensures op.End? ==> (r.Err? <==> w.context == [])
    ensures r.Ok? ==> |r.value.context| == |w.context| + Delta(op)
  {
    match op
    case Literal(_) => Ok(w)
    case Translate(_) => Ok(w)
    case Resolve(path, attributes, _, _) =>
      Ok(w.(root := DefineSlot(w.root, AbsoluteSlotName(path, w.prefix), Any(attributes))))
    case If(_) => Err(UnknownOperation)
    case Else => Err(IndexError)
    case For(path, _) => Ok(Enter(w, AbsoluteSlotName(path, w.prefix), ListOf(Unknown)))
    case With(None) => Err(AttributeError)
    case With(Some(path)) => Ok(Enter(w, AbsoluteSlotName(path, w.prefix), MapOf([])))
    case End(_) =>
      if w.context == [] then Err(IndexError)
      else Ok(Walk(w.root, w.context[|w.context| - 1], w.context[..|w.context| - 1]))
  }

  /** The walk over `ops` from `w`, stopping at the first failure. */
  function WalkFrom(ops: seq<Op>, w: Walk): (r: Result<Walk>)
    decreases |ops|
  {
    if ops == [] then Ok(w)
    else
      var w1 :- InfoStep(w, ops[0]);
      WalkFrom(ops[1..], w1)
  }

  // ---------------------------------------------------------------------
  // When the walk succeeds, and what it builds
  // ---------------------------------------------------------------------

  /** The number of blocks `ops` leaves open (negative when it closes more
      than it opens). */
  function Opened(ops: seq<Op>): int
    decreases |ops|
  {
    if ops == [] then 0 else Delta(ops[0]) + Opened(ops[1..])
  }

  /** Operations the walk handles: no `if`, no `else`, no `with` without operand. */
  predicate Handled(op: Op) {
    !op.If? && !op.Else? && op != With(None)
  }

  /** Every `end` of `ops` closes a block, counting `depth` blocks open before it. */
  predicate Closes(ops: seq<Op>, depth: int) {
    forall n :: 0 <= n < |ops| && ops[n].End? ==> depth + Opened(ops[..n]) >= 1
  }

  lemma {:induction false} OpenedFront(ops: seq<Op>, n: nat)
    requires 1 <= n <= |ops|
    ensures Opened(ops[..n]) == Delta(ops[0]) + Opened(ops[1..][..n - 1])
  {
    assert ops[..n][1..] == ops[1..][..n - 1];
  }

  /** `Closes` for `ops`, read as its first operation and the rest. */
  lemma {:induction false} ClosesFront(ops: seq<Op>, depth: int)
    requires ops != []
    ensures Closes(ops, depth) <==>
              (ops[0].End? ==> depth >= 1) && Closes(ops[1..], depth + Delta(ops[0]))
  {
    var rest := ops[1..];
    assert ops[..0] == [];
    forall n | 1 <= n <= |ops| ensures Opened(ops[..n]) == Delta(ops[0]) + Opened(rest[..n - 1]) {
      OpenedFront(ops, n);
    }
    if Closes(ops, depth) {
      forall m | 0 <= m < |rest| && rest[m].End? ensures depth + Delta(ops[0]) + Opened(rest[..m]) >= 1 {
        assert ops[m + 1] == rest[m];
      }
    }
    if (ops[0].End? ==> depth >= 1) && Closes(rest, depth + Delta(ops[0])) {
      forall n | 0 <= n < |ops| && ops[n].End? ensures depth + Opened(ops[..n]) >= 1 {
        if n > 0 {
          assert rest[n - 1] == ops[n];
        }
      }
    }
  }

  /** The walk from `w` succeeds exactly when every operation is one it
      handles and every `end` finds a block open. */
  lemma {:induction false} WalkSucceeds(ops: seq<Op>, w: Walk)
    ensures WalkFrom(ops, w).Ok? <==>
              (forall i :: 0 <= i < |ops| ==> Handled(ops[i])) && Closes(ops, |w.context|)
    decreases |ops|
  {
    if ops != [] {
      var rest := ops[1..];
      ClosesFront(ops, |w.context|);
      assert forall i :: 1 <= i < |ops| ==> ops[i] == rest[i - 1];
      match InfoStep(w, ops[0])
      case Err(_) =>
      case Ok(w1) =>
        WalkSucceeds(rest, w1);
    }
  }

  /** Every table of the schema keeps one entry per name. */
  lemma {:induction false} WalkTidy(ops: seq<Op>, w: Walk)
    requires Tidy(w.root) && WalkFrom(ops, w).Ok?
    ensures Tidy(WalkFrom(ops, w).value.root)
    decreases |ops|
  {
    if ops != [] {
      var op := ops[0];
      var w1 := InfoStep(w, op).value;
      match op {
        case Resolve(path, attributes, _, _) =>
          DefineTidy(w.root, AbsoluteSlotName(path, w.prefix), Any(attributes));
        case For(path, _) =>
          DefineTidy(w.root, AbsoluteSlotName(path, w.prefix), ListOf(Unknown));
        case With(operand) =>
          DefineTidy(w.root, AbsoluteSlotName(operand.value, w.prefix), MapOf([]));
        case _ =>
      }
      WalkTidy(ops[1..], w1);
    }
  }

  /** `template.getInformation()`: the root `MapType` of the schema. It is
      found exactly for templates without `if`, `else` or a bare `with`,
      whose every `end` closes a `for` or `with`, and each of its tables
      keeps one entry per name. */
  function GetInformation(code: seq<Op>): (r: Result<Dict<Slot>>)
    ensures r.Ok? <==> (forall i :: 0 <= i < |code| ==> Handled(code[i])) && Closes(code, 0)
    ensures r.Ok? ==> Tidy(r.value)
  {
    var start := Walk([], "", []);
    WalkSucceeds(code, start);
    match WalkFrom(code, start)
    case Err(f) => Err(f)
    case Ok(w) => WalkTidy(code, start); Ok(w.root)
  }

  // ---------------------------------------------------------------------
  // listVariables and listTranslations
  // ---------------------------------------------------------------------

  /** The raw path of every `resolve`, in template order, repeats included. */
  function ResolvePaths(code: seq<Op>): (r: seq<string>)
    ensures |r| <= |code|
  {
    if code == [] then []
    else
      var last := code[|code| - 1];
      ResolvePaths(code[..|code| - 1]) + (if last.Resolve? then [last.path] else [])
  }

  /** The names of `s` in the order of their first appearance, each once. */
  function FirstSeen(s: seq<string>): (r: seq<string>)
  {
    if s == [] then []
    else
      var d := FirstSeen(s[..|s| - 1]);
      if s[|s| - 1] in d then d else d + [s[|s| - 1]]
  }

  /** `template.listVariables()`: the loop keeps the list and the `parsed`
      dict of names already listed. */
  method ListVariables(code: seq<Op>) returns (variables: seq<string>)
    ensures variables == FirstSeen(ResolvePaths(code))
    ensures forall x :: x in variables <==> exists i :: 0 <= i < |code| && code[i].Resolve? && code[i].path == x
    ensures forall i, j :: 0 <= i < j < |variables| ==> variables[i] != variables[j]
  {
    variables := [];
    var parsed: set<string> := {};
    for n := 0 to |code|
      invariant variables == FirstSeen(ResolvePaths(code[..n]))
      invariant forall x :: x in parsed <==> x in variables
    {
      PathsStep(code, n);
      if code[n].Resolve? {
        var variable := code[n].path;
        FirstSeenStep(ResolvePaths(code[..n]), variable);
        if variable !in parsed {
          parsed := parsed + {variable};
          variables := variables + [variable];
        }
      } else {
        assert ResolvePaths(code[..n + 1]) == ResolvePaths(code[..n]);
      }
    }
    assert code[..|code|] == code;
    ResolvePathsHold(code);
    FirstSeenHolds(ResolvePaths(code));
  }

  /** `template.listTranslations()`: the table of every `${T:...}`, in
      order. A table is listed exactly when some translation carries it. */
  function ListTranslations(code: seq<Op>): (r: seq<Translations>)
    ensures |r| <= |code|
    ensures forall t :: t in r <==> exists i :: 0 <= i < |code| && code[i] == Translate(t)
  {
    if code == [] then []
    else
      var n := |code| - 1;
      var front := code[..n];
      assert forall i :: 0 <= i < n ==> front[i] == code[i];
      ListTranslations(front) + (if code[n].Translate? then [code[n].translations] else [])
  }

  // ---------------------------------------------------------------------
  // The reference readings of the lists
  // ---------------------------------------------------------------------

  lemma {:induction false} PathsStep(code: seq<Op>, n: nat)
    requires n < |code|
    ensures ResolvePaths(code[..n + 1]) == ResolvePaths(code[..n]) + (if code[n].Resolve? then [code[n].path] else [])
  {
    assert code[..n + 1][..n] == code[..n];
  }

  lemma {:induction false} FirstSeenStep(s: seq<string>, x: string)
    ensures FirstSeen(s + [x]) == if x in FirstSeen(s) then FirstSeen(s) else FirstSeen(s) + [x]
  {
    assert (s + [x])[..|s|] == s;
  }

  /** A path is listed exactly when some `resolve` carries it. */
  lemma {:induction false} ResolvePathsHold(code: seq<Op>)
    ensures forall x :: x in ResolvePaths(code) <==> exists i :: 0 <= i < |code| && code[i].Resolve? && code[i].path == x
    decreases |code|
  {
    if code != [] {
      var n := |code| - 1;
      var front := code[..n];
      ResolvePathsHold(front);
      assert forall i :: 0 <= i < n ==> front[i] == code[i];
    }
  }

  /** `FirstSeen` keeps every name of `s` and no other, once each. */
  lemma {:induction false} FirstSeenHolds(s: seq<string>)
    ensures forall x :: x in FirstSeen(s) <==> x in s
    ensures forall i, j :: 0 <= i < j < |FirstSeen(s)| ==> FirstSeen(s)[i] != FirstSeen(s)[j]
    decreases |s|
  {
    if s != [] {
      var front := s[..|s| - 1];
      FirstSeenHolds(front);
      assert s == front + [s[|s| - 1]];
    }
  }
}

=== FILE: information_laws.dfy ===
/** What the schema walk promises beyond its own contract: how a block's
    prefix comes back at its `end` and where each slot lands; and how the
    two lists read a template made of two parts. */
module InformationLaws {
  import opened Results
  import opened Dicts
  import opened Text
  import opened Operations
  import opened SlotNames
  import opened Schema
  import opened SchemaLaws
  import opened Information

  // ---------------------------------------------------------------------
  // Prefixes
  // ---------------------------------------------------------------------

  /** The walk is inside the blocks opened since `base` was the saved
      prefixes and `p` the prefix: `base` is still saved beneath, and `p`
      is the prefix when no block is open, or saved first above `base`. */
  predicate Nested(w: Walk, base: seq<string>, p: string) {
    && |base| <= |w.context|
    && w.context[..|base|] == base
    && (|w.context| == |base| ==> w.prefix == p)
    && (|w.context| > |base| ==> w.context[|base|] == p)
  }

  lemma {:induction false} StepNests(w: Walk, op: Op, base: seq<string>, p: string)
    requires Nested(w, base, p) && InfoStep(w, op).Ok?
    requires op.End? ==> |w.context| > |base|
    ensures Nested(InfoStep(w, op).value, base, p)
  {
    var w1 := InfoStep(w, op).value;
    if op.For? || op.With? {
      assert w1.context == w.context + [w.prefix];
      assert w1.context[..|base|] == w.context[..|base|];
    } else if op.End? {
      assert w1.context == w.context[..|w.context| - 1];
      assert w1.context[..|base|] == w.context[..|base|];
    }
  }

  lemma {:induction false} WalkNests(ops: seq<Op>, w: Walk, base: seq<string>, p: string)
    requires Nested(w, base, p) && WalkFrom(ops, w).Ok?
    requires Closes(ops, |w.context| - |base|)
    ensures Nested(WalkFrom(ops, w).value, base, p)
    ensures |WalkFrom(ops, w).value.context| == |w.context| + Opened(ops)
    decreases |ops|
  {
    if ops != [] {
      var w1 := InfoStep(w, ops[0]).value;
      ClosesFront(ops, |w.context| - |base|);
      StepNests(w, ops[0], base, p);
      WalkNests(ops[1..], w1, base, p);
    }
  }

  /** The `end` of a block gives back the prefix the block found: a walk
      over operations that close what they open, and nothing more, ends
      with the prefix and the saved prefixes it started with. */
  lemma {:induction false} BlockRestoresPrefix(ops: seq<Op>, w: Walk)
    requires WalkFrom(ops, w).Ok? && Closes(ops, 0) && Opened(ops) == 0
    ensures WalkFrom(ops, w).value.prefix == w.prefix
    ensures WalkFrom(ops, w).value.context == w.context
  {
    WalkNests(ops, w, w.context, w.prefix);
  }

  // ---------------------------------------------------------------------
  // Slots
  // ---------------------------------------------------------------------

  /** A `resolve` defines a scalar carrying its attributes at the path's
      absolute name: `this` and `this.x` stand for the prefix and `prefix.x`. */
  lemma {:induction false} ResolveRegisters(w: Walk, path: string, attributes: Option<seq<string>>,
                                            formatters: seq<string>, prefix: Option<string>)
    ensures var r := InfoStep(w, Resolve(path, attributes, formatters, prefix));
            && r.Ok? && r.value.prefix == w.prefix && r.value.context == w.context
            && SlotAt(r.value.root, AbsoluteSlotName(path, w.prefix)) == Some(Any(attributes))
  {
    DefineFinds(w.root, AbsoluteSlotName(path, w.prefix), Any(attributes));
  }

  /** A `for` defines a list slot at the absolute name of its path and
      makes that name the prefix of its body. */
  lemma {:induction false} ForRegisters(w: Walk, path: string, limit: int)
    ensures var r := InfoStep(w, For(path, limit));
            var name := AbsoluteSlotName(path, w.prefix);
            && r.Ok? && r.value.prefix == name && r.value.context == w.context + [w.prefix]
            && SlotAt(r.value.root, name) == Some(ListOf(Unknown))
  {
  }

  /** `${for:items}${this.name}${end}` describes a list of maps with a
      `name`: `{'order': ['items'], 'values': {'items': [{'order': ['name'],
      'values': {'name': 'Any'}}]}}`. */
  lemma {:induction false} LoopItemsSchema()
    ensures GetInformation([For("items", -1), Resolve("this.name", None, [], None), End(None)]) ==
            Ok([("items", ListOf(Known([("name", Any(None))])))])
  {
    var code := [For("items", -1), Resolve("this.name", None, [], None), End(None)];
    var none: seq<string> := [];
    var list: Dict<Slot> := [("items", ListOf(Unknown))];
    var full: Dict<Slot> := [("items", ListOf(Known([("name", Any(None))])))];
    var w0 := Walk([], "", none);
    var w1 := Walk(list, "items", [""]);
    var w2 := Walk(full, "items", [""]);
    var w3 := Walk(full, "", none);
    ItemsOpen(w0, w1);
    ItemsNamed(w1, w2);
    assert InfoStep(w2, code[2]) == Ok(w3);
    assert WalkFrom(code[3..], w3) == Ok(w3);
    assert WalkFrom(code[2..], w2) == Ok(w3);
    assert WalkFrom(code[1..], w1) == Ok(w3);
  }

  lemma {:induction false} ItemsOpen(w0: Walk, w1: Walk)
    requires w0 == Walk([], "", []) && w1 == Walk([("items", ListOf(Unknown))], "items", [""])
    ensures InfoStep(w0, For("items", -1)) == Ok(w1)
  {
    assert AbsoluteSlotName("items", "") == "items";
    SplitPlain("items");
    assert w0.context + [w0.prefix] == [""];
  }

  lemma {:induction false} ItemsNamed(w1: Walk, w2: Walk)
    requires w1 == Walk([("items", ListOf(Unknown))], "items", [""])
    requires w2 == Walk([("items", ListOf(Known([("name", Any(None))])))], "items", [""])
    ensures InfoStep(w1, Resolve("this.name", None, [], None)) == Ok(w2)
  {
    var list: Dict<Slot> := [("items", ListOf(Unknown))];
    var fields: Dict<Slot> := [("name", Any(None))];
    var n := "items" + "." + "name";
    ThisNameUnderItems();
    SplitAtFirstDot("items", "name");
    SplitPlain("name");
    assert DefineSlot([], "name", Any(None)) == fields;
    assert Lookup(list, "items") == Some(ListOf(Unknown));
    assert DefineSlot(list, n, Any(None)) == Put(list, "items", ListOf(Known(fields)));
    assert Put(list, "items", ListOf(Known(fields))) == [("items", ListOf(Known(fields)))] + list[1..];
    assert [("items", ListOf(Known(fields)))] + list[1..] == w2.root;
    assert InfoStep(w1, Resolve("this.name", None, [], None)) == Ok(w1.(root := DefineSlot(list, n, Any(None))));
  }

  lemma {:induction false} ThisNameUnderItems()
    ensures AbsoluteSlotName("this.name", "items") == "items" + "." + "name"
  {
    assert StartsWith("this.name", "this.");
    assert "this.name"[5..] == "name";
  }

  lemma {:induction false} SplitPlain(name: string)
    requires '.' !in name
    ensures SplitOnce(name) == (name, None)
  {
  }

  // ---------------------------------------------------------------------
  // The lists
  // ---------------------------------------------------------------------

  /** A template made of two parts lists the paths of the first, then those
      of the second. */
  lemma {:induction false} ResolvePathsAppend(a: seq<Op>, b: seq<Op>)
    ensures ResolvePaths(a + b) == ResolvePaths(a) + ResolvePaths(b)
    decreases |b|
  {
    if b != [] {
      var n := |b| - 1;
      assert (a + b)[..|a + b| - 1] == a + b[..n];
      ResolvePathsAppend(a, b[..n]);
    } else {
      assert a + b == a;
    }
  }

  /** Every branch counts: the paths of both sides of an `${else}` are
      listed, whatever the condition. */
  lemma {:induction false} BothBranchesListed(e: Option<string>, yes: seq<Op>, no: seq<Op>)
    ensures var code := [If(e)] + yes + [Else] + no + [End(None)];
            forall x :: x in ResolvePaths(yes) || x in ResolvePaths(no) ==> x in FirstSeen(ResolvePaths(code))
  {
    var code := [If(e)] + yes + [Else] + no + [End(None)];
    ResolvePathsAppend([If(e)] + yes + [Else] + no, [End(None)]);
    ResolvePathsAppend([If(e)] + yes + [Else], no);
    ResolvePathsAppend([If(e)] + yes, [Else]);
    ResolvePathsAppend([If(e)], yes);
    assert ResolvePaths([If(e)]) == [] && ResolvePaths([Else]) == [] && ResolvePaths([End(None)]) == [];
    FirstSeenHolds(ResolvePaths(code));
  }

  /** Two parts list the translations of the first, then those of the second. */
  lemma {:induction false} ListTranslationsAppend(a: seq<Op>, b: seq<Op>)
    ensures ListTranslations(a + b) == ListTranslations(a) + ListTranslations(b)
    decreases |b|
  {
    if b != [] {
      var n := |b| - 1;
      assert (a + b)[..|a + b| - 1] == a + b[..n];
      ListTranslationsAppend(a, b[..n]);
    } else {
      assert a + b == a;
    }
  }
}

=== FILE: interpreter.dfy ===
/** The stack machine `Template.apply` runs over a compiled template
    (src/templating.py:436-579): a program counter, a stack of frames opened
    by `if`, `for` and `with`, a mute flag and a list of output fragments.
    One call of `Step` is one turn of the source's `while` loop. */
module Interpreter {
  import opened Results
  import opened Text
  import opened Values
  import opened Dicts
  import opened Operations
  import opened Resolution
  import opened SlotNames
  import opened Literals

  /** Two places where the source evidently does not do what it means to:
      `AsWritten` follows the code, `Intended` the evident design.
      - `${else}` negates the mute flag even inside a block that is muted as
        a whole (src/templating.py:493-494);
      - the prefix of a `for`/`with` block is computed from the path string
        instead of the operation (src/templating.py:501, 515), which raises
        an IndexError for a one-character path. */
  datatype Reading = AsWritten | Intended

  /** What `apply` gets from outside the template: the locale (`'en'` when
      the caller gives none), `json.dumps` as the `json` formatter calls it,
      and `json.loads` (`None` where it raises). */
  datatype Env = Env(locale: string, dumps: Value -> Result<Value>, parseJson: string -> Option<Value>)

  /** The names of the global formatter table (src/templating.py:60). */
  const FormatterNames: set<string> := {"json", "escapeHTML", "repr"}

  /** A stack entry: the scope, prefix, `this` and mute flag in force when
      the block opened; a loop adds the position of its `for`, the index of
      the current pass, its limit and the collection. */
  datatype Frame =
    | IfFrame(scope: map<string, Value>, prefix: Option<string>, saved: Value, mute: bool)
    | WithFrame(scope: map<string, Value>, prefix: Option<string>, saved: Value, mute: bool)
    | ForFrame(scope: map<string, Value>, prefix: Option<string>, start: nat, index: nat,
               limit: int, collection: Value, saved: Value, mute: bool)

  datatype State = State(pc: nat, ctx: Value, prefix: Option<string>, stack: seq<Frame>, mute: bool, out: seq<string>)

  function Start(ctx: Value): State {
    State(0, ctx, Some(""), [], false, [])
  }

  /** `scope` with `this` and `i` bound, as a loop or a closing block leaves it. */
  function Bind(scope: map<string, Value>, self: Value, i: int): Value {
    Map(scope["this" := self]["i" := Int(i)])
  }

  // ---------------------------------------------------------------------
  // Output of `${path}` and `${T:...}`
  // ---------------------------------------------------------------------

  function MissingVariable(path: string): string {
    "[[ERROR: Missing variable " + path + "]]"
  }

  /** The marker for a translation without an entry for the locale. It
      shows the table as Python's `repr` writes it, which reads back as the
      table itself. */
  function MissingTranslation(locale: string, t: Translations): (r: string)
    ensures var lead := "[[ERROR: Missing translation for locale " + locale + " in ";
      |lead| + 2 <= |r| && r[..|lead|] == lead && r[|r| - 2..] == "]]" &&
      ReadDict(r[|lead|..|r| - 2]) == Some(t)
  {
    var lead := "[[ERROR: Missing translation for locale " + locale + " in ";
    var r := lead + DictRepr(t) + "]]";
    assert r[|lead|..|r| - 2] == DictRepr(t);
    ReadDictRepr(t);
    r
  }

  /** What `${T:...}` emits: the text for the locale, or the marker. There
      is no fallback to the default locale. */
  function TranslationText(t: Translations, locale: string): (r: string)
    ensures Lookup(t, locale).Some? ==> r == Lookup(t, locale).value
    ensures Lookup(t, locale).None? ==> r == MissingTranslation(locale, t)
  {
    match Lookup(t, locale)
    case Some(text) => text
    case None => MissingTranslation(locale, t)
  }

  /** A dict value stands for its entry in the locale, or in `en` when that
      entry is falsy. */
  function Localize(v: Value, locale: string): (r: Value)
    ensures !v.Map? ==> r == v
    ensures v.Map? && Truthy(Get(v.entries, locale)) ==> r == v.entries[locale]
    ensures v.Map? && !Truthy(Get(v.entries, locale)) ==> r == Get(v.entries, "en")
  {
    if v.Map? then
      var own := Get(v.entries, locale);
      if Truthy(own) then own else Get(v.entries, "en")
    else v
  }

  /** The formatters applied left to right. Each is called with the value,
      the locale and the operation: `json.dumps` takes the two extra
      arguments as flags, while `cgi.escape` (at most two arguments) and
      `repr` (one) raise a TypeError. A name outside the table is a KeyError. */
  function Formatted(env: Env, formatters: seq<string>, v: Value): (r: Result<Value>)
    ensures formatters == [] ==> r == Ok(v)
    ensures (exists k :: 0 <= k < |formatters| && formatters[k] != "json") ==> r.Err?
    ensures formatters != [] && formatters[0] in FormatterNames - {"json"} ==> r == Err(TypeError)
    ensures formatters != [] && formatters[0] !in FormatterNames ==> r == Err(KeyError)
    decreases |formatters|
  {
    if formatters == [] then Ok(v)
    else if formatters[0] !in FormatterNames then Err(KeyError)
    else if formatters[0] != "json" then Err(TypeError)
    else match env.dumps(v)
      case Err(f) => Err(f)
      case Ok(w) => Formatted(env, formatters[1..], w)
  }

  /** The text a resolved value turns into: None the missing-variable
      marker, a string itself, a number its decimal form; anything else
      stops the template. */
  function Emitted(path: string, v: Value): (r: Result<string>)
    ensures r.Ok? <==> v.Null? || v.Str? || v.Int?
    ensures v.Str? ==> r == Ok(v.s)
    ensures v.Int? ==> r.Ok? && ParseInt(r.value) == Some(v.n)
    ensures r.Err? ==> r.error == NotAString(path)
  {
    match v
    case Null => Ok(MissingVariable(path))
    case Str(s) => Ok(s)
    case Int(n) => ParseIntToString(n); Ok(IntToString(n))
    case _ => Err(NotAString(path))
  }

  function Render(env: Env, path: string, formatters: seq<string>, v: Value): (r: Result<string>)
    ensures formatters == [] ==> r == Emitted(path, Localize(v, env.locale))
  {
    match Formatted(env, formatters, Localize(v, env.locale))
    case Err(f) => Err(f)
    case Ok(w) => Emitted(path, w)
  }

  /** The output list after a literal: the first fragment of a block loses
      one leading newline, and empty text adds nothing. */
  function LiteralOut(out: seq<string>, inBlock: bool, text: string): (r: seq<string>)
    ensures text == [] ==> r == out
    ensures out != [] || !inBlock || text == [] || text[0] != '\n' ==>
      r == if text == [] then out else out + [text]
    ensures out == [] && inBlock && text != [] && text[0] == '\n' ==>
      r == if |text| == 1 then out else out + [text[1..]]
  {
    var t := if out == [] && inBlock && text != [] && text[0] == '\n' then text[1..] else text;
    if t != [] then out + [t] else out
  }

  // ---------------------------------------------------------------------
  // Loops and blocks
  // ---------------------------------------------------------------------

  /** `not collection or len(collection) == 0`. */
  function IsEmpty(collection: Value): (r: Result<bool>)
    ensures !Truthy(collection) ==> r == Ok(true)
    ensures collection.List? || collection.Str? || collection.Map? ==> r == Ok(!Truthy(collection))
    ensures r.Err? <==> Truthy(collection) && (collection.Int? || collection.Bool?)
  {
    if !Truthy(collection) then Ok(true)
    else match Len(collection)
      case Err(f) => Err(f)
      case Ok(n) => Ok(n == 0)
  }

  /** How many passes a loop over `collection` may make, checked at each `${end}`. */
  function LoopBound(collection: Value, limit: int): (r: Result<int>)
    ensures !Truthy(collection) ==> r == Ok(0)
    ensures collection.List? && limit == -1 ==> r == Ok(|collection.items|)
    ensures collection.List? && collection.items != [] && limit != -1 ==> r == Ok(if limit < |collection.items| then limit else |collection.items|)
  {
    if !Truthy(collection) then Ok(0)
    else match Len(collection)
      case Err(f) => Err(f)
      case Ok(n) => Ok(if limit == -1 then n else if limit < n then limit else n)
  }

  /** The prefix a `for` or `with` block runs under. As written, the path
      string stands where the operation was meant, so its second character
      becomes the prefix. */
  function InnerPrefix(reading: Reading, path: string, prefix: Option<string>): (r: Result<Option<string>>)
    ensures reading == Intended ==> r == Ok(Some(AbsoluteSlotName(path, prefix.GetOr(""))))
    ensures reading == AsWritten ==> (r.Err? <==> |path| == 1)
  {
    match reading
    case Intended => Ok(Some(AbsoluteSlotName(path, prefix.GetOr(""))))
    case AsWritten =>
      if |path| == 0 then Ok(None)
      else if |path| == 1 then Err(IndexError)
      else Ok(Some([path[1]]))
  }

  /** The mute flag after `${else}`. */
  function ElseMute(reading: Reading, stack: seq<Frame>, mute: bool): (r: bool)
    ensures reading == AsWritten ==> r == !mute
    ensures reading == Intended && stack != [] && stack[|stack| - 1].mute ==> r
    ensures reading == Intended && (stack == [] || !stack[|stack| - 1].mute) ==> r == !mute
  {
    match reading
    case AsWritten => !mute
    case Intended => (stack != [] && stack[|stack| - 1].mute) || !mute
  }

  // ---------------------------------------------------------------------
  // The machine
  // ---------------------------------------------------------------------

  /** One turn of the loop at `st.pc`. */
  function Step(code: seq<Op>, env: Env, reading: Reading, st: State): (r: Result<State>)
    requires st.pc < |code|
    ensures r.Ok? && st.mute ==> r.value.out == st.out
    ensures r.Ok? ==> |st.out| <= |r.value.out| <= |st.out| + 1 && r.value.out[..|st.out|] == st.out
  {
    var next := st.(pc := st.pc + 1);
    match code[st.pc]
    case Literal(text) => Ok(WriteLiteral(next, text))
    case Resolve(path, _, formatters, _) => WriteVariable(env, next, path, formatters)
    case Translate(t) => Ok(WriteTranslation(env, next, t))
    case If(e) => OpenIf(env, next, e)
    case Else => Ok(next.(mute := ElseMute(reading, st.stack, st.mute)))
    case For(path, limit) => OpenFor(reading, next, path, limit)
    case With(operand) => OpenWith(reading, next, operand)
    case End(_) => if st.stack == [] then Err(IndexError) else Close(next)
  }

  // Each turn below receives `next`, the state with the program counter
  // already past the operation.

  /** A literal, written unless muted. */
  function WriteLiteral(next: State, text: string): (r: State)
    ensures r.out == if next.mute then next.out else LiteralOut(next.out, next.stack != [], text)
  {
    if next.mute then next else next.(out := LiteralOut(next.out, next.stack != [], text))
  }

  /** `${path|formatters}`: the path is looked up even when muted. */
  function WriteVariable(env: Env, next: State, path: string, formatters: seq<string>): (r: Result<State>)
    ensures ResolveIn(path, next.ctx).Err? ==> r == Err(ResolveIn(path, next.ctx).error)
    ensures ResolveIn(path, next.ctx).Ok? && next.mute ==> r == Ok(next)
  {
    match ResolveIn(path, next.ctx)
    case Err(f) => Err(f)
    case Ok(v) =>
      if next.mute then Ok(next)
      else match Render(env, path, formatters, v)
        case Err(f) => Err(f)
        case Ok(s) => Ok(next.(out := next.out + [s]))
  }

  /** `${T:...}`, written unless muted. */
  function WriteTranslation(env: Env, next: State, t: Translations): (r: State)
    ensures r.out == if next.mute then next.out else next.out + [TranslationText(t, env.locale)]
  {
    if next.mute then next else next.(out := next.out + [TranslationText(t, env.locale)])
  }

  /** `${if:e}`: the frame is pushed before the condition is looked at, and
      a muted template does not evaluate it. */
  function OpenIf(env: Env, next: State, e: Option<string>): (r: Result<State>)
    ensures !next.ctx.Map? ==> r == Err(AttributeError)
    ensures r.Ok? ==> r.value.out == next.out
  {
    if !next.ctx.Map? then Err(AttributeError)
    else
      var frame := IfFrame(next.ctx.entries, next.prefix, Get(next.ctx.entries, "this"), next.mute);
      if next.mute then Ok(next.(stack := next.stack + [frame]))
      else match Evaluate(e, next.ctx, env.parseJson)
        case Err(f) => Err(f)
        case Ok(c) => Ok(next.(stack := next.stack + [frame], mute := !Truthy(c)))
  }

  /** `${for:path|limit}`: the collection is looked up first. */
  function OpenFor(reading: Reading, next: State, path: string, limit: int): (r: Result<State>)
    requires next.pc >= 1
    ensures ResolveIn(path, next.ctx).Err? ==> r == Err(ResolveIn(path, next.ctx).error)
    ensures !next.ctx.Map? ==> r.Err?
    ensures r.Ok? ==> r.value.out == next.out && r.value.pc == next.pc
    ensures r.Ok? ==> |r.value.stack| == |next.stack| + 1 && r.value.stack[..|next.stack|] == next.stack
    ensures r.Ok? ==> var top := r.value.stack[|next.stack|];
      top.ForFrame? && top.start == next.pc - 1 && top.index == 0 && top.limit == limit &&
      top.collection == ResolveIn(path, next.ctx).value
  {
    match ResolveIn(path, next.ctx)
    case Err(f) => Err(f)
    case Ok(collection) =>
      if !next.ctx.Map? then Err(AttributeError)
      else OpenLoop(reading, next, path, limit, collection)
  }

  /** `${with:path}`: the value at the path becomes the context. */
  function OpenWith(reading: Reading, next: State, operand: Option<string>): (r: Result<State>)
    ensures !next.ctx.Map? || operand.None? ==> r == Err(AttributeError)
    ensures r.Ok? ==> r.value.out == next.out && r.value.mute == next.mute
  {
    if !next.ctx.Map? then Err(AttributeError)
    else
      var frame := WithFrame(next.ctx.entries, next.prefix, Get(next.ctx.entries, "this"), next.mute);
      match operand
      // `None.split('.', 1)`
      case None => Err(AttributeError)
      case Some(path) =>
        match ResolveIn(path, next.ctx)
        case Err(f) => Err(f)
        case Ok(v) =>
          match InnerPrefix(reading, path, next.prefix)
          case Err(f) => Err(f)
          case Ok(prefix) => Ok(next.(ctx := v, prefix := prefix, stack := next.stack + [frame]))
  }

  /** `${for:path|limit}` once the collection has resolved; `next` is the
      state with the program counter already past the `for`. */
  function OpenLoop(reading: Reading, next: State, path: string, limit: int, collection: Value): (r: Result<State>)
    requires next.pc >= 1 && next.ctx.Map?
    ensures r.Ok? ==> r.value.out == next.out && r.value.pc == next.pc
    ensures r.Ok? ==> r.value.stack == next.stack + [ForFrame(next.ctx.entries, next.prefix, next.pc - 1, 0, limit,
                                                                collection, Get(next.ctx.entries, "this"), next.mute)]
    ensures r.Ok? ==> r.value.mute == (next.mute || !Truthy(collection))
  {
    var scope := next.ctx.entries;
    var frame := ForFrame(scope, next.prefix, next.pc - 1, 0, limit, collection, Get(scope, "this"), next.mute);
    match InnerPrefix(reading, path, next.prefix)
    case Err(f) => Err(f)
    case Ok(prefix) =>
      match IsEmpty(collection)
      case Err(f) => Err(f)
      case Ok(empty) =>
        if empty then
          Ok(next.(ctx := Bind(scope, Null, -1), prefix := prefix, stack := next.stack + [frame], mute := true))
        else
          match Index(collection, 0)
          case Err(f) => Err(f)
          case Ok(first) =>
            Ok(next.(ctx := Bind(scope, first, 0), prefix := prefix, stack := next.stack + [frame]))
  }

  /** `${end}` with a non-empty stack; `next` is the state with the program
      counter already past the `end`. A loop with passes left goes back to
      the operation after its `for`; otherwise the top frame is popped and
      what it saved comes back. */
  function Close(next: State): (r: Result<State>)
    requires next.stack != []
    ensures r.Ok? ==> r.value.out == next.out
    ensures var top := next.stack[|next.stack| - 1];
      !top.ForFrame? ==>
        (r.Ok? && r.value.pc == next.pc && r.value.stack == next.stack[..|next.stack| - 1] &&
         r.value.prefix == top.prefix && r.value.mute == top.mute)
    ensures var top := next.stack[|next.stack| - 1];
      top.ForFrame? && r.Ok? ==>
        (LoopBound(top.collection, top.limit).Ok? &&
         if top.index + 1 < LoopBound(top.collection, top.limit).value then
           r.value.pc == top.start + 1 && r.value.mute == next.mute &&
           r.value.stack == next.stack[..|next.stack| - 1] + [top.(index := top.index + 1)]
         else
           r.value.pc == next.pc && r.value.mute == top.mute && r.value.stack == next.stack[..|next.stack| - 1])
  {
    var top := next.stack[|next.stack| - 1];
    var below := next.stack[..|next.stack| - 1];
    match top
    case ForFrame(scope, prefix, start, index, limit, collection, saved, mute) =>
      var j := index + 1;
      (match LoopBound(collection, limit)
       case Err(f) => Err(f)
       case Ok(bound) =>
         if j < bound then
           match Index(collection, j)
           case Err(f) => Err(f)
           case Ok(item) =>
             Ok(State(start + 1, Bind(scope, item, j), prefix, below + [top.(index := j)], next.mute, next.out))
         else
           Ok(State(next.pc, Bind(scope, saved, j), prefix, below, mute, next.out)))
    case _ =>
      Ok(State(next.pc, Bind(top.scope, top.saved, -1), top.prefix, below, top.mute, next.out))
  }

  /** The machine run from `st` for at most `fuel` turns. */
  function Run(code: seq<Op>, env: Env, reading: Reading, st: State, fuel: nat): (r: Result<State>)
    ensures r.Ok? ==> r.value.pc >= |code|
    decreases fuel, 2
  {
    if st.pc >= |code| then Ok(st) else Proceed(code, env, reading, st, fuel)
  }

  /** A run past the end test: out of fuel, or another turn. */
  function Proceed(code: seq<Op>, env: Env, reading: Reading, st: State, fuel: nat): (r: Result<State>)
    requires st.pc < |code|
    ensures r.Ok? ==> r.value.pc >= |code|
    decreases fuel, 1
  {
    if fuel == 0 then Err(OutOfFuel) else Advance(code, env, reading, st, fuel)
  }

  /** The turn at `st.pc`, then the rest of the run. */
  function Advance(code: seq<Op>, env: Env, reading: Reading, st: State, fuel: nat): (r: Result<State>)
    requires st.pc < |code| && fuel >= 1
    ensures r.Ok? ==> r.value.pc >= |code|
    decreases fuel, 0
  {
    match Step(code, env, reading, st)
    case Err(f) => Err(f)
    case Ok(s) => Run(code, env, reading, s, fuel - 1)
  }

  function Concat(parts: seq<string>): (r: string)
    ensures |parts| == 1 ==> r == parts[0]
  {
    if parts == [] then "" else parts[0] + Concat(parts[1..])
  }

  /** `template.apply(ctx, locale)` with no post-processors: the fragments
      of a complete run joined together. */
  function Apply(code: seq<Op>, ctx: Value, env: Env, reading: Reading, fuel: nat): (r: Result<string>)
    ensures code == [] ==> r == Ok("")
    ensures r.Err? <==> Run(code, env, reading, Start(ctx), fuel).Err?
  {
    match Run(code, env, reading, Start(ctx), fuel)
    case Err(f) => Err(f)
    case Ok(st) => Ok(Concat(st.out))
  }
}

=== FILE: interpreter_laws.dfy ===
/** What one turn of `apply`'s loop does to the state, and what whole runs
    produce: plain text passes through, blocks restore what they saved,
    muted code is silent, and `else` only flips the flag. */
module InterpreterLaws {
  import opened Results
  import opened Text
  import opened Values
  import opened Dicts
  import opened Operations
  import opened Resolution
  import opened Directives
  import opened Decomposer
  import opened DecomposerLaws
  import opened TranslationLaws
  import opened Interpreter

  /** A run that takes one more turn. */
  lemma {:induction false} RunStep(code: seq<Op>, env: Env, reading: Reading, st: State, fuel: nat)
    requires st.pc < |code| && fuel >= 1 && Step(code, env, reading, st).Ok?
    ensures Run(code, env, reading, st, fuel) == Run(code, env, reading, Step(code, env, reading, st).value, fuel - 1)
  {
    assert Run(code, env, reading, st, fuel) == Proceed(code, env, reading, st, fuel);
    assert Proceed(code, env, reading, st, fuel) == Advance(code, env, reading, st, fuel);
  }

  /** The same turn, with the state it reaches and the fuel left after it given. */
  lemma {:induction false} RunTurn(code: seq<Op>, env: Env, reading: Reading, st: State, next: State, fuel: nat, fuel1: nat)
    requires st.pc < |code| && fuel == fuel1 + 1 && Step(code, env, reading, st) == Ok(next)
    ensures Run(code, env, reading, st, fuel) == Run(code, env, reading, next, fuel1)
  {
    RunStep(code, env, reading, st, fuel);
  }

  /** A run that has reached the end of the code. */
  lemma {:induction false} RunDone(code: seq<Op>, env: Env, reading: Reading, st: State, fuel: nat)
    requires st.pc >= |code|
    ensures Run(code, env, reading, st, fuel) == Ok(st)
  {
  }

  /** A run only ever appends to the fragments written before it. */
  lemma {:induction false} RunExtends(code: seq<Op>, env: Env, reading: Reading, st: State, fuel: nat)
    ensures Run(code, env, reading, st, fuel).Ok? ==>
              var out := Run(code, env, reading, st, fuel).value.out;
              |st.out| <= |out| && out[..|st.out|] == st.out
    decreases fuel
  {
    if st.pc >= |code| {
      RunDone(code, env, reading, st, fuel);
    } else if fuel == 0 {
      assert Run(code, env, reading, st, fuel) == Proceed(code, env, reading, st, fuel);
    } else if Step(code, env, reading, st).Ok? {
      var next := Step(code, env, reading, st).value;
      RunStep(code, env, reading, st, fuel);
      RunExtends(code, env, reading, next, fuel - 1);
      if Run(code, env, reading, st, fuel).Ok? {
        var out := Run(code, env, reading, st, fuel).value.out;
        assert out[..|next.out|][..|st.out|] == out[..|st.out|];
      }
    } else {
      assert Run(code, env, reading, st, fuel) == Proceed(code, env, reading, st, fuel);
      assert Proceed(code, env, reading, st, fuel) == Advance(code, env, reading, st, fuel);
    }
  }

  // ---------------------------------------------------------------------
  // Plain text
  // ---------------------------------------------------------------------

  /** Text without a directive compiles to itself and renders to itself, in
      any context and locale. */
  lemma {:induction false} PlainTextUnchanged(s: string, ctx: Value, env: Env, reading: Reading)
    requires !HasDirective(s)
    ensures Decompose(s) == Ok([Literal(s)])
    ensures Apply([Literal(s)], ctx, env, reading, 1) == Ok(s)
  {
    IdentityExactly(s);
    var code := [Literal(s)];
    var st := Start(ctx);
    var st1 := State(1, ctx, Some(""), [], false, if s == [] then [] else [s]);
    assert Step(code, env, reading, st) == Ok(st1);
    RunStep(code, env, reading, st, 1);
    RunDone(code, env, reading, st1, 0);
  }

  // ---------------------------------------------------------------------
  // Literals, variables and translations
  // ---------------------------------------------------------------------

  /** The first fragment written inside a block loses one leading newline. */
  lemma {:induction false} BlockTrimsNewline(code: seq<Op>, env: Env, reading: Reading, st: State, rest: string)
    requires st.pc < |code| && code[st.pc] == Literal("\n" + rest)
    requires !st.mute && st.out == [] && st.stack != []
    ensures Step(code, env, reading, st) == Ok(st.(pc := st.pc + 1, out := if rest == [] then [] else [rest]))
  {
    assert ("\n" + rest)[1..] == rest;
  }

  /** Outside every block, once something has been written, or when it does
      not start with a newline, a literal is written whole. */
  lemma {:induction false} LiteralKept(code: seq<Op>, env: Env, reading: Reading, st: State, text: string)
    requires st.pc < |code| && code[st.pc] == Literal(text) && text != []
    requires !st.mute && (st.out != [] || st.stack == [] || text[0] != '\n')
    ensures Step(code, env, reading, st) == Ok(st.(pc := st.pc + 1, out := st.out + [text]))
  {
  }

  /** A resolved variable writes the missing-variable marker for None, a
      string as it is, a number in decimal, and stops the template on
      anything else; a dict is first replaced by its entry for the locale. */
  lemma {:induction false} ResolveEmits(code: seq<Op>, env: Env, reading: Reading, st: State,
                     path: string, attributes: Option<seq<string>>, prefix: Option<string>, v: Value)
    requires st.pc < |code| && code[st.pc] == Resolve(path, attributes, [], prefix)
    requires !st.mute && ResolveIn(path, st.ctx) == Ok(v)
    ensures var w := Localize(v, env.locale);
            var r := Step(code, env, reading, st);
            && (w.Null? ==> r == Ok(st.(pc := st.pc + 1, out := st.out + [MissingVariable(path)])))
            && (w.Str? ==> r == Ok(st.(pc := st.pc + 1, out := st.out + [w.s])))
            && (w.Int? ==> r == Ok(st.(pc := st.pc + 1, out := st.out + [IntToString(w.n)])))
            && (w.Bool? || w.List? || w.Map? ==> r == Err(NotAString(path)))
  {
  }

  /** A muted variable is still looked up, and a failing lookup still stops the template. */
  lemma {:induction false} MutedResolveFails(code: seq<Op>, env: Env, reading: Reading, st: State,
                          path: string, attributes: Option<seq<string>>, formatters: seq<string>, prefix: Option<string>)
    requires st.pc < |code| && code[st.pc] == Resolve(path, attributes, formatters, prefix)
    requires st.mute && ResolveIn(path, st.ctx).Err?
    ensures Step(code, env, reading, st) == Err(ResolveIn(path, st.ctx).error)
  {
  }

  /** A variable absent from the scope renders as the missing-variable marker. */
  lemma {:induction false} MissingVariableMarked(code: seq<Op>, env: Env, reading: Reading, st: State,
                              name: string, attributes: Option<seq<string>>, prefix: Option<string>)
    requires st.pc < |code| && code[st.pc] == Resolve(name, attributes, [], prefix)
    requires !st.mute && st.ctx.Map? && '.' !in name && ParseInt(name).None? && name !in st.ctx.entries
    ensures Step(code, env, reading, st) == Ok(st.(pc := st.pc + 1, out := st.out + [MissingVariable(name)]))
  {
    assert ResolveIn(name, st.ctx) == Ok(Null);
  }

  /** A translation writes the text for the locale or the marker. */
  lemma {:induction false} TranslateEmits(code: seq<Op>, env: Env, reading: Reading, st: State, t: Translations)
    requires st.pc < |code| && code[st.pc] == Translate(t) && !st.mute
    ensures Step(code, env, reading, st) == Ok(st.(pc := st.pc + 1, out := st.out + [TranslationText(t, env.locale)]))
  {
  }

  /** A template made of one translation directive compiles to the table
      of its assignments between empty literals. */
  lemma {:induction false} TranslationCompiled(es: seq<Entry>)
    requires |es| >= 1 && AllWellFormed(es) && '}' !in ListText(es)
    ensures Decompose("${T:" + ListText(es) + "}") ==
            Ok([Literal(""), Literal(""), Translate(Assign([], es)), Literal("")])
  {
    var d := "T:" + ListText(es);
    var s := "${T:" + ListText(es) + "}";
    assert s == "${" + d + "}";
    var ops := [Literal(""), Translate(Assign([], es))];
    var full := [Literal("")] + ops + [Literal("")];
    assert full == [Literal(""), Literal(""), Translate(Assign([], es)), Literal("")];
    NoBraceAfterT(es);
    TranslationRoundTrip(es, None);
    LoneDirective(d, ops);
  }

  /** The directive text of a list without `}` has none either. */
  lemma {:induction false} NoBraceAfterT(es: seq<Entry>)
    requires |es| >= 1 && '}' !in ListText(es)
    ensures '}' !in "T:" + ListText(es)
  {
    var d := "T:" + ListText(es);
    forall k | 0 <= k < |d| ensures d[k] != '}' {
      if k >= 2 { assert d[k] == ListText(es)[k - 2]; }
    }
  }

  /** Rendering a lone translation gives its text for the locale, or the marker. */
  lemma {:induction false} LoneTranslation(t: Translations, ctx: Value, env: Env, reading: Reading)
    ensures Apply([Literal(""), Literal(""), Translate(t), Literal("")], ctx, env, reading, 4)
            == Ok(TranslationText(t, env.locale))
  {
    var code := [Literal(""), Literal(""), Translate(t), Literal("")];
    var text := TranslationText(t, env.locale);
    var s0 := Start(ctx);
    var s1 := s0.(pc := 1);
    var s2 := s0.(pc := 2);
    var s3 := s0.(pc := 3, out := [text]);
    var s4 := s0.(pc := 4, out := [text]);
    assert Step(code, env, reading, s0) == Ok(s1);
    assert Step(code, env, reading, s1) == Ok(s2);
    assert Step(code, env, reading, s2) == Ok(s3);
    assert Step(code, env, reading, s3) == Ok(s4);
    RunStep(code, env, reading, s0, 4);
    RunStep(code, env, reading, s1, 3);
    RunStep(code, env, reading, s2, 2);
    RunStep(code, env, reading, s3, 1);
    RunDone(code, env, reading, s4, 0);
  }

  /** A template made of one translation directive renders the last text
      given for the locale, and the marker when the locale has none, even
      when the default locale has one. */
  lemma {:induction false} TranslationRendered(es: seq<Entry>, ctx: Value, env: Env, reading: Reading)
    requires |es| >= 1 && AllWellFormed(es) && '}' !in ListText(es)
    ensures var table := Assign([], es);
            var code := [Literal(""), Literal(""), Translate(table), Literal("")];
            && Decompose("${T:" + ListText(es) + "}") == Ok(code)
            && Apply(code, ctx, env, reading, 4) ==
                 Ok(LastText(es, env.locale).GetOr(MissingTranslation(env.locale, table)))
  {
    TranslationCompiled(es);
    LoneTranslation(Assign([], es), ctx, env, reading);
    AssignLookup([], es, env.locale);
  }

  // ---------------------------------------------------------------------
  // Blocks
  // ---------------------------------------------------------------------

  /** `${if:e}` pushes one frame recording the scope, prefix, `this` and
      mute flag, and mutes unless the condition holds; an already muted
      template does not evaluate it. */
  lemma {:induction false} IfOpens(code: seq<Op>, env: Env, reading: Reading, st: State, e: Option<string>)
    requires st.pc < |code| && code[st.pc] == If(e) && st.ctx.Map?
    requires st.mute || Evaluate(e, st.ctx, env.parseJson).Ok?
    ensures var frame := IfFrame(st.ctx.entries, st.prefix, Get(st.ctx.entries, "this"), st.mute);
            Step(code, env, reading, st) ==
              Ok(st.(pc := st.pc + 1, stack := st.stack + [frame],
                     mute := st.mute || !Truthy(Evaluate(e, st.ctx, env.parseJson).value)))
  {
  }

  /** `${if}` without a condition leaves the output on. */
  lemma {:induction false} IfWithoutCondition(code: seq<Op>, env: Env, reading: Reading, st: State)
    requires st.pc < |code| && code[st.pc] == If(None) && st.ctx.Map? && !st.mute
    ensures Step(code, env, reading, st).Ok? && !Step(code, env, reading, st).value.mute
  {
  }

  /** `${else}` negates the flag and does nothing else, whatever the stack holds. */
  lemma {:induction false} ElseNegates(code: seq<Op>, env: Env, st: State)
    requires st.pc < |code| && code[st.pc] == Else
    ensures Step(code, env, AsWritten, st) == Ok(st.(pc := st.pc + 1, mute := !st.mute))
  {
  }

  /** The `${end}` of an `if` or `with` block gives back the scope (with
      `this` as it was and `i` at -1), the prefix, the stack and the mute
      flag its opener found, whatever ran in between. */
  lemma {:induction false} BlockRestores(code: seq<Op>, env: Env, reading: Reading, st: State, inner: State)
    requires st.pc < |code| && (code[st.pc].If? || code[st.pc].With?)
    requires Step(code, env, reading, st).Ok?
    requires inner.pc < |code| && code[inner.pc].End?
    requires inner.stack == Step(code, env, reading, st).value.stack
    ensures st.ctx.Map?
    ensures Step(code, env, reading, inner) ==
      Ok(State(inner.pc + 1, Bind(st.ctx.entries, Get(st.ctx.entries, "this"), -1), st.prefix, st.stack, st.mute, inner.out))
  {
    var pushed := Step(code, env, reading, st).value;
    assert pushed.stack[..|pushed.stack| - 1] == st.stack;
  }

  /** `${end}` with nothing open fails. */
  lemma {:induction false} StrayEnd(code: seq<Op>, env: Env, reading: Reading, st: State, operand: Option<string>)
    requires st.pc < |code| && code[st.pc] == End(operand) && st.stack == []
    ensures Step(code, env, reading, st) == Err(IndexError)
  {
  }
}

=== FILE: literals.dfy ===
/** Python 3's `repr` of a dict of strings, which the missing-translation
    marker embeds (src/templating.py:487), and the reading of it back. In
    each string the quote is `'` unless the text holds `'` and no `"`; the
    quote in use and the backslash are escaped, tab, newline and carriage
    return get their short escapes, and characters that are not printable
    are written in hexadecimal. */
module Literals {
  import opened Results
  import opened Text
  import opened Dicts

  // ---------------------------------------------------------------------
  // Hexadecimal digits
  // ---------------------------------------------------------------------

  const HexDigits: string := "0123456789abcdef"

  function Pow16(width: nat): (r: nat)
    ensures r >= 1
  {
    if width == 0 then 1 else 16 * Pow16(width - 1)
  }

  /** `n` in `width` lower-case hexadecimal digits. */
  function Hex(n: nat, width: nat): (r: string)
    ensures |r| == width
  {
    if width == 0 then [] else Hex(n / 16, width - 1) + [HexDigits[n % 16]]
  }

  function HexDigitValue(c: char): Option<nat> {
    if '0' <= c <= '9' then Some(c as int - '0' as int)
    else if 'a' <= c <= 'f' then Some(c as int - 'a' as int + 10)
    else if 'A' <= c <= 'F' then Some(c as int - 'A' as int + 10)
    else None
  }

  /** The number a run of hexadecimal digits denotes. */
  function HexValue(s: string): Option<nat>
    decreases |s|
  {
    if s == [] then Some(0)
    else match (HexValue(s[..|s| - 1]), HexDigitValue(s[|s| - 1]))
      case (Some(high), Some(low)) => Some(high * 16 + low)
      case _ => None
  }

  lemma {:induction false} HexDigitRead(d: nat)
    requires d < 16
    ensures HexDigitValue(HexDigits[d]) == Some(d)
  {
  }

  /** Hexadecimal digits read back as the number they were written from. */
  lemma {:induction false} HexRead(n: nat, width: nat)
    requires n < Pow16(width)
    ensures HexValue(Hex(n, width)) == Some(n)
    decreases width
  {
    if width > 0 {
      var s := Hex(n, width);
      assert s[..|s| - 1] == Hex(n / 16, width - 1);
      HexRead(n / 16, width - 1);
      HexDigitRead(n % 16);
    }
  }

  // ---------------------------------------------------------------------
  // repr
  // ---------------------------------------------------------------------

  /** The quote `repr` puts around `t`. */
  function Quote(t: string): char {
    if '\'' in t && '"' !in t then '"' else '\''
  }

  /** Characters beyond the ASCII controls that Python does not count as
      printable and writes as an escape: the Latin-1 controls, the no-break
      space, the soft hyphen, and the space and line separators above it. */
  predicate Unprintable(c: char) {
    var n := c as int;
    n < 0x20 || 0x7f <= n <= 0xa0 || n == 0xad || (n >= 0x100 && IsSpace(c))
  }

  /** How `repr` writes one character inside the quote `q`. */
  function Escape(c: char, q: char): (r: string)
    ensures |r| >= 1
    ensures r == [c] <==> c != q && c != '\\' && c != '\t' && c != '\n' && c != '\r' && !Unprintable(c)
  {
    var n := c as int;
    if c == q || c == '\\' then ['\\', c]
    else if c == '\t' then "\\t"
    else if c == '\n' then "\\n"
    else if c == '\r' then "\\r"
    else if n < 0x100 && Unprintable(c) then "\\x" + Hex(n, 2)
    else if Unprintable(c) then "\\u" + Hex(n, 4)
    else [c]
  }

  function Escaped(t: string, q: char): string {
    if t == [] then [] else Escape(t[0], q) + Escaped(t[1..], q)
  }

  /** `repr(t)` for a string. */
  function StrRepr(t: string): (r: string)
    ensures |r| >= 2 && r[0] == Quote(t) && r[|r| - 1] == Quote(t)
  {
    [Quote(t)] + Escaped(t, Quote(t)) + [Quote(t)]
  }

  // ---------------------------------------------------------------------
  // Reading a literal back
  // ---------------------------------------------------------------------

  function Cons(c: char, rest: Option<string>): Option<string> {
    match rest
    case Some(s) => Some([c] + s)
    case None => None
  }

  /** The character a hexadecimal escape of `width` digits at the start of
      `b` stands for, and what follows it. */
  function HexEscape(b: string, width: nat): Option<(char, string)> {
    if |b| < width then None
    else match HexValue(b[..width])
      case None => None
      case Some(v) =>
        if 0xD800 <= v < 0xE000 || v >= 0x11_0000 then None
        else Some((v as char, b[width..]))
  }

  /** The text the inside of a string literal stands for, reading the
      escapes `repr` writes. */
  function Unescape(b: string): Option<string>
    decreases |b|
  {
    if b == [] then Some([])
    else if b[0] != '\\' then Cons(b[0], Unescape(b[1..]))
    else if |b| < 2 then None
    else
      var e := b[1];
      if e == '\\' || e == '\'' || e == '"' then Cons(e, Unescape(b[2..]))
      else if e == 't' then Cons('\t', Unescape(b[2..]))
      else if e == 'n' then Cons('\n', Unescape(b[2..]))
      else if e == 'r' then Cons('\r', Unescape(b[2..]))
      else if e == 'x' || e == 'u' then
        match HexEscape(b[2..], if e == 'x' then 2 else 4)
        case Some((c, rest)) => Cons(c, Unescape(rest))
        case None => None
      else None
  }

  /** The text a quoted string literal stands for. */
  function ReadStr(r: string): Option<string> {
    if |r| >= 2 && (r[0] == '\'' || r[0] == '"') && r[|r| - 1] == r[0] then Unescape(r[1..|r| - 1])
    else None
  }

  lemma {:induction false} HexEscapeOf(n: nat, width: nat, rest: string)
    requires n < Pow16(width) && n < 0xD800
    ensures HexEscape(Hex(n, width) + rest, width) == Some((n as char, rest))
  {
    var b := Hex(n, width) + rest;
    assert b[..width] == Hex(n, width) && b[width..] == rest;
    HexRead(n, width);
  }

  /** A backslash and a letter or the character itself read back as the character. */
  lemma {:induction false} UnescapeShort(c: char, q: char, rest: string)
    requires q == '\'' || q == '"'
    requires c == q || c == '\\' || c == '\t' || c == '\n' || c == '\r'
    ensures Unescape(Escape(c, q) + rest) == Cons(c, Unescape(rest))
  {
    var b := Escape(c, q) + rest;
    assert |Escape(c, q)| == 2 && b[0] == '\\';
    assert b[2..] == rest;
  }

  /** How `repr` writes a character that is neither a quote, a backslash
      nor one with a short escape, and is not printable. */
  lemma {:induction false} EscapeHex(c: char, q: char, lead: char, width: nat)
    requires c != q && c != '\\' && c != '\t' && c != '\n' && c != '\r' && Unprintable(c)
    requires (lead == 'x' && width == 2 && (c as int) < 0x100) || (lead == 'u' && width == 4 && (c as int) >= 0x100)
    ensures Escape(c, q) == ['\\', lead] + Hex(c as int, width)
  {
  }

  /** A backslash, `x` or `u`, and hexadecimal digits. */
  lemma {:induction false} UnescapeLead(lead: char, width: nat, tail: string)
    requires (lead == 'x' && width == 2) || (lead == 'u' && width == 4)
    ensures Unescape(['\\', lead] + tail) ==
      match HexEscape(tail, width)
      case Some((c, rest)) => Cons(c, Unescape(rest))
      case None => None
  {
    var b := ['\\', lead] + tail;
    assert b[0] == '\\' && b[1] == lead && b[2..] == tail;
  }

  /** A hexadecimal escape reads back as the character it was written for. */
  lemma {:induction false} UnescapeHex(c: char, q: char, rest: string, lead: char, width: nat)
    requires c != q && c != '\\' && c != '\t' && c != '\n' && c != '\r' && Unprintable(c)
    requires (lead == 'x' && width == 2 && (c as int) < 0x100) || (lead == 'u' && width == 4 && (c as int) >= 0x100)
    ensures Unescape(Escape(c, q) + rest) == Cons(c, Unescape(rest))
  {
    var n := c as int;
    var h := Hex(n, width);
    EscapeHex(c, q, lead, width);
    assert Escape(c, q) + rest == ['\\', lead] + (h + rest);
    UnescapeLead(lead, width, h + rest);
    assert n < 0x3001;
    assert Pow16(2) == 256 && Pow16(4) == 65536;
    HexEscapeOf(n, width, rest);
  }

  /** One escaped character reads back as itself. */
  lemma {:induction false} UnescapeOne(c: char, q: char, rest: string)
    requires q == '\'' || q == '"'
    ensures Unescape(Escape(c, q) + rest) == Cons(c, Unescape(rest))
  {
    if c == q || c == '\\' || c == '\t' || c == '\n' || c == '\r' {
      UnescapeShort(c, q, rest);
    } else if Unprintable(c) {
      if (c as int) < 0x100 {
        UnescapeHex(c, q, rest, 'x', 2);
      } else {
        UnescapeHex(c, q, rest, 'u', 4);
      }
    } else {
      var b := Escape(c, q) + rest;
      assert b[0] == c && b[1..] == rest;
    }
  }

  lemma {:induction false} UnescapeEscaped(t: string, q: char)
    requires q == '\'' || q == '"'
    ensures Unescape(Escaped(t, q)) == Some(t)
    decreases |t|
  {
    if t != [] {
      var rest := Escaped(t[1..], q);
      assert Escaped(t, q) == Escape(t[0], q) + rest;
      UnescapeEscaped(t[1..], q);
      UnescapeOne(t[0], q, rest);
      assert [t[0]] + t[1..] == t;
    }
  }

  /** `repr` loses nothing: the literal it writes reads back as the text. */
  lemma {:induction false} ReadRepr(t: string)
    ensures ReadStr(StrRepr(t)) == Some(t)
  {
    var r := StrRepr(t);
    assert r[1..|r| - 1] == Escaped(t, Quote(t));
    UnescapeEscaped(t, Quote(t));
  }

  // ---------------------------------------------------------------------
  // A literal among other text
  // ---------------------------------------------------------------------

  /** Where the inside of a literal closed by `q` ends, from `i` on: the
      first `q` no backslash escapes. */
  function BodyEnd(s: string, q: char, i: nat): (r: Option<nat>)
    requires i <= |s|
    ensures r.Some? ==> i <= r.value < |s| && s[r.value] == q
    decreases |s| - i
  {
    if i == |s| then None
    else if s[i] == q then Some(i)
    else if s[i] == '\\' then (if i + 1 < |s| then BodyEnd(s, q, i + 2) else None)
    else BodyEnd(s, q, i + 1)
  }

  /** The quoted literal `s` starts with: the text it stands for, and what
      follows its closing quote. */
  function ReadLiteral(s: string): (r: Option<(string, string)>)
    ensures r.Some? ==> |r.value.1| < |s|
  {
    if s == [] || (s[0] != '\'' && s[0] != '"') then None
    else match BodyEnd(s, s[0], 1)
      case None => None
      case Some(e) =>
        match Unescape(s[1..e])
        case None => None
        case Some(t) => Some((t, s[e + 1..]))
  }

  /** Characters that are neither the quote nor a backslash do not end a literal. */
  lemma {:induction false} BodyEndPlain(s: string, q: char, i: nat, j: nat)
    requires i <= j <= |s|
    requires forall k :: i <= k < j ==> s[k] != q && s[k] != '\\'
    ensures BodyEnd(s, q, i) == BodyEnd(s, q, j)
    decreases j - i
  {
    if i < j {
      BodyEndPlain(s, q, i + 1, j);
    }
  }

  lemma {:induction false} HexPlain(n: nat, width: nat)
    ensures forall k :: 0 <= k < width ==> Hex(n, width)[k] in HexDigits
    decreases width
  {
    if width > 0 {
      HexPlain(n / 16, width - 1);
      var h := Hex(n, width);
      assert forall k :: 0 <= k < width - 1 ==> h[k] == Hex(n / 16, width - 1)[k];
    }
  }

  /** A backslash escapes the character after it. */
  lemma {:induction false} BodyEndBackslash(s: string, q: char, i: nat)
    requires i + 1 < |s| && s[i] == '\\' && q != '\\'
    ensures BodyEnd(s, q, i) == BodyEnd(s, q, i + 2)
  {
  }

  /** Hexadecimal digits at `i` are neither quotes nor backslashes. */
  lemma {:induction false} BodyEndDigits(s: string, q: char, i: nat, n: nat, width: nat)
    requires q == '\'' || q == '"'
    requires i + width <= |s| && s[i..i + width] == Hex(n, width)
    ensures BodyEnd(s, q, i) == BodyEnd(s, q, i + width)
  {
    HexPlain(n, width);
    forall k | i <= k < i + width
      ensures s[k] != q && s[k] != '\\'
    {
      assert s[k] == s[i..i + width][k - i];
    }
    BodyEndPlain(s, q, i, i + width);
  }

  /** A hexadecimal escape does not end the literal it is written in. */
  lemma {:induction false} BodyEndHexEscape(s: string, q: char, i: nat, c: char, lead: char, width: nat)
    requires q == '\'' || q == '"'
    requires i + 2 + width <= |s| && s[i..i + 2 + width] == ['\\', lead] + Hex(c as int, width)
    ensures BodyEnd(s, q, i) == BodyEnd(s, q, i + 2 + width)
  {
    var j, e := i + 2, i + 2 + width;
    SliceSplit(s, i, j, e, ['\\', lead], Hex(c as int, width));
    assert s[i] == s[i..j][0];
    BodyEndBackslash(s, q, i);
    BodyEndDigits(s, q, j, c as int, width);
  }

  /** An escaped character does not end the literal it is written in. */
  lemma {:induction false} BodyEndSkip(s: string, q: char, i: nat, c: char, j: nat)
    requires q == '\'' || q == '"'
    requires j == i + |Escape(c, q)| && j <= |s| && s[i..j] == Escape(c, q)
    ensures BodyEnd(s, q, i) == BodyEnd(s, q, j)
  {
    var e := Escape(c, q);
    if c == q || c == '\\' || c == '\t' || c == '\n' || c == '\r' {
      assert |e| == 2 && e[0] == '\\';
      assert s[i] == s[i..i + |e|][0];
      BodyEndBackslash(s, q, i);
    } else if Unprintable(c) {
      var lead, width := if (c as int) < 0x100 then 'x' else 'u', if (c as int) < 0x100 then 2 else 4;
      EscapeHex(c, q, lead, width);
      BodyEndHexEscape(s, q, i, c, lead, width);
    } else {
      assert e == [c] && s[i] == s[i..i + 1][0];
      BodyEndPlain(s, q, i, i + 1);
    }
  }

  /** The escaped text runs up to the closing quote, at `k`. */
  lemma {:induction false} BodyEndEscaped(s: string, q: char, i: nat, t: string, k: nat)
    requires q == '\'' || q == '"'
    requires k == i + |Escaped(t, q)| && k < |s| && s[i..k + 1] == Escaped(t, q) + [q]
    ensures BodyEnd(s, q, i) == Some(k)
    decreases |t|
  {
    if t == [] {
      assert s[i] == s[i..k + 1][0];
    } else {
      var e := Escape(t[0], q);
      var tail := Escaped(t[1..], q);
      var j := i + |e|;
      assert Escaped(t, q) + [q] == e + (tail + [q]);
      SliceSplit(s, i, j, k + 1, e, tail + [q]);
      BodyEndSkip(s, q, i, t[0], j);
      BodyEndEscaped(s, q, j, t[1..], k);
    }
  }

  /** A literal `repr` writes reads back as its text, whatever follows it. */
  lemma {:induction false} ReadLiteralRepr(t: string, rest: string)
    ensures ReadLiteral(StrRepr(t) + rest) == Some((t, rest))
  {
    var q := Quote(t);
    var body := Escaped(t, q);
    var s := StrRepr(t) + rest;
    assert s == [q] + body + [q] + rest;
    var k := 1 + |body|;
    assert s[1..k + 1] == body + [q];
    BodyEndEscaped(s, q, 1, t, k);
    assert s[1..1 + |body|] == body;
    assert s[1 + |body| + 1..] == rest;
    UnescapeEscaped(t, q);
  }

  // ---------------------------------------------------------------------
  // repr of a dict of strings
  // ---------------------------------------------------------------------

  /** `repr(d)` for a dict of strings, entries in insertion order as
      Python 3.7 keeps them: `{'en': 'Hi', 'fr': "l'heure"}`. */
  function DictRepr(d: Dict<string>): (r: string)
    ensures |r| >= 2 && r[0] == '{' && r[|r| - 1] == '}'
  {
    "{" + Entries(d) + "}"
  }

  function Entries(d: Dict<string>): string {
    if d == [] then ""
    else
      var entry := StrRepr(d[0].0) + ": " + StrRepr(d[0].1);
      if |d| == 1 then entry else entry + ", " + Entries(d[1..])
  }

  /** The dict a `repr` text describes. */
  function ReadDict(r: string): Option<Dict<string>> {
    if r != [] && r[0] == '{' then ReadEntries(r[1..]) else None
  }

  /** The entries up to the closing brace: none at all, or entries
      separated by commas. */
  function ReadEntries(s: string): Option<Dict<string>>
    decreases |s|, 0
  {
    if s == "}" then Some([])
    else match ReadLiteral(s)
      case None => None
      case Some((key, afterKey)) =>
        if |afterKey| < 2 || afterKey[..2] != ": " then None
        else match ReadLiteral(afterKey[2..])
          case None => None
          case Some((value, afterValue)) => ReadAfterEntry(key, value, afterValue)
  }

  /** What follows an entry: the closing brace, or a comma and more entries. */
  function ReadAfterEntry(key: string, value: string, after: string): Option<Dict<string>>
    decreases |after|, 1
  {
    if after == "}" then Some([(key, value)])
    else if |after| < 2 || after[..2] != ", " || after[2..] == "}" then None
    else match ReadEntries(after[2..])
      case None => None
      case Some(more) => Some([(key, value)] + more)
  }

  /** One entry as `repr` writes it, and what follows it. */
  lemma {:induction false} ReadEntry(key: string, value: string, tail: string)
    ensures ReadEntries(StrRepr(key) + ": " + StrRepr(value) + tail) == ReadAfterEntry(key, value, tail)
  {
    var afterKey := ": " + (StrRepr(value) + tail);
    var s := StrRepr(key) + afterKey;
    assert StrRepr(key) + ": " + StrRepr(value) + tail == s;
    assert s != "}" by { assert s[0] == Quote(key); }
    ReadLiteralRepr(key, afterKey);
    assert afterKey[..2] == ": " && afterKey[2..] == StrRepr(value) + tail;
    ReadLiteralRepr(value, tail);
  }

  /** An entry in front of more entries. */
  lemma {:induction false} ReadEntriesFront(key: string, value: string, more: string)
    requires more != [] && more[0] != '}'
    ensures ReadEntries(StrRepr(key) + ": " + StrRepr(value) + (", " + more + "}")) ==
      match ReadEntries(more + "}")
      case None => None
      case Some(rest) => Some([(key, value)] + rest)
  {
    ReadEntry(key, value, ", " + more + "}");
    ReadAfterComma(key, value, more);
  }

  lemma {:induction false} ReadAfterComma(key: string, value: string, more: string)
    requires more != [] && more[0] != '}'
    ensures ReadAfterEntry(key, value, ", " + more + "}") ==
      match ReadEntries(more + "}")
      case None => None
      case Some(rest) => Some([(key, value)] + rest)
  {
    var tail := ", " + more + "}";
    assert tail[..2] == ", " && tail[2..] == more + "}";
    assert tail[2..] != "}" by { assert tail[2] == more[0]; }
  }

  lemma {:induction false} ReadEntriesRepr(d: Dict<string>)
    ensures ReadEntries(Entries(d) + "}") == Some(d)
    decreases |d|
  {
    if |d| == 1 {
      assert Entries(d) + "}" == StrRepr(d[0].0) + ": " + StrRepr(d[0].1) + "}";
      ReadEntry(d[0].0, d[0].1, "}");
      assert d == [(d[0].0, d[0].1)];
    } else if d != [] {
      ReadEntriesRepr(d[1..]);
      ReadEntriesCons(d);
    }
  }

  /** The text of a non-empty dict starts with the quote of its first key. */
  lemma EntriesHead(d: Dict<string>)
    requires d != []
    ensures Entries(d) != [] && Entries(d)[0] == Quote(d[0].0)
  {
    var entry := StrRepr(d[0].0) + ": " + StrRepr(d[0].1);
    assert entry[0] == Quote(d[0].0);
  }

  /** The text of a dict of two or more entries, split after its first entry. */
  lemma EntriesCons(d: Dict<string>, key: string, value: string, more: string)
    requires |d| >= 2 && d[0] == (key, value) && more == Entries(d[1..])
    ensures Entries(d) + "}" == StrRepr(key) + ": " + StrRepr(value) + (", " + more + "}")
  {
    assert Entries(d) == StrRepr(key) + ": " + StrRepr(value) + ", " + more;
  }

  /** One more entry in front of entries that read back. */
  lemma {:induction false} ReadEntriesCons(d: Dict<string>)
    requires |d| >= 2 && ReadEntries(Entries(d[1..]) + "}") == Some(d[1..])
    ensures ReadEntries(Entries(d) + "}") == Some(d)
  {
    var key, value, more := d[0].0, d[0].1, Entries(d[1..]);
    EntriesCons(d, key, value, more);
    EntriesHead(d[1..]);
    ReadEntriesFront(key, value, more);
    assert [(key, value)] + d[1..] == d;
  }

  /** `repr` of a dict loses nothing: it reads back as the dict. */
  lemma {:induction false} ReadDictRepr(d: Dict<string>)
    ensures ReadDict(DictRepr(d)) == Some(d)
  {
    assert DictRepr(d)[1..] == Entries(d) + "}";
    ReadEntriesRepr(d);
  }

  /** Strings as Python 3 prints them: a text with an apostrophe and no
      double quote is put in double quotes, and a newline is escaped. */
  lemma {:induction false} StrReprExamples()
    ensures StrRepr("en") == "'en'"
    ensures StrRepr("'") == "\"'\""
    ensures StrRepr("\n") == "'\\n'"
  {
    assert Escaped("en", '\'') == "en" by {
      assert Escaped("n", '\'') == "n" by { assert Escaped("", '\'') == ""; }
    }
    assert Escaped("'", '"') == "'" by { assert Escaped("", '"') == ""; }
    assert Escaped("\n", '\'') == "\\n" by { assert Escaped("", '\'') == ""; }
  }

  /** A one-entry table as Python 3 prints it. */
  lemma {:induction false} DictReprExample()
    ensures DictRepr([("en", "'")]) == "{'en': \"'\"}"
  {
    StrReprExamples();
  }
}

=== FILE: loop_laws.dfy ===
/** Whole `${for:...}...${end}` loops whose body only writes text: how many
    passes they make, what each pass sees, and what the loop leaves behind
    (src/templating.py:495-509, 519-554). */
module LoopLaws {
  import opened Results
  import opened Values
  import opened Operations
  import opened Resolution
  import opened Interpreter
  import opened InterpreterLaws

  /** A body operation that writes text and touches neither the stack nor
      the flag; a literal must not start with the newline a block trims. */
  predicate Simple(op: Op) {
    || (op.Literal? && (op.text == [] || op.text[0] != '\n'))
    || op.Resolve?
    || op.Translate?
  }

  predicate SimpleBody(code: seq<Op>, from: nat, to: nat) {
    from <= to <= |code| && forall k :: from <= k < to ==> Simple(code[k])
  }

  /** What one operation writes, unmuted, in scope `ctx`. */
  function Written(op: Op, env: Env, ctx: Value): Result<seq<string>> {
    match op
    case Literal(text) => Ok(if text == [] then [] else [text])
    case Resolve(path, _, formatters, _) =>
      (match ResolveIn(path, ctx)
       case Err(f) => Err(f)
       case Ok(v) =>
         match Render(env, path, formatters, v)
         case Err(f) => Err(f)
         case Ok(s) => Ok([s]))
    case Translate(t) => Ok([TranslationText(t, env.locale)])
    case _ => Ok([])
  }

  /** What the operations `code[from..to]` write one after the other in
      scope `ctx`; the first failure wins. */
  function BodyOutput(code: seq<Op>, env: Env, from: nat, to: nat, ctx: Value): Result<seq<string>>
    requires from <= to <= |code|
    decreases |code| - from
  {
    if from == to then Ok([])
    else match Written(code[from], env, ctx)
      case Err(f) => Err(f)
      case Ok(o) =>
        match BodyOutput(code, env, from + 1, to, ctx)
        case Err(f) => Err(f)
        case Ok(rest) => Ok(o + rest)
  }

  /** Every variable of the body can be looked up in `ctx`. */
  predicate Resolvable(code: seq<Op>, from: nat, to: nat, ctx: Value)
    requires from <= to <= |code|
  {
    forall k :: from <= k < to && code[k].Resolve? ==> ResolveIn(code[k].path, ctx).Ok?
  }

  /** One unmuted simple operation appends what it writes. */
  lemma {:induction false} SimpleStep(code: seq<Op>, env: Env, reading: Reading, st: State)
    requires st.pc < |code| && Simple(code[st.pc]) && !st.mute
    requires Written(code[st.pc], env, st.ctx).Ok?
    ensures Step(code, env, reading, st) == Ok(st.(pc := st.pc + 1, out := st.out + Written(code[st.pc], env, st.ctx).value))
  {
    match code[st.pc]
    case Literal(text) =>
      if text != [] {
        assert text[0] != '\n';
        assert LiteralOut(st.out, st.stack != [], text) == st.out + [text];
      } else {
        assert st.out + [] == st.out;
      }
    case Resolve(_, _, _, _) =>
    case Translate(_) =>
  }

  /** One muted simple operation only moves on, once its variable resolves. */
  lemma {:induction false} MutedSimpleStep(code: seq<Op>, env: Env, reading: Reading, st: State)
    requires st.pc < |code| && Simple(code[st.pc]) && st.mute
    requires code[st.pc].Resolve? ==> ResolveIn(code[st.pc].path, st.ctx).Ok?
    ensures Step(code, env, reading, st) == Ok(st.(pc := st.pc + 1))
  {
  }

  /** `${for}` over a non-empty list binds the first item. */
  lemma {:induction false} EnterList(code: seq<Op>, env: Env, reading: Reading, st: State, path: string, limit: int, items: seq<Value>)
    requires st.pc < |code| && code[st.pc] == For(path, limit) && st.ctx.Map?
    requires ResolveIn(path, st.ctx) == Ok(List(items)) && |items| >= 1
    requires InnerPrefix(reading, path, st.prefix).Ok?
    ensures var scope := st.ctx.entries;
            var frame := ForFrame(scope, st.prefix, st.pc, 0, limit, List(items), Get(scope, "this"), st.mute);
            Step(code, env, reading, st) ==
              Ok(State(st.pc + 1, Bind(scope, items[0], 0), InnerPrefix(reading, path, st.prefix).value,
                       st.stack + [frame], st.mute, st.out))
  {
    var next := st.(pc := st.pc + 1);
    assert Step(code, env, reading, st) == OpenFor(reading, next, path, limit);
    assert OpenFor(reading, next, path, limit) == OpenLoop(reading, next, path, limit, List(items));
    LoopOpensList(reading, next, path, limit, items);
  }

  /** A loop over a non-empty list binds its first item. */
  lemma {:induction false} LoopOpensList(reading: Reading, next: State, path: string, limit: int, items: seq<Value>)
    requires next.pc >= 1 && next.ctx.Map? && |items| >= 1
    requires InnerPrefix(reading, path, next.prefix).Ok?
    ensures var scope := next.ctx.entries;
            var frame := ForFrame(scope, next.prefix, next.pc - 1, 0, limit, List(items), Get(scope, "this"), next.mute);
            OpenLoop(reading, next, path, limit, List(items)) ==
              Ok(next.(ctx := Bind(scope, items[0], 0), prefix := InnerPrefix(reading, path, next.prefix).value,
                       stack := next.stack + [frame]))
  {
    assert IsEmpty(List(items)) == Ok(false);
    assert Index(List(items), 0) == Ok(items[0]);
  }

  /** `${for}` over an empty or absent collection mutes and binds None. */
  lemma {:induction false} EnterEmpty(code: seq<Op>, env: Env, reading: Reading, st: State, path: string, limit: int, collection: Value)
    requires st.pc < |code| && code[st.pc] == For(path, limit) && st.ctx.Map?
    requires ResolveIn(path, st.ctx) == Ok(collection) && !Truthy(collection)
    requires InnerPrefix(reading, path, st.prefix).Ok?
    ensures var scope := st.ctx.entries;
            var frame := ForFrame(scope, st.prefix, st.pc, 0, limit, collection, Get(scope, "this"), st.mute);
            Step(code, env, reading, st) ==
              Ok(State(st.pc + 1, Bind(scope, Null, -1), InnerPrefix(reading, path, st.prefix).value,
                       st.stack + [frame], true, st.out))
  {
    var next := st.(pc := st.pc + 1);
    assert Step(code, env, reading, st) == OpenFor(reading, next, path, limit);
    assert OpenFor(reading, next, path, limit) == OpenLoop(reading, next, path, limit, collection);
    LoopOpensEmpty(reading, next, path, limit, collection);
  }

  /** A loop over an empty or absent collection mutes and binds None. */
  lemma {:induction false} LoopOpensEmpty(reading: Reading, next: State, path: string, limit: int, collection: Value)
    requires next.pc >= 1 && next.ctx.Map? && !Truthy(collection)
    requires InnerPrefix(reading, path, next.prefix).Ok?
    ensures var scope := next.ctx.entries;
            var frame := ForFrame(scope, next.prefix, next.pc - 1, 0, limit, collection, Get(scope, "this"), next.mute);
            OpenLoop(reading, next, path, limit, collection) ==
              Ok(next.(ctx := Bind(scope, Null, -1), prefix := InnerPrefix(reading, path, next.prefix).value,
                       stack := next.stack + [frame], mute := true))
  {
    assert IsEmpty(collection) == Ok(true);
  }

  /** The `${end}` of a loop over a list with passes left goes back to the
      operation after the `for` with the next item bound. */
  lemma {:induction false} EndContinues(code: seq<Op>, env: Env, reading: Reading, st: State, below: seq<Frame>, top: Frame)
    requires st.pc < |code| && code[st.pc].End? && st.stack == below + [top]
    requires top.ForFrame? && top.collection.List? && top.collection.items != []
    requires top.index + 1 < LoopBound(top.collection, top.limit).value
    ensures top.index + 1 < |top.collection.items|
    ensures Step(code, env, reading, st) ==
      Ok(State(top.start + 1, Bind(top.scope, top.collection.items[top.index + 1], top.index + 1), top.prefix,
               below + [top.(index := top.index + 1)], st.mute, st.out))
  {
    assert st.stack[|st.stack| - 1] == top && st.stack[..|st.stack| - 1] == below;
  }

  /** The `${end}` of a loop with no pass left pops its frame and restores
      `this` and the flag; `i` keeps the number of passes. */
  lemma {:induction false} EndLeaves(code: seq<Op>, env: Env, reading: Reading, st: State, below: seq<Frame>, top: Frame)
    requires st.pc < |code| && code[st.pc].End? && st.stack == below + [top]
    requires top.ForFrame? && LoopBound(top.collection, top.limit).Ok?
    requires top.index + 1 >= LoopBound(top.collection, top.limit).value
    ensures Step(code, env, reading, st) ==
      Ok(State(st.pc + 1, Bind(top.scope, top.saved, top.index + 1), top.prefix, below, top.mute, st.out))
  {
    assert st.stack[|st.stack| - 1] == top && st.stack[..|st.stack| - 1] == below;
  }

  // Each turn above as the first turn of a run: the run from the state
  // before the turn gives `r` whenever the run from the state after it
  // does. The states are spelled out field by field, and the position and
  // fuel after the turn are parameters, so that the runs a caller chains
  // up are the same terms.

  lemma {:induction false} RunSimple(code: seq<Op>, env: Env, reading: Reading, pc: nat, pc1: nat, ctx: Value,
                                     prefix: Option<string>, stack: seq<Frame>, out: seq<string>, out1: seq<string>,
                                     fuel: nat, fuel1: nat, r: Result<State>)
    requires pc < |code| && Simple(code[pc]) && pc1 == pc + 1 && fuel == fuel1 + 1
    requires Written(code[pc], env, ctx).Ok? && out1 == out + Written(code[pc], env, ctx).value
    requires Run(code, env, reading, State(pc1, ctx, prefix, stack, false, out1), fuel1) == r
    ensures Run(code, env, reading, State(pc, ctx, prefix, stack, false, out), fuel) == r
  {
    var st := State(pc, ctx, prefix, stack, false, out);
    SimpleStep(code, env, reading, st);
    RunTurn(code, env, reading, st, State(pc1, ctx, prefix, stack, false, out1), fuel, fuel1);
  }

  lemma {:induction false} RunMutedSimple(code: seq<Op>, env: Env, reading: Reading, pc: nat, pc1: nat, ctx: Value,
                                          prefix: Option<string>, stack: seq<Frame>, out: seq<string>,
                                          fuel: nat, fuel1: nat, r: Result<State>)
    requires pc < |code| && Simple(code[pc]) && pc1 == pc + 1 && fuel == fuel1 + 1
    requires code[pc].Resolve? ==> ResolveIn(code[pc].path, ctx).Ok?
    requires Run(code, env, reading, State(pc1, ctx, prefix, stack, true, out), fuel1) == r
    ensures Run(code, env, reading, State(pc, ctx, prefix, stack, true, out), fuel) == r
  {
    var st := State(pc, ctx, prefix, stack, true, out);
    MutedSimpleStep(code, env, reading, st);
    RunTurn(code, env, reading, st, State(pc1, ctx, prefix, stack, true, out), fuel, fuel1);
  }

  lemma {:induction false} RunEnterList(code: seq<Op>, env: Env, reading: Reading, pc: nat, pc1: nat,
                                        scope: map<string, Value>, prefix: Option<string>, stack: seq<Frame>,
                                        out: seq<string>, path: string, limit: int, items: seq<Value>,
                                        inner: Option<string>, fuel: nat, fuel1: nat, r: Result<State>)
    requires pc < |code| && code[pc] == For(path, limit) && pc1 == pc + 1 && fuel == fuel1 + 1
    requires ResolveIn(path, Map(scope)) == Ok(List(items)) && |items| >= 1
    requires InnerPrefix(reading, path, prefix) == Ok(inner)
    requires Run(code, env, reading,
                 State(pc1, Bind(scope, items[0], 0), inner,
                       stack + [ForFrame(scope, prefix, pc, 0, limit, List(items), Get(scope, "this"), false)], false, out),
                 fuel1) == r
    ensures Run(code, env, reading, State(pc, Map(scope), prefix, stack, false, out), fuel) == r
  {
    var st := State(pc, Map(scope), prefix, stack, false, out);
    var frames := stack + [ForFrame(scope, prefix, pc, 0, limit, List(items), Get(scope, "this"), false)];
    EnterList(code, env, reading, st, path, limit, items);
    RunTurn(code, env, reading, st, State(pc1, Bind(scope, items[0], 0), inner, frames, false, out), fuel, fuel1);
  }

  lemma {:induction false} RunEnterEmpty(code: seq<Op>, env: Env, reading: Reading, pc: nat, pc1: nat,
                                         scope: map<string, Value>, prefix: Option<string>, stack: seq<Frame>,
                                         mute: bool, out: seq<string>, path: string, limit: int, collection: Value,
                                         inner: Option<string>, fuel: nat, fuel1: nat, r: Result<State>)
    requires pc < |code| && code[pc] == For(path, limit) && pc1 == pc + 1 && fuel == fuel1 + 1
    requires ResolveIn(path, Map(scope)) == Ok(collection) && !Truthy(collection)
    requires InnerPrefix(reading, path, prefix) == Ok(inner)
    requires Run(code, env, reading,
                 State(pc1, Bind(scope, Null, -1), inner,
                       stack + [ForFrame(scope, prefix, pc, 0, limit, collection, Get(scope, "this"), mute)], true, out),
                 fuel1) == r
    ensures Run(code, env, reading, State(pc, Map(scope), prefix, stack, mute, out), fuel) == r
  {
    var st := State(pc, Map(scope), prefix, stack, mute, out);
    var frames := stack + [ForFrame(scope, prefix, pc, 0, limit, collection, Get(scope, "this"), mute)];
    EnterEmpty(code, env, reading, st, path, limit, collection);
    RunTurn(code, env, reading, st, State(pc1, Bind(scope, Null, -1), inner, frames, true, out), fuel, fuel1);
  }

  lemma {:induction false} RunEndContinues(code: seq<Op>, env: Env, reading: Reading, endPc: nat, ctx: Value,
                                           current: Option<string>, below: seq<Frame>, scope: map<string, Value>,
                                           prefix: Option<string>, forPc: nat, from: nat, j: nat, j1: nat,
                                           limit: int, items: seq<Value>, saved: Value, mute: bool, out: seq<string>,
                                           fuel: nat, fuel1: nat, r: Result<State>)
    requires endPc < |code| && code[endPc].End? && from == forPc + 1 && j1 == j + 1 && fuel == fuel1 + 1
    requires items != [] && j1 < LoopBound(List(items), limit).value && j1 < |items|
    requires Run(code, env, reading,
                 State(from, Bind(scope, items[j1], j1), prefix,
                       below + [ForFrame(scope, prefix, forPc, j1, limit, List(items), saved, mute)], false, out),
                 fuel1) == r
    ensures Run(code, env, reading,
                State(endPc, ctx, current, below + [ForFrame(scope, prefix, forPc, j, limit, List(items), saved, mute)], false, out),
                fuel) == r
  {
    var top := ForFrame(scope, prefix, forPc, j, limit, List(items), saved, mute);
    var st := State(endPc, ctx, current, below + [top], false, out);
    var frames := below + [ForFrame(scope, prefix, forPc, j1, limit, List(items), saved, mute)];
    EndContinues(code, env, reading, st, below, top);
    RunTurn(code, env, reading, st, State(from, Bind(scope, items[j1], j1), prefix, frames, false, out), fuel, fuel1);
  }

  lemma {:induction false} RunEndLeaves(code: seq<Op>, env: Env, reading: Reading, endPc: nat, end1: nat, ctx: Value,
                                        current: Option<string>, flag: bool, below: seq<Frame>, scope: map<string, Value>,
                                        prefix: Option<string>, forPc: nat, j: nat, j1: nat, limit: int, collection: Value,
                                        saved: Value, mute: bool, out: seq<string>, fuel: nat, fuel1: nat, r: Result<State>)
    requires endPc < |code| && code[endPc].End? && end1 == endPc + 1 && j1 == j + 1 && fuel == fuel1 + 1
    requires LoopBound(collection, limit).Ok? && j1 >= LoopBound(collection, limit).value
    requires Run(code, env, reading, State(end1, Bind(scope, saved, j1), prefix, below, mute, out), fuel1) == r
    ensures Run(code, env, reading,
                State(endPc, ctx, current, below + [ForFrame(scope, prefix, forPc, j, limit, collection, saved, mute)], flag, out),
                fuel) == r
  {
    var top := ForFrame(scope, prefix, forPc, j, limit, collection, saved, mute);
    var st := State(endPc, ctx, current, below + [top], flag, out);
    EndLeaves(code, env, reading, st, below, top);
    RunTurn(code, env, reading, st, State(end1, Bind(scope, saved, j1), prefix, below, mute, out), fuel, fuel1);
  }

  lemma {:induction false} Appended(out: seq<string>, w: seq<string>, rest: seq<string>, o: seq<string>)
    requires o == w + rest
    ensures out + w + rest == out + o
  {
  }

  /** `BodyOutput` one operation in. */
  lemma {:induction false} BodyOutputStep(code: seq<Op>, env: Env, pc: nat, pc1: nat, to: nat, ctx: Value, o: seq<string>)
    requires pc < to <= |code| && pc1 == pc + 1 && BodyOutput(code, env, pc, to, ctx) == Ok(o)
    ensures Written(code[pc], env, ctx).Ok? && BodyOutput(code, env, pc1, to, ctx).Ok?
    ensures o == Written(code[pc], env, ctx).value + BodyOutput(code, env, pc1, to, ctx).value
  {
  }

  /** An unmuted simple body writes exactly what `BodyOutput` says, one
      turn per operation: the run from its start gives what the run from
      its end gives, with that text appended. */
  lemma {:induction false} RunBody(code: seq<Op>, env: Env, reading: Reading, pc: nat, to: nat, ctx: Value,
                                   prefix: Option<string>, stack: seq<Frame>, out: seq<string>, o: seq<string>,
                                   fuel: nat, afterFuel: nat, r: Result<State>)
    requires SimpleBody(code, pc, to)
    requires BodyOutput(code, env, pc, to, ctx) == Ok(o)
    requires fuel == afterFuel + (to - pc)
    requires Run(code, env, reading, State(to, ctx, prefix, stack, false, out + o), afterFuel) == r
    ensures Run(code, env, reading, State(pc, ctx, prefix, stack, false, out), fuel) == r
    decreases |code| - pc
  {
    if pc == to {
      assert o == [] && out + o == out;
      assert State(to, ctx, prefix, stack, false, out + o) == State(pc, ctx, prefix, stack, false, out);
    } else {
      var pc1 := pc + 1;
      var fuel1 := fuel - 1;
      assert Simple(code[pc]);
      BodyOutputStep(code, env, pc, pc1, to, ctx, o);
      var w := Written(code[pc], env, ctx).value;
      var rest := BodyOutput(code, env, pc1, to, ctx).value;
      var out1 := out + w;
      Appended(out, w, rest, o);
      RunBody(code, env, reading, pc1, to, ctx, prefix, stack, out1, rest, fuel1, afterFuel, r);
      RunSimple(code, env, reading, pc, pc1, ctx, prefix, stack, out, out1, fuel, fuel1, r);
    }
  }

  /** A muted simple body writes nothing, as long as its variables resolve. */
  lemma {:induction false} RunMutedBody(code: seq<Op>, env: Env, reading: Reading, pc: nat, to: nat, ctx: Value,
                                        prefix: Option<string>, stack: seq<Frame>, out: seq<string>,
                                        fuel: nat, afterFuel: nat, r: Result<State>)
    requires SimpleBody(code, pc, to) && Resolvable(code, pc, to, ctx)
    requires fuel == afterFuel + (to - pc)
    requires Run(code, env, reading, State(to, ctx, prefix, stack, true, out), afterFuel) == r
    ensures Run(code, env, reading, State(pc, ctx, prefix, stack, true, out), fuel) == r
    decreases |code| - pc
  {
    if pc == to {
      assert State(to, ctx, prefix, stack, true, out) == State(pc, ctx, prefix, stack, true, out);
    } else {
      var pc1 := pc + 1;
      var fuel1 := fuel - 1;
      assert Simple(code[pc]);
      RunMutedBody(code, env, reading, pc1, to, ctx, prefix, stack, out, fuel1, afterFuel, r);
      RunMutedSimple(code, env, reading, pc, pc1, ctx, prefix, stack, out, fuel, fuel1, r);
    }
  }

  /** How many passes a loop over `n >= 1` items makes: all of them
      without a limit, otherwise the limit capped at `n`, and always at
      least one, since the first pass starts before any bound is checked. */
  function Passes(n: nat, limit: int): (r: nat)
    requires n >= 1
    ensures 1 <= r <= n
    ensures limit == -1 || limit >= n ==> r == n
    ensures 1 <= limit <= n ==> r == limit
  {
    if limit == -1 then n else if limit < 1 then 1 else if limit < n then limit else n
  }

  /** The turns `k` passes take when the `for` is at `forPc` and its `end`
      at `endPc`: each pass is the body plus the turn that ends it. */
  function Turns(k: nat, forPc: nat, endPc: nat): nat
    requires forPc < endPc
  {
    if k == 0 then 0 else (endPc - forPc) + Turns(k - 1, forPc, endPc)
  }

  lemma {:induction false} TurnsStep(k: nat, k1: nat, forPc: nat, endPc: nat)
    requires forPc < endPc && k == k1 + 1
    ensures Turns(k, forPc, endPc) == (endPc - forPc) + Turns(k1, forPc, endPc)
  {
  }

  /** `outs[j]` is what the body writes on pass `j`, run with `this`
      bound to item `j` and `i` to `j`. */
  predicate PassOutputs(code: seq<Op>, env: Env, from: nat, to: nat, scope: map<string, Value>,
                        items: seq<Value>, outs: seq<seq<string>>)
    requires from <= to <= |code|
  {
    && |outs| <= |items|
    && forall j :: 0 <= j < |outs| ==> BodyOutput(code, env, from, to, Bind(scope, items[j], j)) == Ok(outs[j])
  }

  /** The text of the first `n` passes, one after the other. */
  function LoopText(outs: seq<seq<string>>, n: nat): seq<string>
    requires n <= |outs|
  {
    if n == 0 then [] else LoopText(outs, n - 1) + outs[n - 1]
  }

  lemma {:induction false} FirstText(outs: seq<seq<string>>)
    requires |outs| >= 1
    ensures LoopText(outs, 1) == outs[0]
  {
    assert LoopText(outs, 0) == [];
  }

  lemma {:induction false} LoopTextStep(outs: seq<seq<string>>, n: nat, n1: nat)
    requires n1 == n + 1 && n1 <= |outs|
    ensures LoopText(outs, n1) == LoopText(outs, n) + outs[n]
  {
  }

  /** One further pass: from the `${end}` after pass `j`, back to the
      operation after the `for` with item `j1 = j + 1` bound, through the
      body, to the same `${end}` with the text of the pass appended. */
  lemma {:induction false} OnePass(code: seq<Op>, env: Env, reading: Reading, forPc: nat, from: nat, endPc: nat, limit: int,
                                   scope: map<string, Value>, items: seq<Value>, j: nat, j1: nat, below: seq<Frame>,
                                   prefix: Option<string>, saved: Value, mute: bool, ctx: Value, current: Option<string>,
                                   out: seq<string>, o: seq<string>, fuel: nat, fuel1: nat, nextFuel: nat, r: Result<State>)
    requires forPc < endPc < |code| && code[endPc].End? && from == forPc + 1 && SimpleBody(code, from, endPc)
    requires |items| >= 1 && j1 == j + 1 && j1 < Passes(|items|, limit)
    requires BodyOutput(code, env, from, endPc, Bind(scope, items[j1], j1)) == Ok(o)
    requires fuel == fuel1 + 1 && fuel1 == nextFuel + (endPc - from)
    requires Run(code, env, reading,
                 State(endPc, Bind(scope, items[j1], j1), prefix,
                       below + [ForFrame(scope, prefix, forPc, j1, limit, List(items), saved, mute)], false, out + o),
                 nextFuel) == r
    ensures Run(code, env, reading,
                State(endPc, ctx, current, below + [ForFrame(scope, prefix, forPc, j, limit, List(items), saved, mute)], false, out),
                fuel) == r
  {
    var ctx1 := Bind(scope, items[j1], j1);
    var frames := below + [ForFrame(scope, prefix, forPc, j1, limit, List(items), saved, mute)];
    assert j1 < LoopBound(List(items), limit).value;
    RunBody(code, env, reading, from, endPc, ctx1, prefix, frames, out, o, fuel1, nextFuel, r);
    RunEndContinues(code, env, reading, endPc, ctx, current, below, scope, prefix, forPc, from, j, j1, limit, items,
                    saved, mute, out, fuel, fuel1, r);
  }

  /** Two runs from equal states on equal fuel agree. */
  lemma {:induction false} SameRun(code: seq<Op>, env: Env, reading: Reading, s1: State, s2: State, f1: nat, f2: nat)
    requires s1 == s2 && f1 == f2
    ensures Run(code, env, reading, s1, f1) == Run(code, env, reading, s2, f2)
  {
  }

  /** From the `${end}` after pass `j` (`done = j + 1` passes made, their
      text `acc`), the loop runs its remaining `left` passes and leaves with
      the scope, prefix, stack and flag of its `for`. */
  lemma {:induction false} LoopFrom(code: seq<Op>, env: Env, reading: Reading, forPc: nat, from: nat, endPc: nat,
                                    after: nat, limit: int, scope: map<string, Value>, items: seq<Value>,
                                    outs: seq<seq<string>>, j: nat, done: nat, below: seq<Frame>,
                                    prefix: Option<string>, saved: Value, mute: bool, ctx: Value, current: Option<string>,
                                    out: seq<string>, acc: seq<string>, final: seq<string>, left: nat, spent: nat,
                                    fuel: nat, lastFuel: nat, r: Result<State>)
    requires forPc < endPc < |code| && code[endPc].End? && from == forPc + 1 && after == endPc + 1
    requires SimpleBody(code, from, endPc)
    requires |items| >= 1 && |outs| == Passes(|items|, limit) && done == j + 1 && done <= |outs|
    requires PassOutputs(code, env, from, endPc, scope, items, outs)
    requires acc == out + LoopText(outs, done) && final == out + LoopText(outs, |outs|)
    requires left == |outs| - done && spent == Turns(left, forPc, endPc) && fuel == lastFuel + spent + 1
    requires Run(code, env, reading, State(after, Bind(scope, saved, |outs|), prefix, below, mute, final), lastFuel) == r
    ensures Run(code, env, reading,
                State(endPc, ctx, current, below + [ForFrame(scope, prefix, forPc, j, limit, List(items), saved, mute)], false, acc),
                fuel) == r
    decreases left
  {
    if done < |outs| {
      var done1 := done + 1;
      var left1 := left - 1;
      var spent1 := spent - (endPc - forPc);
      var fuel1 := fuel - 1;
      var f2 := fuel - (endPc - forPc);
      var ctx1 := Bind(scope, items[done], done);
      var acc1 := acc + outs[done];
      TurnsStep(left, left1, forPc, endPc);
      LoopTextStep(outs, done, done1);
      Appended(out, LoopText(outs, done), outs[done], LoopText(outs, done1));
      LoopFrom(code, env, reading, forPc, from, endPc, after, limit, scope, items, outs, done, done1, below, prefix,
               saved, mute, ctx1, prefix, out, acc1, final, left1, spent1, f2, lastFuel, r);
      OnePass(code, env, reading, forPc, from, endPc, limit, scope, items, j, done, below, prefix, saved, mute, ctx,
              current, acc, outs[done], fuel, fuel1, f2, r);
    } else {
      assert LoopText(outs, done) == LoopText(outs, |outs|);
      SameRun(code, env, reading, State(after, Bind(scope, saved, done), prefix, below, mute, acc),
              State(after, Bind(scope, saved, |outs|), prefix, below, mute, final), lastFuel, lastFuel);
      assert done >= LoopBound(List(items), limit).value;
      RunEndLeaves(code, env, reading, endPc, after, ctx, current, false, below, scope, prefix, forPc, j, done, limit,
                   List(items), saved, mute, acc, fuel, lastFuel, r);
    }
  }

  /** The first pass: the `for` binds item 0 and the body writes its text,
      arriving at the `${end}` with the loop's frame on top. */
  lemma {:induction false} FirstPass(code: seq<Op>, env: Env, reading: Reading, pc: nat, from: nat, scope: map<string, Value>,
                                     prefix: Option<string>, stack: seq<Frame>, out: seq<string>, endPc: nat, path: string,
                                     limit: int, items: seq<Value>, inner: Option<string>, o: seq<string>,
                                     fuel: nat, fuel1: nat, nextFuel: nat, r: Result<State>)
    requires pc < endPc < |code| && code[pc] == For(path, limit) && from == pc + 1 && SimpleBody(code, from, endPc)
    requires ResolveIn(path, Map(scope)) == Ok(List(items)) && |items| >= 1
    requires InnerPrefix(reading, path, prefix) == Ok(inner)
    requires BodyOutput(code, env, from, endPc, Bind(scope, items[0], 0)) == Ok(o)
    requires fuel == fuel1 + 1 && fuel1 == nextFuel + (endPc - from)
    requires Run(code, env, reading,
                 State(endPc, Bind(scope, items[0], 0), inner,
                       stack + [ForFrame(scope, prefix, pc, 0, limit, List(items), Get(scope, "this"), false)], false, out + o),
                 nextFuel) == r
    ensures Run(code, env, reading, State(pc, Map(scope), prefix, stack, false, out), fuel) == r
  {
    var ctx := Bind(scope, items[0], 0);
    var frames := stack + [ForFrame(scope, prefix, pc, 0, limit, List(items), Get(scope, "this"), false)];
    RunBody(code, env, reading, from, endPc, ctx, inner, frames, out, o, fuel1, nextFuel, r);
    RunEnterList(code, env, reading, pc, from, scope, prefix, stack, out, path, limit, items, inner, fuel, fuel1, r);
  }

  /** A loop over a non-empty list whose body `code[from..endPc]` only
      writes text runs the body `Passes` times, pass `j` writing `outs[j]`
      with `this` bound to item `j` and `i` to `j`; afterwards, at `after`,
      `this` is what it was, `i` is the number of passes, and the prefix,
      stack and flag are those of the `for`. Each pass takes the turns of
      its body and its `end`, and the `for` one more. */
  lemma {:induction false} LoopRuns(code: seq<Op>, env: Env, reading: Reading, pc: nat, from: nat, endPc: nat, after: nat,
                                    scope: map<string, Value>, prefix: Option<string>, stack: seq<Frame>, out: seq<string>,
                                    path: string, limit: int, items: seq<Value>, outs: seq<seq<string>>,
                                    fuel: nat, lastFuel: nat)
    requires pc < endPc < |code| && code[pc] == For(path, limit) && code[endPc].End?
    requires from == pc + 1 && after == endPc + 1 && SimpleBody(code, from, endPc)
    requires ResolveIn(path, Map(scope)) == Ok(List(items)) && |items| >= 1
    requires InnerPrefix(reading, path, prefix).Ok?
    requires |outs| == Passes(|items|, limit) && PassOutputs(code, env, from, endPc, scope, items, outs)
    requires fuel == lastFuel + Turns(|outs|, pc, endPc) + 1
    ensures Run(code, env, reading, State(pc, Map(scope), prefix, stack, false, out), fuel) ==
            Run(code, env, reading,
                State(after, Bind(scope, Get(scope, "this"), |outs|), prefix, stack, false, out + LoopText(outs, |outs|)),
                lastFuel)
  {
    var saved := Get(scope, "this");
    var final := out + LoopText(outs, |outs|);
    var r := Run(code, env, reading, State(after, Bind(scope, saved, |outs|), prefix, stack, false, final), lastFuel);
    var inner := InnerPrefix(reading, path, prefix).value;
    var ctx := Bind(scope, items[0], 0);
    var acc := out + outs[0];
    var left := |outs| - 1;
    var spent := Turns(left, pc, endPc);
    var fuel1 := fuel - 1;
    var f2 := fuel - (endPc - pc);
    FirstText(outs);
    TurnsStep(|outs|, left, pc, endPc);
    LoopFrom(code, env, reading, pc, from, endPc, after, limit, scope, items, outs, 0, 1, stack, prefix, saved, false,
             ctx, inner, out, acc, final, left, spent, f2, lastFuel, r);
    FirstPass(code, env, reading, pc, from, scope, prefix, stack, out, endPc, path, limit, items, inner, outs[0],
              fuel, fuel1, f2, r);
  }

  /** A loop over an empty or absent collection runs its body
      `code[from..endPc]` once, muted, with `this` None and `i` at -1,
      writes nothing, and leaves at `after` with `this` restored, `i` at 1
      and the flag of its `for`. */
  lemma {:induction false} EmptyLoop(code: seq<Op>, env: Env, reading: Reading, pc: nat, from: nat, endPc: nat, after: nat,
                                     scope: map<string, Value>, prefix: Option<string>, stack: seq<Frame>, mute: bool,
                                     out: seq<string>, path: string, limit: int, collection: Value, fuel: nat, lastFuel: nat)
    requires pc < endPc < |code| && code[pc] == For(path, limit) && code[endPc].End?
    requires from == pc + 1 && after == endPc + 1 && SimpleBody(code, from, endPc)
    requires ResolveIn(path, Map(scope)) == Ok(collection) && !Truthy(collection)
    requires InnerPrefix(reading, path, prefix).Ok?
    requires Resolvable(code, from, endPc, Bind(scope, Null, -1))
    requires fuel == lastFuel + (endPc - pc) + 1
    ensures Run(code, env, reading, State(pc, Map(scope), prefix, stack, mute, out), fuel) ==
            Run(code, env, reading, State(after, Bind(scope, Get(scope, "this"), 1), prefix, stack, mute, out), lastFuel)
  {
    var saved := Get(scope, "this");
    var inner := InnerPrefix(reading, path, prefix).value;
    var ctx := Bind(scope, Null, -1);
    var below := stack + [ForFrame(scope, prefix, pc, 0, limit, collection, saved, mute)];
    var fuel1 := fuel - 1;
    var f2 := lastFuel + 1;
    var r := Run(code, env, reading, State(after, Bind(scope, saved, 1), prefix, stack, mute, out), lastFuel);
    RunEndLeaves(code, env, reading, endPc, after, ctx, inner, true, stack, scope, prefix, pc, 0, 1, limit,
                 collection, saved, mute, out, f2, lastFuel, r);
    RunMutedBody(code, env, reading, from, endPc, ctx, inner, below, out, fuel1, f2, r);
    RunEnterEmpty(code, env, reading, pc, from, scope, prefix, stack, mute, out, path, limit, collection, inner,
                  fuel, fuel1, r);
  }
}

=== FILE: loop_passes.dfy ===
/** Whole `${for:...}...${end}` loops with any body: nested blocks, an
    `else`, or a first literal whose newline the interpreter trims. Each
    pass is whatever the interpreter's own turns make of the body, started
    where the previous pass left the flag and the output
    (src/templating.py:495-509, 519-554). */
module LoopPasses {
  import opened Results
  import opened Values
  import opened Operations
  import opened Resolution
  import opened Interpreter
  import opened InterpreterLaws
  import opened LoopLaws
  import Text

  /** `next` is one turn of the interpreter from `st`. */
  predicate Turn(code: seq<Op>, env: Env, reading: Reading, st: State, next: State) {
    st.pc < |code| && Step(code, env, reading, st) == Ok(next)
  }

  /** Each state of `trace` is one turn from the one before it. */
  predicate Trace(code: seq<Op>, env: Env, reading: Reading, trace: seq<State>) {
    forall k :: 0 <= k < |trace| - 1 ==> Turn(code, env, reading, trace[k], trace[k + 1])
  }

  function Last(trace: seq<State>): State
    requires trace != []
  {
    trace[|trace| - 1]
  }

  /** The turns a trace records may be taken as the first turns of a run:
      from state `k` on, a run reaches the last state with one unit of fuel
      spent per turn. */
  lemma {:induction false} RunTrace(code: seq<Op>, env: Env, reading: Reading, trace: seq<State>, k: nat,
                                    fuel: nat, lastFuel: nat)
    requires Trace(code, env, reading, trace) && k < |trace| && fuel == lastFuel + (|trace| - 1 - k)
    ensures Run(code, env, reading, trace[k], fuel) == Run(code, env, reading, Last(trace), lastFuel)
    decreases |trace| - k
  {
    if k < |trace| - 1 {
      var k1 := k + 1;
      var fuel1 := fuel - 1;
      assert Turn(code, env, reading, trace[k], trace[k1]);
      RunTurn(code, env, reading, trace[k], trace[k1], fuel, fuel1);
      RunTrace(code, env, reading, trace, k1, fuel1, lastFuel);
    }
  }

  /** A `${for:path|limit}` at `forPc` whose `${end}` is at `endPc`, reached
      in scope `scope` under `prefix`, with the frames `stack` open, the
      flag `mute` and the text `out` written; `path` looks up `collection`
      and the body runs under `inner`. */
  datatype Loop = Loop(code: seq<Op>, env: Env, reading: Reading, forPc: nat, endPc: nat,
                       scope: map<string, Value>, prefix: Option<string>, stack: seq<Frame>, mute: bool,
                       out: seq<string>, path: string, limit: int, collection: Value, inner: Option<string>)

  /** The `for` and its `end` are where `l` says, and the lookups it makes
      on entry succeed. */
  predicate Placed(l: Loop) {
    && l.forPc < l.endPc < |l.code|
    && l.code[l.forPc] == For(l.path, l.limit) && l.code[l.endPc].End?
    && ResolveIn(l.path, Map(l.scope)) == Ok(l.collection)
    && InnerPrefix(l.reading, l.path, l.prefix) == Ok(l.inner)
  }

  /** The state at the `for`. */
  function Entry(l: Loop): State {
    State(l.forPc, Map(l.scope), l.prefix, l.stack, l.mute, l.out)
  }

  /** The loop's frame during pass `j`. */
  function Top(l: Loop, j: nat): Frame {
    ForFrame(l.scope, l.prefix, l.forPc, j, l.limit, l.collection, Get(l.scope, "this"), l.mute)
  }

  /** The state after the `end` once `passes` passes are done and `out` is
      written: the scope of the `for` with `this` as it was and `i` the pass
      count, its prefix, its frames and its flag. */
  function Exit(l: Loop, passes: nat, out: seq<string>): State {
    State(l.endPc + 1, Bind(l.scope, Get(l.scope, "this"), passes), l.prefix, l.stack, l.mute, out)
  }

  /** Where pass `j` over a list starts: item `j` bound, and the flag and
      output of the `for` for the first pass, of the previous pass's end
      for the others. Only the first pass runs under `inner`; a pass that
      the `end` starts again has the prefix of the `for`. */
  function PassStart(l: Loop, ends: seq<State>, j: nat): State
    requires l.collection.List? && j < |l.collection.items| && j <= |ends|
  {
    State(l.forPc + 1, Bind(l.scope, l.collection.items[j], j), if j == 0 then l.inner else l.prefix,
          l.stack + [Top(l, j)], if j == 0 then l.mute else ends[j - 1].mute,
          if j == 0 then l.out else ends[j - 1].out)
  }

  /** Pass `j` is the trace `traces[j]` from its start to `ends[j]`, the
      loop's `end` with the loop's frame on top again. */
  predicate Reaches(l: Loop, traces: seq<seq<State>>, ends: seq<State>)
    requires l.collection.List?
  {
    && |traces| == |ends| <= |l.collection.items|
    && forall j {:trigger traces[j]} :: 0 <= j < |ends| ==>
         && ends[j].pc == l.endPc && ends[j].stack == l.stack + [Top(l, j)]
         && traces[j] != [] && traces[j][0] == PassStart(l, ends, j) && Last(traces[j]) == ends[j]
         && Trace(l.code, l.env, l.reading, traces[j])
  }

  /** The turns of passes `j` onwards: those of each trace, and its `end`. */
  function Spent(traces: seq<seq<State>>, j: nat): nat
    decreases |traces| - j
  {
    if j >= |traces| then 0 else |traces[j]| + Spent(traces, j + 1)
  }

  /** Where `Reaches` says pass `j` ends. */
  lemma {:induction false} PassReaches(l: Loop, traces: seq<seq<State>>, ends: seq<State>, j: nat)
    requires l.collection.List? && Reaches(l, traces, ends) && j < |ends|
    ensures ends[j].pc == l.endPc && ends[j].stack == l.stack + [Top(l, j)]
  {
    assert traces[j] != [];
  }

  /** The trace `Reaches` gives pass `j`. */
  lemma {:induction false} PassTraced(l: Loop, traces: seq<seq<State>>, ends: seq<State>, j: nat)
    requires l.collection.List? && Reaches(l, traces, ends) && j < |ends|
    ensures traces[j] != [] && traces[j][0] == PassStart(l, ends, j) && Last(traces[j]) == ends[j]
    ensures Trace(l.code, l.env, l.reading, traces[j])
  {
  }

  /** The `end` after pass `j` starts pass `j1 = j + 1` when there is one. */
  lemma {:induction false} EndStartsPass(l: Loop, ends: seq<State>, j: nat, j1: nat, e: State)
    requires l.endPc < |l.code| && l.code[l.endPc].End? && l.collection.List? && l.collection.items != []
    requires j1 == j + 1 && j1 < |ends| <= Passes(|l.collection.items|, l.limit) && |ends| <= |l.collection.items|
    requires e == ends[j] && e.pc == l.endPc && e.stack == l.stack + [Top(l, j)]
    ensures Step(l.code, l.env, l.reading, e) == Ok(PassStart(l, ends, j1))
  {
    var top := Top(l, j);
    assert j1 < LoopBound(l.collection, l.limit).value;
    EndContinues(l.code, l.env, l.reading, e, l.stack, top);
    assert top.(index := j1) == Top(l, j1);
  }

  /** From the start of pass `j`, the remaining passes run as `Reaches`
      says and the loop leaves with the last pass's output, to go on as
      the run `r` from there. */
  lemma {:induction false} FromPass(l: Loop, traces: seq<seq<State>>, ends: seq<State>, j: nat, fuel: nat,
                                    lastFuel: nat, r: Result<State>)
    requires l.endPc < |l.code| && l.code[l.endPc].End? && l.collection.List? && l.collection.items != []
    requires |ends| == Passes(|l.collection.items|, l.limit) && Reaches(l, traces, ends)
    requires j < |ends| && fuel == lastFuel + Spent(traces, j)
    requires Run(l.code, l.env, l.reading, Exit(l, |ends|, Last(ends).out), lastFuel) == r
    ensures Run(l.code, l.env, l.reading, PassStart(l, ends, j), fuel) == r
    decreases |ends| - j
  {
    var next := lastFuel + Spent(traces, j + 1);
    if j + 1 < |ends| {
      var j1 := j + 1;
      FromPass(l, traces, ends, j1, next, lastFuel, r);
      NextPass(l, traces, ends, j, j1, fuel, next, r);
    } else {
      LastPass(l, traces, ends, j, fuel, lastFuel, r);
    }
  }

  /** Pass `j` as the first turns of a run, which then stands at its `end`. */
  lemma {:induction false} PassRuns(l: Loop, traces: seq<seq<State>>, ends: seq<State>, j: nat, fuel: nat, mid: nat)
    requires l.collection.List? && Reaches(l, traces, ends) && j < |ends|
    requires fuel == mid + |traces[j]| - 1
    ensures Run(l.code, l.env, l.reading, PassStart(l, ends, j), fuel) == Run(l.code, l.env, l.reading, ends[j], mid)
  {
    PassTraced(l, traces, ends, j);
    RunTrace(l.code, l.env, l.reading, traces[j], 0, fuel, mid);
  }

  /** Pass `j` and its `end`, which starts pass `j1`. */
  lemma {:induction false} NextPass(l: Loop, traces: seq<seq<State>>, ends: seq<State>, j: nat, j1: nat,
                                    fuel: nat, next: nat, r: Result<State>)
    requires l.endPc < |l.code| && l.code[l.endPc].End? && l.collection.List? && l.collection.items != []
    requires |ends| == Passes(|l.collection.items|, l.limit) && Reaches(l, traces, ends)
    requires j1 == j + 1 && j1 < |ends| && fuel == next + |traces[j]|
    requires Run(l.code, l.env, l.reading, PassStart(l, ends, j1), next) == r
    ensures Run(l.code, l.env, l.reading, PassStart(l, ends, j), fuel) == r
  {
    var e := ends[j];
    var mid := next + 1;
    PassRuns(l, traces, ends, j, fuel, mid);
    PassReaches(l, traces, ends, j);
    EndStartsPass(l, ends, j, j1, e);
    RunTurn(l.code, l.env, l.reading, e, PassStart(l, ends, j1), mid, next);
  }

  /** The last pass and its `end`, which leaves the loop. */
  lemma {:induction false} LastPass(l: Loop, traces: seq<seq<State>>, ends: seq<State>, j: nat, fuel: nat,
                                    lastFuel: nat, r: Result<State>)
    requires l.endPc < |l.code| && l.code[l.endPc].End? && l.collection.List? && l.collection.items != []
    requires |ends| == Passes(|l.collection.items|, l.limit) && Reaches(l, traces, ends)
    requires j + 1 == |ends| && fuel == lastFuel + |traces[j]|
    requires Run(l.code, l.env, l.reading, Exit(l, |ends|, Last(ends).out), lastFuel) == r
    ensures Run(l.code, l.env, l.reading, PassStart(l, ends, j), fuel) == r
  {
    var mid := lastFuel + 1;
    PassRuns(l, traces, ends, j, fuel, mid);
    PassReaches(l, traces, ends, j);
    assert |ends| >= LoopBound(l.collection, l.limit).value;
    EndLeavesRun(l, j, |ends|, ends[j], mid, lastFuel);
  }

  /** The `end` after the last pass, `passes = j + 1`, as the first turn
      of a run. */
  lemma {:induction false} EndLeavesRun(l: Loop, j: nat, passes: nat, e: State, fuel: nat, lastFuel: nat)
    requires l.endPc < |l.code| && l.code[l.endPc].End? && passes == j + 1 && fuel == lastFuel + 1
    requires LoopBound(l.collection, l.limit).Ok? && passes >= LoopBound(l.collection, l.limit).value
    requires e.pc == l.endPc && e.stack == l.stack + [Top(l, j)]
    ensures Run(l.code, l.env, l.reading, e, fuel) == Run(l.code, l.env, l.reading, Exit(l, passes, e.out), lastFuel)
  {
    var r := Run(l.code, l.env, l.reading, Exit(l, passes, e.out), lastFuel);
    assert e == State(l.endPc, e.ctx, e.prefix, l.stack + [Top(l, j)], e.mute, e.out);
    RunEndLeaves(l.code, l.env, l.reading, l.endPc, l.endPc + 1, e.ctx, e.prefix, e.mute, l.stack, l.scope,
                 l.prefix, l.forPc, j, passes, l.limit, l.collection, Get(l.scope, "this"), l.mute, e.out,
                 fuel, lastFuel, r);
  }

  /** The `for` over a non-empty list, as the first turn of a run, with
      any flag. */
  lemma {:induction false} RunEnters(code: seq<Op>, env: Env, reading: Reading, pc: nat, pc1: nat,
                                     scope: map<string, Value>, prefix: Option<string>, stack: seq<Frame>, mute: bool,
                                     out: seq<string>, path: string, limit: int, items: seq<Value>,
                                     inner: Option<string>, fuel: nat, fuel1: nat, r: Result<State>)
    requires pc < |code| && code[pc] == For(path, limit) && pc1 == pc + 1 && fuel == fuel1 + 1
    requires ResolveIn(path, Map(scope)) == Ok(List(items)) && |items| >= 1
    requires InnerPrefix(reading, path, prefix) == Ok(inner)
    requires Run(code, env, reading,
                 State(pc1, Bind(scope, items[0], 0), inner,
                       stack + [ForFrame(scope, prefix, pc, 0, limit, List(items), Get(scope, "this"), mute)], mute, out),
                 fuel1) == r
    ensures Run(code, env, reading, State(pc, Map(scope), prefix, stack, mute, out), fuel) == r
  {
    var st := State(pc, Map(scope), prefix, stack, mute, out);
    var frames := stack + [ForFrame(scope, prefix, pc, 0, limit, List(items), Get(scope, "this"), mute)];
    EnterList(code, env, reading, st, path, limit, items);
    RunTurn(code, env, reading, st, State(pc1, Bind(scope, items[0], 0), inner, frames, mute, out), fuel, fuel1);
  }

  /** Where the first pass starts. */
  lemma {:induction false} FirstPassStart(l: Loop, ends: seq<State>)
    requires l.collection.List? && l.collection.items != []
    ensures var items := l.collection.items;
            var frame := ForFrame(l.scope, l.prefix, l.forPc, 0, l.limit, List(items), Get(l.scope, "this"), l.mute);
            PassStart(l, ends, 0) == State(l.forPc + 1, Bind(l.scope, items[0], 0), l.inner, l.stack + [frame], l.mute, l.out)
  {
  }

  /** All passes, from the start of the first. */
  lemma {:induction false} AllPasses(l: Loop, traces: seq<seq<State>>, ends: seq<State>, fuel: nat, lastFuel: nat,
                                     r: Result<State>)
    requires l.endPc < |l.code| && l.code[l.endPc].End? && l.collection.List? && l.collection.items != []
    requires |ends| == Passes(|l.collection.items|, l.limit) && Reaches(l, traces, ends)
    requires fuel == lastFuel + Spent(traces, 0)
    requires Run(l.code, l.env, l.reading, Exit(l, |ends|, Last(ends).out), lastFuel) == r
    ensures var items := l.collection.items;
            var frame := ForFrame(l.scope, l.prefix, l.forPc, 0, l.limit, List(items), Get(l.scope, "this"), l.mute);
            Run(l.code, l.env, l.reading,
                State(l.forPc + 1, Bind(l.scope, items[0], 0), l.inner, l.stack + [frame], l.mute, l.out), fuel) == r
  {
    FromPass(l, traces, ends, 0, fuel, lastFuel, r);
    FirstPassStart(l, ends);
  }

  /** A loop over a non-empty list makes `Passes` passes of its body, each
      starting with the next item bound and the flag and output the
      previous pass left, whatever the body does on the way (nested blocks,
      an `else` that turns the flag over for the passes after it, a
      trimmed newline); then it leaves after its `end` with `this` as it
      was, `i` the pass count, and the prefix, frames and flag of the
      `for`, keeping what the passes wrote. */
  lemma {:induction false} LoopPasses(l: Loop, traces: seq<seq<State>>, ends: seq<State>, fuel: nat, lastFuel: nat)
    requires Placed(l) && l.collection.List? && l.collection.items != []
    requires |ends| == Passes(|l.collection.items|, l.limit) && Reaches(l, traces, ends)
    requires fuel == lastFuel + 1 + Spent(traces, 0)
    ensures Run(l.code, l.env, l.reading, Entry(l), fuel) ==
            Run(l.code, l.env, l.reading, Exit(l, |ends|, Last(ends).out), lastFuel)
  {
    var next := fuel - 1;
    var r := Run(l.code, l.env, l.reading, Exit(l, |ends|, Last(ends).out), lastFuel);
    AllPasses(l, traces, ends, next, lastFuel, r);
    RunEnters(l.code, l.env, l.reading, l.forPc, l.forPc + 1, l.scope, l.prefix, l.stack, l.mute, l.out, l.path,
              l.limit, l.collection.items, l.inner, fuel, next, r);
  }

  /** A loop over an empty or absent collection makes one pass, the trace
      `trace`, started muted with `this` None and `i` at -1; whatever that
      pass writes (an `else` in the body unmutes it) is kept, and the loop
      leaves after its `end` with `this` as it was, `i` at 1, and the flag
      of the `for`. */
  lemma {:induction false} EmptyPass(l: Loop, trace: seq<State>, fuel: nat, lastFuel: nat)
    requires Placed(l) && !Truthy(l.collection)
    requires trace != [] && Trace(l.code, l.env, l.reading, trace)
    requires trace[0] == State(l.forPc + 1, Bind(l.scope, Null, -1), l.inner, l.stack + [Top(l, 0)], true, l.out)
    requires Last(trace).pc == l.endPc && Last(trace).stack == l.stack + [Top(l, 0)]
    requires fuel == lastFuel + |trace| + 1
    ensures Run(l.code, l.env, l.reading, Entry(l), fuel) ==
            Run(l.code, l.env, l.reading, Exit(l, 1, Last(trace).out), lastFuel)
  {
    var r := Run(l.code, l.env, l.reading, Exit(l, 1, Last(trace).out), lastFuel);
    var next := fuel - 1;
    EmptyBody(l, trace, next, lastFuel, r);
    RunEnterEmpty(l.code, l.env, l.reading, l.forPc, l.forPc + 1, l.scope, l.prefix, l.stack, l.mute, l.out, l.path,
                  l.limit, l.collection, l.inner, fuel, next, r);
  }

  /** The muted pass over an empty collection and the `end` after it. */
  lemma {:induction false} EmptyBody(l: Loop, trace: seq<State>, fuel: nat, lastFuel: nat, r: Result<State>)
    requires l.endPc < |l.code| && l.code[l.endPc].End? && !Truthy(l.collection)
    requires trace != [] && Trace(l.code, l.env, l.reading, trace)
    requires Last(trace).pc == l.endPc && Last(trace).stack == l.stack + [Top(l, 0)]
    requires fuel == lastFuel + |trace|
    requires Run(l.code, l.env, l.reading, Exit(l, 1, Last(trace).out), lastFuel) == r
    ensures Run(l.code, l.env, l.reading, trace[0], fuel) == r
  {
    var end := Last(trace);
    EndLeavesRun(l, 0, 1, end, lastFuel + 1, lastFuel);
    RunTrace(l.code, l.env, l.reading, trace, 0, fuel, lastFuel + 1);
  }

  // ---------------------------------------------------------------------
  // Three loops worked through
  // ---------------------------------------------------------------------

  /** `${for:xs}${else}none${end}`. */
  function ForElse(): seq<Op> {
    [For("xs", -1), Else, Literal("none"), End(None)]
  }

  function AbsentLoop(env: Env, reading: Reading): Loop {
    var inner := match InnerPrefix(reading, "xs", Some("")) case Ok(p) => p case Err(_) => None;
    Loop(ForElse(), env, reading, 0, 3, map[], Some(""), [], false, [], "xs", -1, Null, inner)
  }

  /** The one pass over an absent list: the `else` unmutes, and "none" is written. */
  function AbsentPass(env: Env, reading: Reading): seq<State> {
    var l := AbsentLoop(env, reading);
    var ctx := Bind(map[], Null, -1);
    [State(1, ctx, l.inner, [Top(l, 0)], true, []),
     State(2, ctx, l.inner, [Top(l, 0)], false, []),
     State(3, ctx, l.inner, [Top(l, 0)], false, ["none"])]
  }

  lemma {:induction false} AbsentTrace(env: Env, reading: Reading)
    ensures Trace(ForElse(), env, reading, AbsentPass(env, reading))
  {
    var code := ForElse();
    var t := AbsentPass(env, reading);
    assert Step(code, env, reading, t[0]) == Ok(t[1]);
    assert Step(code, env, reading, t[1]) == Ok(t[2]);
  }

  /** Over an absent list, the `else` of a loop's body unmutes the one
      muted pass: `${for:xs}${else}none${end}` writes "none". */
  lemma {:induction false} ForElseEmpty(env: Env, reading: Reading)
    ensures Run(ForElse(), env, reading, Start(Map(map[])), 5) ==
            Ok(State(4, Bind(map[], Null, 1), Some(""), [], false, ["none"]))
  {
    var l := AbsentLoop(env, reading);
    var t := AbsentPass(env, reading);
    AbsentTrace(env, reading);
    EmptyPass(l, t, 5, 1);
    assert Entry(l) == Start(Map(map[]));
    RunDone(l.code, env, reading, Exit(l, 1, ["none"]), 1);
  }

  /** A loop over `xs`, bound to two items, at the start of the template
      `code` whose `end` is at `endPc`. */
  function OverTwo(code: seq<Op>, endPc: nat, env: Env, reading: Reading): Loop {
    var inner := match InnerPrefix(reading, "xs", Some("")) case Ok(p) => p case Err(_) => None;
    Loop(code, env, reading, 0, endPc, map["xs" := List([Int(1), Int(2)])], Some(""), [], false, [],
         "xs", -1, List([Int(1), Int(2)]), inner)
  }

  lemma {:induction false} OverTwoPlaced(code: seq<Op>, endPc: nat, env: Env, reading: Reading)
    requires 0 < endPc < |code| && code[0] == For("xs", -1) && code[endPc].End?
    ensures Placed(OverTwo(code, endPc, env, reading))
  {
    assert Text.ParseInt("xs").None?;
  }

  /** `${for:xs}A${else}B${end}`. */
  function AlternatingElse(): seq<Op> {
    [For("xs", -1), Literal("A"), Else, Literal("B"), End(None)]
  }

  function Alternating(env: Env, reading: Reading): Loop {
    OverTwo(AlternatingElse(), 4, env, reading)
  }

  /** Its first pass writes "A" and mutes. */
  function AlternatingFirst(env: Env, reading: Reading): seq<State> {
    var l := Alternating(env, reading);
    var c := Bind(l.scope, Int(1), 0);
    [State(1, c, l.inner, [Top(l, 0)], false, []),
     State(2, c, l.inner, [Top(l, 0)], false, ["A"]),
     State(3, c, l.inner, [Top(l, 0)], true, ["A"]),
     State(4, c, l.inner, [Top(l, 0)], true, ["A"])]
  }

  /** Its second pass starts muted, so "A" is not written, and the `else`
      unmutes for "B". */
  function AlternatingSecond(env: Env, reading: Reading): seq<State> {
    var l := Alternating(env, reading);
    var c := Bind(l.scope, Int(2), 1);
    [State(1, c, Some(""), [Top(l, 1)], true, ["A"]),
     State(2, c, Some(""), [Top(l, 1)], true, ["A"]),
     State(3, c, Some(""), [Top(l, 1)], false, ["A"]),
     State(4, c, Some(""), [Top(l, 1)], false, ["A", "B"])]
  }

  lemma {:induction false} AlternatingFirstTrace(env: Env, reading: Reading)
    ensures Trace(AlternatingElse(), env, reading, AlternatingFirst(env, reading))
  {
    var code := AlternatingElse();
    var t := AlternatingFirst(env, reading);
    assert Step(code, env, reading, t[0]) == Ok(t[1]);
    assert Step(code, env, reading, t[1]) == Ok(t[2]);
    assert Step(code, env, reading, t[2]) == Ok(t[3]);
  }

  lemma {:induction false} AlternatingSecondTrace(env: Env, reading: Reading)
    ensures Trace(AlternatingElse(), env, reading, AlternatingSecond(env, reading))
  {
    var code := AlternatingElse();
    var t := AlternatingSecond(env, reading);
    assert Step(code, env, reading, t[0]) == Ok(t[1]);
    assert Step(code, env, reading, t[1]) == Ok(t[2]);
    assert ["A"] + ["B"] == ["A", "B"];
    assert Step(code, env, reading, t[2]) == Ok(t[3]);
  }

  /** The flag an `else` sets lasts into the next pass, which the `end`
      starts without restoring it: over two items,
      `${for:xs}A${else}B${end}` writes "A" on the first pass and "B" on the
      second. */
  lemma {:induction false} ElseCarries(env: Env, reading: Reading)
    ensures var scope := map["xs" := List([Int(1), Int(2)])];
            Run(AlternatingElse(), env, reading, Start(Map(scope)), 9) ==
              Ok(State(5, Bind(scope, Null, 2), Some(""), [], false, ["A", "B"]))
  {
    var l := Alternating(env, reading);
    var traces := [AlternatingFirst(env, reading), AlternatingSecond(env, reading)];
    var ends := [Last(traces[0]), Last(traces[1])];
    OverTwoPlaced(l.code, 4, env, reading);
    AlternatingFirstTrace(env, reading);
    AlternatingSecondTrace(env, reading);
    assert Reaches(l, traces, ends);
    assert Spent(traces, 1) == 4;
    LoopPasses(l, traces, ends, 9, 0);
    RunDone(l.code, env, reading, Exit(l, 2, ["A", "B"]), 0);
  }

  /** `${for:xs}` and a newline-led line, `A`, before `${end}`. */
  function NewlineBody(): seq<Op> {
    [For("xs", -1), Literal("\nA"), End(None)]
  }

  function Newline(env: Env, reading: Reading): Loop {
    OverTwo(NewlineBody(), 2, env, reading)
  }

  /** The two passes: the first drops the newline, the second keeps it. */
  function NewlineTraces(env: Env, reading: Reading): seq<seq<State>> {
    var l := Newline(env, reading);
    var c0 := Bind(l.scope, Int(1), 0);
    var c1 := Bind(l.scope, Int(2), 1);
    [[State(1, c0, l.inner, [Top(l, 0)], false, []), State(2, c0, l.inner, [Top(l, 0)], false, ["A"])],
     [State(1, c1, Some(""), [Top(l, 1)], false, ["A"]), State(2, c1, Some(""), [Top(l, 1)], false, ["A", "\nA"])]]
  }

  lemma {:induction false} NewlineTrace(env: Env, reading: Reading)
    ensures var t := NewlineTraces(env, reading);
            Trace(NewlineBody(), env, reading, t[0]) && Trace(NewlineBody(), env, reading, t[1])
  {
    var code := NewlineBody();
    var t := NewlineTraces(env, reading);
    assert "\nA"[1..] == "A";
    assert Step(code, env, reading, t[0][0]) == Ok(t[0][1]);
    assert ["A"] + ["\nA"] == ["A", "\nA"];
    assert Step(code, env, reading, t[1][0]) == Ok(t[1][1]);
  }

  /** The newline after `${for:xs}` is dropped only while nothing has been
      written: over two items, `${for:xs}` followed by a line `A` and
      `${end}` writes "A" and then "\nA". */
  lemma {:induction false} NewlineOnce(env: Env, reading: Reading)
    ensures var scope := map["xs" := List([Int(1), Int(2)])];
            Run(NewlineBody(), env, reading, Start(Map(scope)), 5) ==
              Ok(State(3, Bind(scope, Null, 2), Some(""), [], false, ["A", "\nA"]))
  {
    var l := Newline(env, reading);
    var traces := NewlineTraces(env, reading);
    var ends := [Last(traces[0]), Last(traces[1])];
    OverTwoPlaced(l.code, 2, env, reading);
    NewlineTrace(env, reading);
    assert Reaches(l, traces, ends);
    assert Spent(traces, 1) == 2;
    LoopPasses(l, traces, ends, 5, 0);
    RunDone(l.code, env, reading, Exit(l, 2, ["A", "\nA"]), 0);
  }
}

=== FILE: operations.dfy ===
/** The compiled form of a template (the list `Template.Decompose` returns,
    src/templating.py:190-268): literal text and tagged operation records,
    together with the translation table a `${T:...}` directive carries. */
module Operations {
  import opened Results
  import opened Dicts

  /** A translation table: a dict from locale to text. */
  type Translations = Dict<string>

  /** One element of the compiled template. A `None` the decomposer appends
      in place of a missing prefix is `Literal("")`: it renders nothing and is
      skipped by every walk over the list, exactly like the empty string. */
  datatype Op =
    | Literal(text: string)
    | Resolve(path: string, attributes: Option<seq<string>>, formatters: seq<string>, prefix: Option<string>)
    | Translate(translations: Translations)
    | If(expression: Option<string>)
    | Else
    | For(path: string, limit: int)
    | With(operand: Option<string>)
    | End(operand: Option<string>)
}

=== FILE: resolution.dfy ===
/** Looking a dotted path up in a context (`_resolveInContext`,
    src/templating.py:366-395) and evaluating the condition of an `${if:...}`
    (`_evaluateExpression`, src/templating.py:397-434). */
module Resolution {
  import opened Results
  import opened Text
  import opened Values

  /** One path segment looked up in `ctx`: a falsy context yields None, a
      segment `int()` accepts indexes the context, a dict is asked for the
      key, and any other context has no such attribute. */
  function Segment(name: string, ctx: Value): (r: Result<Value>)
    ensures !Truthy(ctx) ==> r == Ok(Null)
    ensures ctx.Map? && ParseInt(name).None? ==> r == Ok(Get(ctx.entries, name))
    ensures r.Err? ==> r.error in {IndexError, KeyError, TypeError}
  {
    if !Truthy(ctx) then Ok(Null)
    else match ParseInt(name)
      case Some(n) => Index(ctx, n)
      case None => if ctx.Map? then Ok(Get(ctx.entries, name)) else Ok(Null)
  }

  /** `_resolveInContext(name, ctx)`: the path is cut at its first dot, the
      head is looked up and the rest is resolved in what the head yields. */
  function ResolveIn(name: string, ctx: Value): (r: Result<Value>)
    ensures !Truthy(ctx) ==> r == Ok(Null)
    ensures '.' !in name ==> r == Segment(name, ctx)
    ensures r.Err? ==> r.error in {IndexError, KeyError, TypeError}
    decreases |name|
  {
    match Find(name, '.', 0)
    case None => Segment(name, ctx)
    case Some(k) =>
      if !Truthy(ctx) then Ok(Null)
      else
        var v :- ResolveIn(name[..k], ctx);
        ResolveIn(name[k + 1..], v)
  }

  /** The reference reading of a path: its segments looked up one after the
      other, stopping with None as soon as a context is falsy. */
  function ResolveSegments(segments: seq<string>, ctx: Value): Result<Value>
    requires |segments| >= 1
    decreases |segments|
  {
    if |segments| == 1 then Segment(segments[0], ctx)
    else if !Truthy(ctx) then Ok(Null)
    else
      var v :- Segment(segments[0], ctx);
      ResolveSegments(segments[1..], v)
  }

  /** Resolving a dotted path is resolving its segments one after the other. */
  lemma {:induction false} ResolveBySegments(segments: seq<string>, ctx: Value)
    requires |segments| >= 1
    requires forall k :: 0 <= k < |segments| ==> '.' !in segments[k]
    ensures ResolveIn(Join(segments, '.'), ctx) == ResolveSegments(segments, ctx)
    decreases |segments|
  {
    var p := segments[0];
    if |segments| > 1 {
      var name := Join(segments, '.');
      var rest := Join(segments[1..], '.');
      assert name == p + ['.'] + rest;
      assert name[|p|] == '.';
      assert forall k :: 0 <= k < |p| ==> name[k] == p[k] && p[k] != '.';
      FindAt(name, '.', 0, |p|);
      assert name[..|p|] == p;
      assert name[|p| + 1..] == rest;
      if Truthy(ctx) {
        match Segment(p, ctx)
        case Ok(v) =>
          ResolveBySegments(segments[1..], v);
        case Err(_) =>
      }
    }
  }

  // ---------------------------------------------------------------------
  // Conditions: `^\s*([A-Za-z0-9\.]+)\s*(\=\=|\!\=)?([^$]*)$`
  // ---------------------------------------------------------------------

  /** `[A-Za-z0-9\.]` */
  predicate IsNameChar(c: char) { IsAlnum(c) || c == '.' }

  /** `RE_EXPRESSION.match(e)`: the path, the operator and the literal. The
      pattern matches exactly when a path character follows the leading
      whitespace and no `$` occurs afterwards; the greedy groups then take the
      longest path, the blanks after it and an `==` or `!=` that follows. */
  function MatchExpression(e: string): (r: Option<(string, Option<string>, string)>)
    ensures r.Some? <==> '$' !in e && exists a :: LeadsWithName(e, a)
    ensures r.Some? ==> IsPathText(r.value.0) && '$' !in r.value.2
    ensures r.Some? ==> r.value.1 == None || r.value.1 == Some("==") || r.value.1 == Some("!=")
  {
    var a := RunEnd(e, 0, IsReSpace);
    var b := RunEnd(e, a, IsNameChar);
    LeadingBlanks(e, a);
    if b == a || '$' in e[a..] then None
    else
      var c := RunEnd(e, b, IsReSpace);
      RunEndSpan(e, 0, IsReSpace);
      RunEndSpan(e, a, IsNameChar);
      assert LeadsWithName(e, a);
      assert '$' !in e;
      if c + 2 <= |e| && (e[c..c + 2] == "==" || e[c..c + 2] == "!=") then
        Some((e[a..b], Some(e[c..c + 2]), e[c + 2..]))
      else
        Some((e[a..b], None, e[c..]))
  }

  /** Position `a` holds a path character and only blanks come before it. */
  predicate LeadsWithName(e: string, a: int) {
    0 <= a < |e| && IsNameChar(e[a]) && forall k :: 0 <= k < a ==> IsReSpace(e[k])
  }

  /** The pattern's leading `\s*` stops at the only position that can lead
      with a name, and a `$` after it is a `$` anywhere. */
  lemma {:induction false} LeadingBlanks(e: string, a: nat)
    requires a == RunEnd(e, 0, IsReSpace)
    ensures (exists a' :: LeadsWithName(e, a')) <==> a < |e| && IsNameChar(e[a])
    ensures '$' in e[a..] <==> '$' in e
  {
    RunEndSpan(e, 0, IsReSpace);
    if a < |e| && IsNameChar(e[a]) {
      assert LeadsWithName(e, a);
    }
    forall a' | LeadsWithName(e, a')
      ensures a < |e| && IsNameChar(e[a])
    {
      assert a' == a;
    }
    assert e == e[..a] + e[a..];
    assert '$' !in e[..a] by {
      assert forall k :: 0 <= k < a ==> e[..a][k] == e[k];
    }
  }

  /** The number of truthy values a container holds, for the `path?` form. */
  function CountTruthy(items: seq<Value>): (r: nat)
    ensures r <= |items|
    ensures r == 0 <==> forall k :: 0 <= k < |items| ==> !Truthy(items[k])
  {
    if items == [] then 0 else (if Truthy(items[0]) then 1 else 0) + CountTruthy(items[1..])
  }

  /** The value of `path?`: how many truthy entries a dict or a list holds,
      and the truthiness of anything else. */
  function Presence(v: Value): (r: Value)
    ensures Truthy(r) <==> match v
      case Map(m) => exists k :: k in m && Truthy(m[k])
      case List(xs) => exists k :: 0 <= k < |xs| && Truthy(xs[k])
      case _ => Truthy(v)
  {
    match v
    case Map(m) =>
      var truthy := set k | k in m && Truthy(m[k]);
      assert forall k :: k in m && Truthy(m[k]) ==> k in truthy;
      Int(|truthy|)
    case List(xs) => Int(CountTruthy(xs))
    case _ => Bool(Truthy(v))
  }

  /** The right-hand side of a condition: an empty one stays the empty
      string, anything else goes through `json.loads`. */
  function Literal(literal: string, parseJson: string -> Option<Value>): (r: Result<Value>)
    ensures literal == "" ==> r == Ok(Str(""))
    ensures literal != "" ==> (r.Ok? <==> parseJson(literal).Some?)
  {
    if literal == "" then Ok(Str(""))
    else match parseJson(literal)
      case Some(v) => Ok(v)
      case None => Err(ValueError)
  }

  /** `_evaluateExpression(e, ctx)`. `parseJson` stands for `json.loads`,
      `None` where it raises. An expression the pattern rejects makes the
      source call `.group` on None. */
  function Evaluate(e: Option<string>, ctx: Value, parseJson: string -> Option<Value>): (r: Result<Value>)
    ensures e.None? || e == Some("") ==> r == Ok(Bool(true))
    ensures e.Some? && e.value != "" && MatchExpression(e.value).None? ==> r == Err(AttributeError)
  {
    match e
    case None => Ok(Bool(true))
    case Some(x) =>
      if x == "" then Ok(Bool(true))
      else match MatchExpression(x)
        case None => Err(AttributeError)
        case Some((name, op, literal)) =>
          match ResolveIn(name, ctx)
          case Err(f) => Err(f)
          case Ok(lvalue) => Compare(lvalue, op, literal, parseJson)
  }

  /** The value of a matched condition once its path has resolved to `lvalue`. */
  function Compare(lvalue: Value, op: Option<string>, literal: string, parseJson: string -> Option<Value>): (r: Result<Value>)
    ensures op.None? && literal == "?" ==> r == Ok(Presence(lvalue))
    ensures op.None? && literal == "" ==> r == Ok(lvalue)
    ensures op.None? && literal != "?" && literal != "" ==> (r.Ok? <==> parseJson(literal).Some?)
    ensures op.None? && literal != "?" && r.Ok? ==> r == Ok(lvalue)
    ensures (op == Some("==") || op == Some("!=")) && r.Ok? ==> r.value.Bool?
    ensures r.Err? ==> r == Err(ValueError)
  {
    if op.None? && literal == "?" then Ok(Presence(lvalue))
    else match Literal(literal, parseJson)
      case Err(f) => Err(f)
      case Ok(rvalue) =>
        if op == Some("==") then Ok(Bool(PyEq(lvalue, rvalue)))
        else if op == Some("!=") then Ok(Bool(!PyEq(lvalue, rvalue)))
        else Ok(lvalue)
  }

  predicate IsPathText(p: string) {
    p != [] && forall k :: 0 <= k < |p| ==> IsNameChar(p[k])
  }

  lemma {:induction false} NameRun(e: string, p: string)
    requires IsPathText(p) && StartsWith(e, p)
    requires |e| == |p| || !IsNameChar(e[|p|])
    ensures RunEnd(e, 0, IsReSpace) == 0
    ensures RunEnd(e, 0, IsNameChar) == |p|
  {
    assert !IsReSpace(e[0]) by { assert e[0] == p[0]; }
    RunEndAt(e, 0, IsNameChar, |p|);
  }

  /** A bare path is the value it resolves to, whose truthiness the `if` tests. */
  lemma {:induction false} BarePath(p: string, ctx: Value, parseJson: string -> Option<Value>)
    requires IsPathText(p)
    ensures Evaluate(Some(p), ctx, parseJson) == ResolveIn(p, ctx)
  {
    NameRun(p, p);
    assert p[..|p|] == p;
    assert MatchExpression(p) == Some((p, None, ""));
  }

  /** A condition holding a `$` anywhere after its path is no expression at all. */
  lemma {:induction false} DollarRejected(p: string, rest: string, parseJson: string -> Option<Value>, ctx: Value)
    requires IsPathText(p) && '$' in rest
    ensures Evaluate(Some(p + rest), ctx, parseJson) == Err(AttributeError)
  {
    var e := p + rest;
    var b := RunEnd(e, 0, IsNameChar);
    RunEndSpan(e, 0, IsNameChar);
    assert !IsReSpace(e[0]) by { assert e[0] == p[0]; }
    assert forall k :: 0 <= k < |p| ==> IsNameChar(e[k]);
    assert b >= |p|;
    var i :| 0 <= i < |rest| && rest[i] == '$';
    assert e[|p| + i] == '$' && !IsNameChar('$');
    assert b <= |p| + i;
    assert e[0..][|p| + i] == '$';
  }

  /** `p==v` and `p!=v` compare the resolved value with the literal read as
      JSON, using Python's `==`. */
  lemma {:induction false} Comparison(p: string, op: string, literal: string, v: Value, ctx: Value, parseJson: string -> Option<Value>)
    requires IsPathText(p)
    requires op == "==" || op == "!="
    requires literal != [] && '$' !in literal
    requires parseJson(literal) == Some(v)
    ensures var lvalue := ResolveIn(p, ctx);
      Evaluate(Some(p + op + literal), ctx, parseJson) ==
        if lvalue.Err? then Err(lvalue.error)
        else Ok(Bool(if op == "==" then PyEq(lvalue.value, v) else !PyEq(lvalue.value, v)))
  {
    var e := p + op + literal;
    assert e[|p|] == op[0] && !IsNameChar(op[0]) && !IsReSpace(op[0]);
    NameRun(e, p);
    RunEndAt(e, |p|, IsReSpace, |p|);
    assert e[..|p|] == p && e[0..|p|] == p;
    assert e[|p|..|p| + 2] == op;
    assert e[|p| + 2..] == literal;
    assert e[0..] == e;
    assert '$' !in e by {
      assert forall k :: 0 <= k < |e| ==> e[k] != '$' by {
        forall k | 0 <= k < |e| ensures e[k] != '$' {
          if k < |p| { assert e[k] == p[k] && IsNameChar(p[k]); }
          else if k >= |p| + 2 { assert e[k] == literal[k - |p| - 2]; }
        }
      }
    }
    assert MatchExpression(e) == Some((p, Some(op), literal));
  }

  /** `p?` counts the truthy entries of a dict or a list, and is the
      truthiness of anything else. */
  lemma {:induction false} PresenceTest(p: string, ctx: Value, parseJson: string -> Option<Value>)
    requires IsPathText(p)
    ensures var lvalue := ResolveIn(p, ctx);
      Evaluate(Some(p + "?"), ctx, parseJson) ==
        if lvalue.Err? then Err(lvalue.error) else Ok(Presence(lvalue.value))
  {
    var e := p + "?";
    assert e[|p|] == '?';
    NameRun(e, p);
    RunEndAt(e, |p|, IsReSpace, |p|);
    assert e[0..|p|] == p;
    assert e[|p|..] == "?";
    assert e[0..] == e;
    assert '$' !in e by {
      forall k | 0 <= k < |e| ensures e[k] != '$' {
        if k < |p| { assert e[k] == p[k] && IsNameChar(p[k]); }
      }
    }
    assert MatchExpression(e) == Some((p, None, "?"));
  }
}

=== FILE: results.dfy ===
/** Failure-compatible wrappers shared by every part of the model, and the
    failures the template engine can raise. Python exceptions become `Err`
    values; the kind of exception is kept, its message is not. */
module Results {

  /** The exceptions the engine raises, by kind. */
  datatype Failure =
    | SyntaxError(directive: string)   // "Unrecognized directive: '...'"
    | ValueError                       // int() or unpacking of a malformed string, a literal json cannot read
    | AttributeError                   // a method looked up on None or on a non-dict
    | IndexError                       // a list, string or stack indexed out of range
    | KeyError                         // a dict indexed by a key it lacks
    | TypeError                        // len() or indexing on a number or a boolean
    | NotAString(name: string)         // "Expanded variable '...' must be a string"
    | UnknownOperation                 // getInformation meets an operation it does not handle
    | OutOfFuel                        // the model's step bound ran out (not a source failure)

  datatype Option<+T> = None | Some(value: T) {
    function GetOr(default: T): T {
      match this
      case Some(v) => v
      case None => default
    }
  }

  datatype Result<+T> = Ok(value: T) | Err(error: Failure) {
    predicate IsFailure() { Err? }

    function PropagateFailure<U>(): Result<U>
      requires Err?
    {
      Err(error)
    }

    function Extract(): T
      requires Ok?
    {
      value
    }
  }
}

=== FILE: schema.dfy ===
/** The slot types of the schema inferencer (src/templating.py:79-161):
    `Type` (a scalar, possibly with attributes), `ListType` (a list whose
    items are described by a `MapType`, once one is known) and `MapType` (an
    ordered table of named slots), with `defineSlot` and `export`. */
module Schema {
  import opened Results
  import opened Dicts
  import opened Text
  import opened Values

  /** A slot's type. A `MapType` keeps its slots in a dict and their names in
      the `order` list; the two always hold the same names in the same order
      (a name enters `order` exactly when it first enters the dict), so one
      insertion-ordered dict stands for both. */
  datatype Slot =
    | Any(attributes: Option<seq<string>>)
    | ListOf(items: Items)
    | MapOf(slots: Dict<Slot>)

  /** `ListType.content`: no item map yet, or the `MapType` of the items. */
  datatype Items = Unknown | Known(slots: Dict<Slot>) {
    function Table(): Dict<Slot> {
      if Known? then slots else []
    }
  }

  /** `name.split('.', 1)`: the first segment, and the rest after the first
      dot when there is one. */
  function SplitOnce(name: string): (r: (string, Option<string>))
    ensures r.1.None? ==> r.0 == name && '.' !in name
    ensures r.1.Some? ==> name == r.0 + "." + r.1.value && '.' !in r.0
    ensures r.1.Some? ==> |r.1.value| < |name|
  {
    FindFirst(name, '.', 0);
    match Find(name, '.', 0)
    case None => (name, None)
    case Some(k) =>
      assert name == name[..k] + "." + name[k + 1..];
      (name[..k], Some(name[k + 1..]))
  }

  /** `MapType.defineSlot(name, value)`: an undotted name is (re)bound to the
      value; a dotted one descends into the slot of its first segment, which
      becomes a fresh `MapType` when it is missing or a scalar, and a
      `ListType` passes the rest on to its item map (creating it if need be). */
  function DefineSlot(slots: Dict<Slot>, name: string, value: Slot): Dict<Slot>
    decreases |name|
  {
    var (head, tail) := SplitOnce(name);
    match tail
    case None => Put(slots, head, value)
    case Some(rest) =>
      var existing: Option<Slot> := Lookup(slots, head);
      match existing
      case Some(MapOf(inner)) => Put(slots, head, MapOf(DefineSlot(inner, rest, value)))
      case Some(ListOf(items)) => Put(slots, head, ListOf(Known(DefineSlot(items.Table(), rest, value))))
      case _ => Put(slots, head, MapOf(DefineSlot([], rest, value)))
  }

  /** The slot a dotted name designates: each segment is looked up in the
      map reached so far, and a list stands for its item map. This is the
      reading under which `DefineSlot` is a store. */
  function SlotAt(slots: Dict<Slot>, name: string): Option<Slot>
    decreases |name|
  {
    var (head, tail) := SplitOnce(name);
    var found: Option<Slot> := Lookup(slots, head);
    match found
    case None => None
    case Some(s) =>
      match tail
      case None => Some(s)
      case Some(rest) =>
        match s
        case MapOf(inner) => SlotAt(inner, rest)
        case ListOf(Known(inner)) => SlotAt(inner, rest)
        case _ => None
  }

  /** Two names that part ways: their first segments differ, or they share
      it and their rests part ways. Neither designates a slot inside the other. */
  predicate Diverge(a: string, b: string)
    decreases |a|
  {
    var (ha, ta) := SplitOnce(a);
    var (hb, tb) := SplitOnce(b);
    ha != hb || (ta.Some? && tb.Some? && Diverge(ta.value, tb.value))
  }

  /** Every map of the schema, at every depth, holds one entry per name:
      `order` never repeats a name. */
  predicate Tidy(slots: Dict<Slot>)
    decreases slots, 2
  {
    UniqueKeys(slots) && AllTidy(slots)
  }

  predicate AllTidy(slots: Dict<Slot>)
    decreases slots, 1
  {
    slots == [] ||
    var last := slots[|slots| - 1];
    assert last.1 < last;
    AllTidy(slots[..|slots| - 1]) && SlotTidy(last.1)
  }

  predicate SlotTidy(s: Slot)
    decreases s, 0
  {
    match s
    case Any(_) => true
    case ListOf(Unknown) => true
    case ListOf(Known(inner)) => Tidy(inner)
    case MapOf(inner) => Tidy(inner)
  }

  // ---------------------------------------------------------------------
  // export
  // ---------------------------------------------------------------------

  function Strs(names: seq<string>): (r: seq<Value>)
    ensures |r| == |names| && forall i :: 0 <= i < |names| ==> r[i] == Str(names[i])
  {
    if names == [] then [] else [Str(names[0])] + Strs(names[1..])
  }

  /** `export()`: a scalar is `'Any'`, or `{'value': 'Any', 'attributes': ...}`
      when it has (non-empty) attributes; a list is a one-element list of its
      item map's export, or of `'Any'` while it has none; a map is
      `{'order': [...], 'values': {...}}`. */
  function Export(s: Slot): (r: Value)
    ensures s.ListOf? ==> r.List? && |r.items| == 1
    ensures s.ListOf? && s.items.Unknown? ==> r.items[0] == Str("Any")
    ensures s.ListOf? && s.items.Known? ==> r.items[0] == ExportTable(s.items.slots)
    ensures s.MapOf? ==> r == ExportTable(s.slots)
    ensures s.Any? ==> (r == Str("Any") <==> s.attributes.None? || s.attributes.value == [])
    ensures s.Any? && r != Str("Any") ==>
      r.Map? && r.entries.Keys == {"value", "attributes"} && r.entries["value"] == Str("Any") &&
      r.entries["attributes"] == List(Strs(s.attributes.value))
    decreases s, 1
  {
    match s
    case Any(attributes) =>
      if attributes.None? || attributes.value == [] then Str("Any")
      else Map(map["value" := Str("Any"), "attributes" := List(Strs(attributes.value))])
    case ListOf(Unknown) => List([Str("Any")])
    case ListOf(Known(inner)) => List([ExportTable(inner)])
    case MapOf(slots) => ExportTable(slots)
  }

  function ExportTable(slots: Dict<Slot>): (r: Value)
    ensures r.Map? && r.entries.Keys == {"order", "values"}
    decreases slots, 2
  {
    Map(map["order" := List(Strs(Keys(slots))), "values" := Map(ExportValues(slots))])
  }

  /** The `values` dict of an export: each slot's export under its name. */
  function ExportValues(slots: Dict<Slot>): (r: map<string, Value>)
    ensures r.Keys == set i | 0 <= i < |slots| :: slots[i].0
    decreases slots, 0
  {
    if slots == [] then map[]
    else
      var last := slots[|slots| - 1];
      assert last.1 < last;
      ExportValues(slots[..|slots| - 1])[last.0 := Export(last.1)]
  }
}

=== FILE: schema_laws.dfy ===
/** What `MapType.defineSlot` does, read through `SlotAt`: the slot defined
    is found under its name, slots on other paths are left alone, a name
    enters the order once, and every table keeps one entry per name. */
module SchemaLaws {
  import opened Results
  import opened Dicts
  import opened Values
  import opened Schema

  /** After `defineSlot(name, v)`, `name` designates `v`: whatever stood in
      the way (a scalar, a list without items, nothing) has been replaced by
      a table leading to it, and an earlier slot under the same name is
      overwritten. */
  lemma {:induction false} DefineFinds(slots: Dict<Slot>, name: string, v: Slot)
    ensures SlotAt(DefineSlot(slots, name, v), name) == Some(v)
    decreases |name|
  {
    var (head, tail) := SplitOnce(name);
    if tail.Some? {
      var rest := tail.value;
      var existing: Option<Slot> := Lookup(slots, head);
      match existing
      case Some(MapOf(inner)) => DefineFinds(inner, rest, v);
      case Some(ListOf(items)) => DefineFinds(items.Table(), rest, v);
      case _ => DefineFinds([], rest, v);
    }
  }

  /** Only the slot named by the first segment changes. */
  lemma {:induction false} DefineOtherHead(slots: Dict<Slot>, name: string, v: Slot, k: string)
    requires k != SplitOnce(name).0
    ensures Lookup(DefineSlot(slots, name, v), k) == Lookup(slots, k)
  {
    var (head, tail) := SplitOnce(name);
    if tail.Some? {
      var rest := tail.value;
      var existing: Option<Slot> := Lookup(slots, head);
      match existing
      case Some(MapOf(inner)) => PutOther(slots, head, MapOf(DefineSlot(inner, rest, v)), k);
      case Some(ListOf(items)) => PutOther(slots, head, ListOf(Known(DefineSlot(items.Table(), rest, v))), k);
      case _ => PutOther(slots, head, MapOf(DefineSlot([], rest, v)), k);
    } else {
      PutOther(slots, head, v, k);
    }
  }

  /** Nothing outside the path has moved: a name that parts ways with the
      one defined designates what it designated before. */
  lemma {:induction false} DefineFrame(slots: Dict<Slot>, name: string, v: Slot, other: string)
    requires Diverge(name, other)
    ensures SlotAt(DefineSlot(slots, name, v), other) == SlotAt(slots, other)
    decreases |name|
  {
    var (head, tail) := SplitOnce(name);
    var (oh, ot) := SplitOnce(other);
    var r := DefineSlot(slots, name, v);
    if head != oh {
      DefineOtherHead(slots, name, v, oh);
    } else {
      var rest := tail.value;
      var orest := ot.value;
      assert Diverge(rest, orest);
      var existing: Option<Slot> := Lookup(slots, head);
      match existing
      case Some(MapOf(inner)) => DefineFrame(inner, rest, v, orest);
      case Some(ListOf(items)) => DefineFrame(items.Table(), rest, v, orest);
      case _ => DefineFrame([], rest, v, orest);
    }
  }

  /** `order` gains the first segment at its end when it was not there
      yet, and is otherwise unchanged. */
  lemma {:induction false} DefineOrder(slots: Dict<Slot>, name: string, v: Slot)
    ensures var head := SplitOnce(name).0;
            Keys(DefineSlot(slots, name, v)) == if head in Keys(slots) then Keys(slots) else Keys(slots) + [head]
  {
    var (head, tail) := SplitOnce(name);
    if tail.Some? {
      var rest := tail.value;
      var existing: Option<Slot> := Lookup(slots, head);
      match existing
      case Some(MapOf(inner)) => PutOrder(slots, head, MapOf(DefineSlot(inner, rest, v)));
      case Some(ListOf(items)) => PutOrder(slots, head, ListOf(Known(DefineSlot(items.Table(), rest, v))));
      case _ => PutOrder(slots, head, MapOf(DefineSlot([], rest, v)));
    } else {
      PutOrder(slots, head, v);
    }
  }

  /** A scalar met on the way loses its attributes to a fresh table. */
  lemma {:induction false} DefineOverScalar(slots: Dict<Slot>, head: string, rest: string, v: Slot,
                                            attributes: Option<seq<string>>)
    requires '.' !in head && Lookup(slots, head) == Some(Any(attributes))
    ensures Lookup(DefineSlot(slots, head + "." + rest, v), head) == Some(MapOf(DefineSlot([], rest, v)))
  {
    var name := head + "." + rest;
    SplitAtFirstDot(head, rest);
  }

  /** The split of `head.rest` is `head` and `rest` when `head` has no dot. */
  lemma {:induction false} SplitAtFirstDot(head: string, rest: string)
    requires '.' !in head
    ensures SplitOnce(head + "." + rest) == (head, Some(rest))
  {
    var name := head + "." + rest;
    assert name[|head|] == '.';
    var r := SplitOnce(name);
    assert r.0 == name[..|r.0|] && name[|r.0|] == '.';
    assert name[..|head|] == head;
  }

  /** `AllTidy` is a statement about every entry. */
  lemma {:induction false} AllTidyEvery(slots: Dict<Slot>)
    ensures AllTidy(slots) <==> forall i :: 0 <= i < |slots| ==> SlotTidy(slots[i].1)
    decreases |slots|
  {
    if slots != [] {
      var front := slots[..|slots| - 1];
      AllTidyEvery(front);
      assert forall i :: 0 <= i < |front| ==> front[i] == slots[i];
    }
  }

  /** A tidy table holds tidy slots, so what it holds under a name is tidy. */
  lemma {:induction false} TidyLookup(slots: Dict<Slot>, k: string)
    requires Tidy(slots) && Lookup(slots, k).Some?
    ensures SlotTidy(Lookup(slots, k).value)
  {
    AllTidyEvery(slots);
  }

  /** Storing a tidy slot in a tidy table keeps it tidy. */
  lemma {:induction false} PutTidy(slots: Dict<Slot>, k: string, v: Slot)
    requires Tidy(slots) && SlotTidy(v)
    ensures Tidy(Put(slots, k, v))
  {
    var r := Put(slots, k, v);
    PutUnique(slots, k, v);
    PutEntries(slots, k, v);
    AllTidyEvery(slots);
    AllTidyEvery(r);
  }

  /** Every table the inferencer builds keeps one entry per name, at every
      depth: `order` never lists a name twice. */
  lemma {:induction false} DefineTidy(slots: Dict<Slot>, name: string, v: Slot)
    requires Tidy(slots) && SlotTidy(v)
    ensures Tidy(DefineSlot(slots, name, v))
    decreases |name|
  {
    var (head, tail) := SplitOnce(name);
    if tail.Some? {
      var rest := tail.value;
      var existing: Option<Slot> := Lookup(slots, head);
      match existing
      case Some(MapOf(inner)) =>
        TidyLookup(slots, head);
        DefineTidy(inner, rest, v);
        PutTidy(slots, head, MapOf(DefineSlot(inner, rest, v)));
      case Some(ListOf(items)) =>
        TidyLookup(slots, head);
        DefineTidy(items.Table(), rest, v);
        PutTidy(slots, head, ListOf(Known(DefineSlot(items.Table(), rest, v))));
      case _ =>
        DefineTidy([], rest, v);
        PutTidy(slots, head, MapOf(DefineSlot([], rest, v)));
    } else {
      PutTidy(slots, head, v);
    }
  }

  /** The export of a table lists its names in definition order under
      `order`, and gives each slot's export under its name in `values`. */
  lemma {:induction false} ExportTableLists(slots: Dict<Slot>)
    requires UniqueKeys(slots)
    ensures ExportTable(slots).entries["order"] == List(Strs(Keys(slots)))
    ensures var values := ExportTable(slots).entries["values"];
            values.Map? && forall i :: 0 <= i < |slots| ==> values.entries[slots[i].0] == Export(slots[i].1)
  {
    ExportValuesAt(slots);
  }

  lemma {:induction false} ExportValuesAt(slots: Dict<Slot>)
    requires UniqueKeys(slots)
    ensures forall i :: 0 <= i < |slots| ==> ExportValues(slots)[slots[i].0] == Export(slots[i].1)
    decreases |slots|
  {
    if slots != [] {
      var n := |slots| - 1;
      var front := slots[..n];
      UniqueKeysPrefix(slots, n);
      ExportValuesAt(front);
      var last := slots[n];
      var m := ExportValues(front);
      assert ExportValues(slots) == m[last.0 := Export(last.1)];
      forall i | 0 <= i < n ensures ExportValues(slots)[slots[i].0] == Export(slots[i].1) {
        assert front[i] == slots[i];
        assert m[slots[i].0] == Export(slots[i].1);
        assert slots[i].0 != last.0;
      }
    }
  }

  // ---------------------------------------------------------------------
  // Reading an export back
  // ---------------------------------------------------------------------

  /** No scalar carries an empty attribute list, at any depth: `export()`
      writes such a scalar as a bare `'Any'`, as it does one without
      attributes. Attribute lists come from `str.split`, which never gives
      an empty list. */
  predicate Attributed(s: Slot)
    decreases s, 0
  {
    match s
    case Any(attributes) => attributes != Some([])
    case ListOf(Unknown) => true
    case ListOf(Known(inner)) => AllAttributed(inner)
    case MapOf(inner) => AllAttributed(inner)
  }

  predicate AllAttributed(slots: Dict<Slot>)
    decreases slots, 1
  {
    slots == [] ||
    var last := slots[|slots| - 1];
    assert last.1 < last;
    AllAttributed(slots[..|slots| - 1]) && Attributed(last.1)
  }

  /** The names a list of exported strings holds, if it holds only strings. */
  function Unstrs(xs: seq<Value>): (r: Option<seq<string>>)
    ensures r.Some? ==> |r.value| == |xs| && forall i :: 0 <= i < |xs| ==> xs[i] == Str(r.value[i])
  {
    if xs == [] then Some([])
    else if !xs[0].Str? then None
    else match Unstrs(xs[1..])
      case None => None
      case Some(rest) => Some([xs[0].s] + rest)
  }

  /** The table an `order` list describes: each name with the slot its
      entry in `values` reads back as. */
  function ImportOrder(names: seq<Value>, values: map<string, Value>): (r: Option<Dict<Slot>>)
    ensures r.Some? ==> |r.value| == |names|
    decreases Map(values), |names|
  {
    if names == [] then Some([])
    else if !names[0].Str? || names[0].s !in values then None
    else match (Import(values[names[0].s]), ImportOrder(names[1..], values))
      case (Some(slot), Some(rest)) => Some([(names[0].s, slot)] + rest)
      case _ => None
  }

  /** The schema an exported value describes: `export()` read backwards.
      `'Any'` is a scalar without attributes, a one-element list a list
      slot, and the two-key dicts a scalar with attributes or a table. */
  function Import(v: Value): (r: Option<Slot>)
    decreases v
  {
    match v
    case Str(s) => if s == "Any" then Some(Any(None)) else None
    case List(xs) =>
      if |xs| != 1 then None
      else if xs[0] == Str("Any") then Some(ListOf(Unknown))
      else
        (match Import(xs[0])
         case Some(MapOf(inner)) => Some(ListOf(Known(inner)))
         case _ => None)
    case Map(m) =>
      if m.Keys == {"value", "attributes"} then
        if m["value"] != Str("Any") || !m["attributes"].List? || m["attributes"].items == [] then None
        else (match Unstrs(m["attributes"].items)
          case None => None
          case Some(names) => Some(Any(Some(names))))
      else if m.Keys == {"order", "values"} && m["order"].List? && m["values"].Map? then
        (match ImportOrder(m["order"].items, m["values"].entries)
         case None => None
         case Some(slots) => Some(MapOf(slots)))
      else None
    case _ => None
  }

  lemma {:induction false} UnstrsStrs(names: seq<string>)
    ensures Unstrs(Strs(names)) == Some(names)
    decreases |names|
  {
    if names != [] {
      var rest := Strs(names[1..]);
      var xs := [Str(names[0])] + rest;
      assert Strs(names) == xs;
      UnstrsStrs(names[1..]);
      assert xs[1..] == rest;
      assert [names[0]] + names[1..] == names;
    }
  }

  lemma {:induction false} ImportOrderKeys(slots: Dict<Slot>, values: map<string, Value>)
    requires forall i :: 0 <= i < |slots| ==> slots[i].0 in values && Import(values[slots[i].0]) == Some(slots[i].1)
    ensures ImportOrder(Strs(Keys(slots)), values) == Some(slots)
    decreases |slots|
  {
    if slots != [] {
      var names := Strs(Keys(slots));
      assert names[1..] == Strs(Keys(slots[1..]));
      assert forall i :: 0 <= i < |slots[1..]| ==> slots[1..][i] == slots[i + 1];
      ImportOrderKeys(slots[1..], values);
      assert [slots[0]] + slots[1..] == slots;
    }
  }

  lemma {:induction false} AllAttributedEvery(slots: Dict<Slot>)
    ensures AllAttributed(slots) <==> forall i :: 0 <= i < |slots| ==> Attributed(slots[i].1)
    decreases |slots|
  {
    if slots != [] {
      var front := slots[..|slots| - 1];
      AllAttributedEvery(front);
      assert forall i :: 0 <= i < |front| ==> front[i] == slots[i];
    }
  }

  /** Reading a table's export back is reading its `order` list against
      its `values`. */
  lemma {:induction false} ImportTableStep(slots: Dict<Slot>)
    ensures Import(ExportTable(slots)) ==
      match ImportOrder(Strs(Keys(slots)), ExportValues(slots))
      case None => None
      case Some(t) => Some(MapOf(t))
  {
    var m := ExportTable(slots).entries;
    assert m.Keys != {"value", "attributes"} by {
      assert "order" in m.Keys && "order" !in {"value", "attributes"};
    }
  }

  /** A table's export reads back as the table. */
  lemma {:induction false} ImportExportTable(slots: Dict<Slot>)
    requires Tidy(slots) && AllAttributed(slots)
    ensures Import(ExportTable(slots)) == Some(MapOf(slots))
    decreases slots, 0
  {
    var values := ExportValues(slots);
    ExportValuesAt(slots);
    AllTidyEvery(slots);
    AllAttributedEvery(slots);
    forall i | 0 <= i < |slots|
      ensures slots[i].0 in values && Import(values[slots[i].0]) == Some(slots[i].1)
    {
      assert slots[i].1 < slots[i];
      ImportExport(slots[i].1);
    }
    ImportOrderKeys(slots, values);
    ImportTableStep(slots);
  }

  /** `export()` loses nothing: the export of a tidy schema whose scalars
      carry no empty attribute list reads back as the schema itself. */
  lemma {:induction false} ImportExport(s: Slot)
    requires SlotTidy(s) && Attributed(s)
    ensures Import(Export(s)) == Some(s)
    decreases s, 1
  {
    match s
    case Any(attributes) =>
      if attributes.Some? && attributes.value != [] {
        UnstrsStrs(attributes.value);
        var m := Export(s).entries;
        assert m.Keys == {"value", "attributes"};
      }
    case ListOf(Unknown) =>
    case ListOf(Known(inner)) =>
      ImportExportTable(inner);
      assert ExportTable(inner) != Str("Any");
    case MapOf(inner) =>
      ImportExportTable(inner);
  }
}

=== FILE: slot_names.dfy ===
/** Absolute slot names (`_getAbsoluteSlotName`, src/templating.py:349-364):
    inside a `for` or `with` block, a path through `this` names the slot the
    block opened, so `this.x` becomes `prefix.x`. */
module SlotNames {
  import opened Text

  /** The absolute name of slot `name` under `prefix` (empty at top level).
      Only `this` and paths starting with `this.` are rewritten; a bare
      `this` under a prefix keeps the dot the concatenation adds. */
  function AbsoluteSlotName(name: string, prefix: string): (r: string)
    ensures StartsWith(name, "this.") && prefix != "" ==> r == prefix + "." + name[5..]
    ensures StartsWith(name, "this.") && prefix == "" ==> r == name[5..]
    ensures name == "this" ==> r == if prefix != "" then prefix + "." else ""
    ensures name != "this" && !StartsWith(name, "this.") ==> r == name
  {
    if name == "" then name
    else if name == "this" || StartsWith(name, "this.") then
      var rest := name[4..];
      var rest := if rest != "" && rest[0] == '.' then rest[1..] else rest;
      if prefix != "" then prefix + "." + rest else rest
    else name
  }
}

=== FILE: text.dfy ===
/** Character classes and the small string operations of Python that the
    engine relies on: `str.find`, `str.split`, `str.strip`, `str.lower`,
    `int()` and `str()` on integers. Letters, digits and case are ASCII;
    whitespace is the set Python's `str.isspace` accepts, and `\s` in the
    patterns the ASCII set. */
module Text {
  import opened Results

  predicate IsDigit(c: char) { '0' <= c <= '9' }

  predicate IsLetter(c: char) { 'a' <= c <= 'z' || 'A' <= c <= 'Z' }

  /** `[A-Za-z0-9]` */
  predicate IsAlnum(c: char) { IsLetter(c) || IsDigit(c) }

  /** `\w`, restricted to ASCII */
  predicate IsWordChar(c: char) { IsAlnum(c) || c == '_' }

  /** The characters for which Python's `str.isspace` holds, which
      `str.strip` and `int()` drop. */
  predicate IsSpace(c: char) {
    var n := c as int;
    || 0x09 <= n <= 0x0d || 0x1c <= n <= 0x20 || n == 0x85 || n == 0xa0
    || n == 0x1680 || 0x2000 <= n <= 0x200a || n == 0x2028 || n == 0x2029
    || n == 0x202f || n == 0x205f || n == 0x3000
  }

  /** `\s` in a pattern compiled without `re.UNICODE` under Python 2:
      `[ \t\n\r\f\v]` only. */
  predicate IsReSpace(c: char) {
    c == ' ' || '\t' <= c <= '\r'
  }

  predicate StartsWith(s: string, p: string) {
    |p| <= |s| && s[..|p|] == p
  }

  /** `s.find(c, from)`: the first position at or after `from` holding `c`. */
  function Find(s: string, c: char, from: nat): (r: Option<nat>)
    ensures r.Some? ==> from <= r.value < |s| && s[r.value] == c
    decreases |s| - from
  {
    if from >= |s| then None
    else if s[from] == c then Some(from)
    else Find(s, c, from + 1)
  }

  /** The occurrence found is the first: no `c` lies before it, and none
      at all when there is none to find. */
  lemma {:induction false} FindFirst(s: string, c: char, from: nat)
    ensures Find(s, c, from).Some? ==> forall k :: from <= k < Find(s, c, from).value ==> s[k] != c
    ensures Find(s, c, from).None? ==> forall k :: from <= k < |s| ==> s[k] != c
    decreases |s| - from
  {
    if from < |s| && s[from] != c {
      FindFirst(s, c, from + 1);
    }
  }

  /** The end of the longest run of characters satisfying `p` that starts at `from`. */
  function RunEnd(s: string, from: nat, p: char -> bool): (r: nat)
    requires from <= |s|
    ensures from <= r <= |s|
    ensures r == |s| || !p(s[r])
    decreases |s| - from
  {
    if from == |s| || !p(s[from]) then from else RunEnd(s, from + 1, p)
  }

  /** Every character of the run satisfies `p`. */
  lemma {:induction false} RunEndSpan(s: string, from: nat, p: char -> bool)
    requires from <= |s|
    ensures forall k :: from <= k < RunEnd(s, from, p) ==> p(s[k])
    decreases |s| - from
  {
    if from < |s| && p(s[from]) {
      RunEndSpan(s, from + 1, p);
    }
  }

  /** A run ends exactly at the first position whose character falls outside it. */
  lemma {:induction false} RunEndAt(s: string, from: nat, p: char -> bool, to: nat)
    requires from <= to <= |s|
    requires forall k :: from <= k < to ==> p(s[k])
    requires to == |s| || !p(s[to])
    ensures RunEnd(s, from, p) == to
    decreases |s| - from
  {
    if from < to {
      RunEndAt(s, from + 1, p, to);
    }
  }

  /** The first occurrence of `c` at or after `from` is at `to`. */
  lemma {:induction false} FindAt(s: string, c: char, from: nat, to: nat)
    requires from <= to < |s| && s[to] == c
    requires forall k :: from <= k < to ==> s[k] != c
    ensures Find(s, c, from) == Some(to)
    decreases |s| - from
  {
    if from < to {
      FindAt(s, c, from + 1, to);
    }
  }

  /** `parts` glued back together with `sep` between neighbours. */
  function Join(parts: seq<string>, sep: char): string
    requires |parts| >= 1
  {
    if |parts| == 1 then parts[0] else parts[0] + [sep] + Join(parts[1..], sep)
  }

  /** `s.split(sep)`: always at least one part, none holding `sep`. */
  function Split(s: string, sep: char): (r: seq<string>)
    ensures |r| >= 1
    ensures forall k :: 0 <= k < |r| ==> sep !in r[k]
    ensures Join(r, sep) == s
    decreases |s|
  {
    FindFirst(s, sep, 0);
    match Find(s, sep, 0)
    case None => [s]
    case Some(i) =>
      var rest := Split(s[i + 1..], sep);
      assert s == s[..i] + [sep] + s[i + 1..];
      [s[..i]] + rest
  }

  /** Splitting undoes joining whenever no part holds the separator. */
  lemma {:induction false} SplitJoin(parts: seq<string>, sep: char)
    requires |parts| >= 1
    requires forall k :: 0 <= k < |parts| ==> sep !in parts[k]
    ensures Split(Join(parts, sep), sep) == parts
    decreases |parts|
  {
    var p := parts[0];
    if |parts| == 1 {
      assert Find(p, sep, 0).None?;
    } else {
      var s := Join(parts, sep);
      assert s == p + [sep] + Join(parts[1..], sep);
      assert s[|p|] == sep;
      assert forall k :: 0 <= k < |p| ==> s[k] == p[k] && p[k] != sep;
      FindAt(s, sep, 0, |p|);
      assert s[..|p|] == p;
      assert s[|p| + 1..] == Join(parts[1..], sep);
      SplitJoin(parts[1..], sep);
      assert parts == [p] + parts[1..];
    }
  }

  /** Every occurrence of `c` removed from `s`, as `s.replace(c, '')` does. */
  function Remove(s: string, c: char): (r: string)
    ensures c !in r
    ensures forall x :: x in r <==> x in s && x != c
    ensures |r| <= |s|
  {
    if s == [] then [] else (if s[0] == c then [] else [s[0]]) + Remove(s[1..], c)
  }

  function LowerChar(c: char): char {
    if 'A' <= c <= 'Z' then (c as int + 32) as char else c
  }

  /** `s.lower()` on ASCII letters. */
  function Lower(s: string): (r: string)
    ensures |r| == |s|
    ensures forall k :: 0 <= k < |s| ==> r[k] == LowerChar(s[k])
  {
    if s == [] then [] else [LowerChar(s[0])] + Lower(s[1..])
  }

  /** `s.strip()`: whitespace dropped at both ends. */
  function Strip(s: string): (r: string)
    ensures |r| <= |s|
    ensures r == [] || (!IsSpace(r[0]) && !IsSpace(r[|r| - 1]))
    decreases |s|
  {
    if s == [] then []
    else if IsSpace(s[0]) then Strip(s[1..])
    else if IsSpace(s[|s| - 1]) then Strip(s[..|s| - 1])
    else s
  }

  predicate AllDigits(s: string) {
    forall k :: 0 <= k < |s| ==> IsDigit(s[k])
  }

  function DigitValue(c: char): nat
    requires IsDigit(c)
  {
    c as int - '0' as int
  }

  function DigitChar(d: nat): (c: char)
    requires d < 10
    ensures IsDigit(c) && DigitValue(c) == d
  {
    ('0' as int + d) as char
  }

  /** The number a run of decimal digits denotes. */
  function DigitsValue(s: string): nat
    requires AllDigits(s)
    decreases |s|
  {
    if s == [] then 0 else DigitsValue(s[..|s| - 1]) * 10 + DigitValue(s[|s| - 1])
  }

  /** The decimal digits of `n`, without leading zeros. */
  function NatToString(n: nat): (r: string)
    ensures |r| >= 1 && AllDigits(r)
    ensures (r[0] == '0') == (n == 0)
    decreases n
  {
    if n < 10 then [DigitChar(n)] else NatToString(n / 10) + [DigitChar(n % 10)]
  }

  /** `str(n)` for an integer. */
  function IntToString(n: int): string {
    if n < 0 then "-" + NatToString(-n) else NatToString(n)
  }

  /** `int(s)` for a string: surrounding whitespace, an optional sign, then
      one or more ASCII digits; anything else is a `ValueError`, here `None`. */
  function ParseInt(s: string): Option<int> {
    var t := Strip(s);
    if |t| >= 2 && (t[0] == '-' || t[0] == '+') && AllDigits(t[1..]) then
      Some(if t[0] == '-' then 0 - DigitsValue(t[1..]) else DigitsValue(t[1..]))
    else if |t| >= 1 && AllDigits(t) then
      Some(DigitsValue(t))
    else
      None
  }

  lemma {:induction false} DigitsOfNat(n: nat)
    ensures DigitsValue(NatToString(n)) == n
    decreases n
  {
    var s := NatToString(n);
    if n >= 10 {
      DigitsOfNat(n / 10);
      assert s[..|s| - 1] == NatToString(n / 10);
    }
  }

  lemma {:induction false} StripNoSpace(s: string)
    requires forall k :: 0 <= k < |s| ==> !IsSpace(s[k])
    ensures Strip(s) == s
  {
    if s != [] {
      assert !IsSpace(s[0]) && !IsSpace(s[|s| - 1]);
    }
  }

  /** Digits alone read back as their value. */
  lemma {:induction false} ParseDigits(d: string)
    requires |d| >= 1 && AllDigits(d)
    ensures ParseInt(d) == Some(DigitsValue(d))
  {
    assert forall k :: 0 <= k < |d| ==> !IsSpace(d[k]);
    StripNoSpace(d);
  }

  /** Digits after a minus sign read back as the negated value. */
  lemma {:induction false} ParseNegated(d: string)
    requires |d| >= 1 && AllDigits(d)
    ensures ParseInt("-" + d) == Some(0 - DigitsValue(d))
  {
    var s := "-" + d;
    assert forall k :: 0 <= k < |s| ==> !IsSpace(s[k]);
    StripNoSpace(s);
    assert s[1..] == d;
  }

  /** `int(str(n)) == n`: printing an integer and reading it back is the identity. */
  lemma {:induction false} ParseIntToString(n: int)
    ensures ParseInt(IntToString(n)) == Some(n)
  {
    var m: nat := if n < 0 then -n else n;
    var d := NatToString(m);
    DigitsOfNat(m);
    if n < 0 {
      ParseNegated(d);
    } else {
      ParseDigits(d);
    }
  }

  /** A slice that is `a + b` splits where `a` ends. */
  lemma {:induction false} SliceSplit(s: string, i: nat, j: nat, e: nat, a: string, b: string)
    requires j == i + |a| && i <= e <= |s| && s[i..e] == a + b
    ensures j <= e && s[i..j] == a && s[j..e] == b
  {
    assert s[i..j] == s[i..e][..|a|];
    assert s[j..e] == s[i..e][|a|..];
  }
}

=== FILE: translation_laws.dfy ===
/** The `${T:...}` form read back: a list of `lang=value` items written with
    single quotes, double quotes or bare values compiles to the table that
    assigns each lower-cased language its value, later items overriding
    earlier ones (src/templating.py:50, 203-229). */
module TranslationLaws {
  import opened Results
  import opened Text
  import opened Dicts
  import opened Operations
  import opened Directives

  datatype Quote = Single | Double | Bare

  /** One `lang=value` item as written in a template. */
  datatype Entry = Entry(lang: string, text: string, quote: Quote)

  function ValueText(e: Entry): string {
    match e.quote
    case Single => "'" + e.text + "'"
    case Double => "\"" + e.text + "\""
    case Bare => e.text
  }

  function EntryText(e: Entry): string {
    e.lang + "=" + ValueText(e)
  }

  /** The items joined with commas, as they follow `T:`. */
  function ListText(es: seq<Entry>): string
    requires |es| >= 1
  {
    if |es| == 1 then EntryText(es[0]) else EntryText(es[0]) + "," + ListText(es[1..])
  }

  /** An item the pattern and the parsing loop both read in full: a
      language of word characters and a non-empty value that does not hold
      its own delimiter. A bare value stops at `,` and `}` and must not
      start like a quoted one. */
  predicate WellFormed(e: Entry) {
    && |e.lang| >= 1 && (forall k :: 0 <= k < |e.lang| ==> IsWordChar(e.lang[k]))
    && |e.text| >= 1
    && match e.quote
       case Single => '\'' !in e.text
       case Double => '"' !in e.text
       case Bare => ',' !in e.text && '}' !in e.text && e.text[0] != '\'' && e.text[0] != '"'
  }

  predicate AllWellFormed(es: seq<Entry>) {
    forall i :: 0 <= i < |es| ==> WellFormed(es[i])
  }

  /** The dict assignments the parsing loop performs, in order. */
  function Assign(acc: Translations, es: seq<Entry>): Translations
    decreases |es|
  {
    if es == [] then acc else Assign(Put(acc, Lower(es[0].lang), es[0].text), es[1..])
  }

  /** The value the last item for the language `k` gives, if any. */
  function LastText(es: seq<Entry>, k: string): (r: Option<string>)
    ensures r.None? <==> forall i :: 0 <= i < |es| ==> Lower(es[i].lang) != k
    ensures r.Some? ==> exists i :: 0 <= i < |es| && Lower(es[i].lang) == k && es[i].text == r.value
  {
    if es == [] then None
    else
      var last := es[|es| - 1];
      if Lower(last.lang) == k then Some(last.text) else LastText(es[..|es| - 1], k)
  }

  lemma {:induction false} RemoveAbsent(s: string, c: char)
    requires c !in s
    ensures Remove(s, c) == s
  {
    if s != [] {
      RemoveAbsent(s[1..], c);
      assert s == [s[0]] + s[1..];
    }
  }

  /** A comma in front of a language is dropped with every other comma. */
  lemma {:induction false} KeyText(lead: string, lang: string)
    requires lead == "" || lead == ","
    requires forall k :: 0 <= k < |lang| ==> IsWordChar(lang[k])
    ensures Remove(lead + lang, ',') == lang
  {
    assert forall k :: 0 <= k < |lang| ==> lang[k] != ',';
    RemoveAbsent(lang, ',');
    if lead == "," {
      assert (lead + lang)[1..] == lang;
    } else {
      assert lead + lang == lang;
    }
  }

  /** The language of a well-formed item is the key the loop computes for it,
      whether or not a comma is in front of it. */
  lemma {:induction false} KeyOf(e: Entry, lead: string, post: string, n: nat, n1: nat)
    requires WellFormed(e)
    requires lead == "" || lead == ","
    requires n == |lead| + |e.lang| && n1 == n + 1
    ensures var rest := lead + EntryText(e) + post;
            && Find(rest, '=', 0) == Some(n)
            && n1 <= |rest|
            && Lower(Remove(rest[..n], ',')) == Lower(e.lang)
            && rest[n1..] == ValueText(e) + post
  {
    var rest := lead + EntryText(e) + post;
    assert rest == (lead + e.lang) + "=" + (ValueText(e) + post);
    var pre := lead + e.lang;
    assert forall k :: 0 <= k < n ==> rest[k] == pre[k];
    assert forall k :: 0 <= k < n ==> pre[k] != '=' by {
      assert forall k :: 0 <= k < |lead| ==> pre[k] == ',';
      assert forall k :: |lead| <= k < n ==> pre[k] == e.lang[k - |lead|];
    }
    assert rest[n] == '=';
    FindAt(rest, '=', 0, n);
    assert rest[..n] == pre;
    KeyText(lead, e.lang);
    assert rest[n1..] == ValueText(e) + post;
  }

  /** The loop reads one quoted value up to its closing quote. */
  lemma {:induction false} QuotedValue(e: Entry, post: string, i: nat, i1: nat)
    requires WellFormed(e) && e.quote != Bare
    requires i == |e.text| + 1 && i1 == i + 1
    ensures var r := ValueText(e) + post;
            var q := if e.quote == Single then '\'' else '"';
            && r != [] && r[0] == q
            && Find(r, q, 1) == Some(i)
            && i1 <= |r|
            && r[1..i] == e.text
            && r[i1..] == post
  {
    var r := ValueText(e) + post;
    var q := if e.quote == Single then '\'' else '"';
    assert forall k :: 1 <= k < i ==> r[k] == e.text[k - 1];
    assert q !in e.text;
    assert r[i] == q;
    FindAt(r, q, 1, i);
    assert r[1..i] == e.text;
    assert r[i1..] == post;
  }

  /** The loop reads one bare value up to the comma that ends it. */
  lemma {:induction false} BareValue(e: Entry, post: string, i: nat, i1: nat)
    requires WellFormed(e) && e.quote == Bare
    requires post == [] || post[0] == ','
    requires i == |e.text| && i1 == i + 1
    ensures var r := ValueText(e) + post;
            && r != [] && r[0] != '\'' && r[0] != '"'
            && (post == [] ==> Find(r, ',', 0).None? && r == e.text)
            && (post != [] ==> Find(r, ',', 0) == Some(i) && i1 <= |r| && r[i1..] == post[1..])
            && r[..i] == e.text
  {
    var r := ValueText(e) + post;
    assert forall k :: 0 <= k < |e.text| ==> r[k] == e.text[k];
    if post != [] {
      assert r[i] == ',';
      FindAt(r, ',', 0, i);
      assert r[i1..] == post[1..];
    } else {
      assert r == e.text;
    }
  }

  /** One pass of the parsing loop over a quoted value. */
  lemma {:induction false} ParseQuoted(rest: string, acc: Translations, n: nat, n1: nat, key: string, r: string,
                                       i: nat, i1: nat)
    requires Find(rest, '=', 0) == Some(n) && Lower(Remove(rest[..n], ',')) == key
    requires n1 == n + 1 && n1 <= |rest| && rest[n1..] == r
    requires r != [] && (r[0] == '\'' || r[0] == '"') && Find(r, r[0], 1) == Some(i) && i1 == i + 1
    ensures ParseTranslations(rest, acc) == ParseTranslations(r[i1..], Put(acc, key, r[1..i]))
  {
    assert ParseTranslations(rest, acc) == ParsePass(rest, acc);
    assert ParsePass(rest, acc) == ParseValue(r, key, acc);
    assert ParseValue(r, key, acc) == ReadQuoted(r, key, acc);
  }

  /** One pass of the parsing loop over a bare value that a comma ends. */
  lemma {:induction false} ParseBareComma(rest: string, acc: Translations, n: nat, n1: nat, key: string, r: string,
                                          i: nat, i1: nat)
    requires Find(rest, '=', 0) == Some(n) && Lower(Remove(rest[..n], ',')) == key
    requires n1 == n + 1 && n1 <= |rest| && rest[n1..] == r
    requires r != [] && r[0] != '\'' && r[0] != '"' && Find(r, ',', 0) == Some(i) && i1 == i + 1
    ensures ParseTranslations(rest, acc) == ParseTranslations(r[i1..], Put(acc, key, r[..i]))
  {
    assert ParseTranslations(rest, acc) == ParsePass(rest, acc);
    assert ParsePass(rest, acc) == ParseValue(r, key, acc);
    assert ParseValue(r, key, acc) == ReadBare(r, key, acc);
  }

  /** The last pass of the parsing loop, over a bare value that the text ends. */
  lemma {:induction false} ParseBareLast(rest: string, acc: Translations, n: nat, n1: nat, key: string, r: string)
    requires Find(rest, '=', 0) == Some(n) && Lower(Remove(rest[..n], ',')) == key
    requires n1 == n + 1 && n1 <= |rest| && rest[n1..] == r
    requires r != [] && r[0] != '\'' && r[0] != '"' && Find(r, ',', 0).None?
    ensures ParseTranslations(rest, acc) == Ok(Put(acc, key, r))
  {
    assert ParseTranslations(rest, acc) == ParsePass(rest, acc);
    assert ParsePass(rest, acc) == ParseValue(r, key, acc);
    assert ParseValue(r, key, acc) == ReadBare(r, key, acc);
  }

  /** A value that opens a quote and never closes it is stored without its
      first and last characters, and the loop goes round again on the same
      text, quote included: with no `=` left in it, unpacking the split
      fails. */
  lemma {:induction false} UnclosedQuote(r: string, key: string, acc: Translations)
    requires r != [] && (r[0] == '\'' || r[0] == '"') && '=' !in r
    requires Find(r, r[0], 1).None?
    ensures ParseValue(r, key, acc) == Err(ValueError)
  {
    var acc' := Put(acc, key, if |r| >= 2 then r[1..|r| - 1] else []);
    assert Find(r, '=', 0).None?;
    assert ParsePass(r, acc') == Err(ValueError);
    assert ParseTranslations(r, acc') == Err(ValueError);
  }

  /** One pass of the parsing loop consumes a quoted item up to its closing quote. */
  lemma {:induction false} ParseStepQuoted(e: Entry, lead: string, post: string, acc: Translations)
    requires WellFormed(e) && e.quote != Bare
    requires lead == "" || lead == ","
    ensures ParseTranslations(lead + EntryText(e) + post, acc)
            == ParseTranslations(post, Put(acc, Lower(e.lang), e.text))
  {
    var rest := lead + EntryText(e) + post;
    var n := |lead| + |e.lang|;
    var n1 := n + 1;
    var r := ValueText(e) + post;
    var i := |e.text| + 1;
    var i1 := i + 1;
    KeyOf(e, lead, post, n, n1);
    QuotedValue(e, post, i, i1);
    ParseQuoted(rest, acc, n, n1, Lower(e.lang), r, i, i1);
  }

  /** One pass of the parsing loop consumes a bare item and the comma after it. */
  lemma {:induction false} ParseStepBare(e: Entry, lead: string, post: string, acc: Translations)
    requires WellFormed(e) && e.quote == Bare
    requires lead == "" || lead == ","
    requires post == [] || post[0] == ','
    ensures var acc' := Put(acc, Lower(e.lang), e.text);
            ParseTranslations(lead + EntryText(e) + post, acc)
            == if post == [] then Ok(acc') else ParseTranslations(post[1..], acc')
  {
    var rest := lead + EntryText(e) + post;
    var n := |lead| + |e.lang|;
    var n1 := n + 1;
    var r := ValueText(e) + post;
    var i := |e.text|;
    var i1 := i + 1;
    KeyOf(e, lead, post, n, n1);
    BareValue(e, post, i, i1);
    if post != [] {
      ParseBareComma(rest, acc, n, n1, Lower(e.lang), r, i, i1);
    } else {
      ParseBareLast(rest, acc, n, n1, Lower(e.lang), r);
    }
  }

  /** What the parsing loop has left before the next item: the comma a
      quoted value leaves behind, or nothing once a bare value took it. */
  function NextLead(e: Entry): string {
    if e.quote == Bare then "" else ","
  }

  /** One pass of the parsing loop over the first item, whatever its quoting. */
  lemma {:induction false} ParseFirst(e: Entry, lead: string, post: string, acc: Translations)
    requires WellFormed(e)
    requires lead == "" || lead == ","
    requires post == [] || post[0] == ','
    ensures post == [] ==> ParseTranslations(lead + EntryText(e) + post, acc) == Ok(Put(acc, Lower(e.lang), e.text))
    ensures post != [] ==> ParseTranslations(lead + EntryText(e) + post, acc)
                           == ParseTranslations(NextLead(e) + post[1..], Put(acc, Lower(e.lang), e.text))
  {
    if e.quote == Bare {
      ParseStepBare(e, lead, post, acc);
      if post != [] {
        assert NextLead(e) + post[1..] == post[1..];
      }
    } else {
      ParseStepQuoted(e, lead, post, acc);
      if post != [] {
        assert NextLead(e) + post[1..] == post;
      } else {
        assert ParseTranslations(post, Put(acc, Lower(e.lang), e.text)) == Ok(Put(acc, Lower(e.lang), e.text));
      }
    }
  }

  /** The parsing loop turns the written items into their assignments. */
  lemma {:induction false} ParseListText(es: seq<Entry>, lead: string, acc: Translations)
    requires |es| >= 1 && AllWellFormed(es)
    requires lead == "" || lead == ","
    ensures ParseTranslations(lead + ListText(es), acc) == Ok(Assign(acc, es))
    decreases |es|
  {
    var e := es[0];
    assert WellFormed(e);
    var acc' := Put(acc, Lower(e.lang), e.text);
    var post := After(es);
    assert Assign(acc, es) == Assign(acc', es[1..]);
    ListTextCons(es);
    assert lead + ListText(es) == lead + EntryText(e) + post;
    ParseFirst(e, lead, post, acc);
    if |es| > 1 {
      var rest := es[1..];
      assert post[1..] == ListText(rest);
      assert AllWellFormed(rest);
      ParseListText(rest, NextLead(e), acc');
    } else {
      assert Assign(acc', es[1..]) == acc';
    }
  }

  /** A quoted value `q text q` at `v` is matched up to its closing quote,
      which is at `c`. */
  lemma {:induction false} QuotedEndOf(d: string, v: nat, c: nat, w: nat, q: char, text: string)
    requires |text| >= 1 && q !in text
    requires c == v + |text| + 1 && w == c + 1
    requires w <= |d| && d[v..w] == [q] + text + [q]
    ensures QuotedEnd(d, v, q) == Some(w)
  {
    assert d[v] == q;
    assert forall k :: v + 1 <= k < c ==> d[k] == text[k - v - 1];
    assert d[c] == q;
    FindAt(d, q, v + 1, c);
  }

  /** The value of a well-formed item, followed by a comma or by nothing, is
      matched in full by the first alternative that fits it. */
  lemma {:induction false} ValueEndOf(d: string, v: nat, w: nat, e: Entry, post: string)
    requires WellFormed(e)
    requires w == v + |ValueText(e)|
    requires v <= |d| && d[v..] == ValueText(e) + post
    requires post == [] || post[0] == ','
    ensures ValueEnd(d, v) == Some(w)
  {
    assert d[v..w] == ValueText(e);
    match e.quote
    case Single =>
      QuotedEndOf(d, v, w - 1, w, '\'', e.text);
    case Double =>
      assert d[v] == '"';
      QuotedEndOf(d, v, w - 1, w, '"', e.text);
    case Bare =>
      assert d[v] == e.text[0];
      assert forall k :: v <= k < w ==> d[k] == e.text[k - v];
      if w < |d| {
        assert d[w] == post[0];
      }
      RunEndAt(d, v, IsBareChar, w);
  }

  /** The item at `p` is the key up to `=` at `w` and the value after it. */
  lemma {:induction false} ItemEndAt(d: string, p: nat, w: nat, w1: nat)
    requires p < w < |d| && w1 == w + 1 && RunEnd(d, p, IsWordChar) == w && d[w] == '='
    ensures ItemEnd(d, p) == ValueEnd(d, w1)
  {
  }

  /** One well-formed item, followed by a comma or by nothing, is matched in
      full, up to `q`. */
  lemma {:induction false} ItemEndOf(d: string, p: nat, q: nat, e: Entry, post: string)
    requires WellFormed(e)
    requires q == p + |EntryText(e)|
    requires p <= |d| && d[p..] == EntryText(e) + post
    requires post == [] || post[0] == ','
    ensures ItemEnd(d, p) == Some(q)
  {
    var w := p + |e.lang|;
    var w1 := w + 1;
    assert d[p..] == e.lang + ("=" + (ValueText(e) + post));
    assert forall k :: p <= k < w ==> d[k] == e.lang[k - p];
    assert d[w] == '=';
    RunEndAt(d, p, IsWordChar, w);
    ItemEndAt(d, p, w, w1);
    assert d[w1..] == ValueText(e) + post;
    ValueEndOf(d, w1, q, e, post);
  }

  /** One more round of the repetition `(,ITEM)*`. */
  lemma {:induction false} ItemsEndStep(d: string, p: nat, p1: nat, e: nat)
    requires p < |d| && d[p] == ',' && p1 == p + 1 && ItemEnd(d, p1) == Some(e)
    ensures ItemsEnd(d, p) == ItemsEnd(d, e)
  {
    assert ItemsEnd(d, p) == NextItem(d, p);
  }

  /** What follows the first item of a list: nothing, or a comma and the rest. */
  function After(es: seq<Entry>): string
    requires |es| >= 1
  {
    if |es| == 1 then "" else "," + ListText(es[1..])
  }

  lemma {:induction false} ListTextCons(es: seq<Entry>)
    requires |es| >= 1
    ensures ListText(es) == EntryText(es[0]) + After(es)
  {
  }

  /** Dropping a prefix of a text that is known to start with `a`. */
  lemma {:induction false} DropFront(d: string, p: nat, q: nat, a: string, b: string)
    requires p <= |d| && d[p..] == a + b && q == p + |a|
    ensures q <= |d| && d[q..] == b
  {
    assert d[q..] == d[p..][|a|..];
  }

  /** The repetition `(,ITEM)*` runs over every further item to the end. */
  lemma {:induction false} ItemsEndOf(d: string, p: nat, es: seq<Entry>)
    requires AllWellFormed(es)
    requires p <= |d|
    requires if es == [] then p == |d| else d[p..] == "," + ListText(es)
    ensures ItemsEnd(d, p) == |d|
    decreases |es|
  {
    if es != [] {
      var e0 := es[0];
      assert WellFormed(e0);
      var post := After(es);
      var p1 := p + 1;
      var q := p1 + |EntryText(e0)|;
      ListTextCons(es);
      assert d[p..] == "," + (EntryText(e0) + post);
      DropFront(d, p, p1, ",", EntryText(e0) + post);
      ItemEndOf(d, p1, q, e0, post);
      ItemsEndStep(d, p, p1, q);
      DropFront(d, p1, q, EntryText(e0), post);
      assert AllWellFormed(es[1..]);
      ItemsEndOf(d, q, es[1..]);
    }
  }

  lemma {:induction false} MatchTranslationAt(d: string, e: nat)
    requires StartsWith(d, "T:") && ItemEnd(d, 2) == Some(e)
    ensures MatchTranslation(d) == Some(d[2..ItemsEnd(d, e)])
  {
  }

  /** A written list at `p` is matched by `ITEM(,ITEM)*` up to the end of `d`. */
  lemma {:induction false} ListMatched(d: string, p: nat, es: seq<Entry>)
    requires |es| >= 1 && AllWellFormed(es)
    requires p <= |d| && d[p..] == ListText(es)
    ensures ItemEnd(d, p).Some? && ItemsEnd(d, ItemEnd(d, p).value) == |d|
  {
    var e0 := es[0];
    assert WellFormed(e0);
    var post := After(es);
    var q := p + |EntryText(e0)|;
    ListTextCons(es);
    ItemEndOf(d, p, q, e0, post);
    DropFront(d, p, q, EntryText(e0), post);
    assert AllWellFormed(es[1..]);
    ItemsEndOf(d, q, es[1..]);
  }

  /** `RE_TRANSLATION` matches up to the end of `d` once one item and its
      repetition reach there. */
  lemma {:induction false} MatchWhole(d: string)
    requires StartsWith(d, "T:") && ItemEnd(d, 2).Some? && ItemsEnd(d, ItemEnd(d, 2).value) == |d|
    ensures MatchTranslation(d) == Some(d[2..])
  {
    assert MatchTranslation(d) == Some(d[2..ItemsEnd(d, ItemEnd(d, 2).value)]);
    assert d[2..|d|] == d[2..];
  }

  /** `RE_TRANSLATION` matches the whole written list after `T:`. */
  lemma {:induction false} MatchListIn(d: string, es: seq<Entry>)
    requires |es| >= 1 && AllWellFormed(es)
    requires StartsWith(d, "T:") && d[2..] == ListText(es)
    ensures MatchTranslation(d) == Some(ListText(es))
  {
    ListMatched(d, 2, es);
    MatchWhole(d);
  }

  /** `RE_TRANSLATION` matches the whole written list. */
  lemma {:induction false} MatchListText(es: seq<Entry>)
    requires |es| >= 1 && AllWellFormed(es)
    ensures MatchTranslation("T:" + ListText(es)) == Some(ListText(es))
  {
    var d := "T:" + ListText(es);
    assert d[..2] == "T:";
    assert d[2..] == ListText(es);
    MatchListIn(d, es);
  }

  /** A well-formed translation directive compiles to the prefix literal and
      the table of its assignments. */
  lemma {:induction false} TranslationRoundTrip(es: seq<Entry>, prefix: Option<string>)
    requires |es| >= 1 && AllWellFormed(es)
    ensures Classify("T:" + ListText(es), prefix)
            == Ok([Literal(prefix.GetOr("")), Translate(Assign([], es))])
  {
    MatchListText(es);
    ParseListText(es, "", []);
    assert "" + ListText(es) == ListText(es);
  }

  /** Looking a language up in the table gives the value of the last item
      written for it, and earlier tables show through only for languages the
      items never name. */
  lemma {:induction false} AssignLookup(acc: Translations, es: seq<Entry>, k: string)
    ensures Lookup(Assign(acc, es), k)
            == (match LastText(es, k) case Some(t) => Some(t) case None => Lookup(acc, k))
    decreases |es|
  {
    if es != [] {
      var acc' := Put(acc, Lower(es[0].lang), es[0].text);
      AssignLookup(acc', es[1..], k);
      LastTextCons(es, k);
      if Lower(es[0].lang) != k {
        PutOther(acc, Lower(es[0].lang), es[0].text, k);
      }
    }
  }

  /** Peeling the first item off: the last value for `k` lies in the tail
      unless the tail never names `k`. */
  lemma {:induction false} LastTextCons(es: seq<Entry>, k: string)
    requires es != []
    ensures LastText(es, k)
            == (match LastText(es[1..], k)
                case Some(t) => Some(t)
                case None => if Lower(es[0].lang) == k then Some(es[0].text) else None)
    decreases |es|
  {
    if |es| > 1 {
      var init := es[..|es| - 1];
      assert init[1..] == es[1..][..|es[1..]| - 1];
      assert es[1..][|es[1..]| - 1] == es[|es| - 1];
      LastTextCons(init, k);
    }
  }

  /** The table has one entry per distinct language. */
  lemma {:induction false} AssignUnique(acc: Translations, es: seq<Entry>)
    requires UniqueKeys(acc)
    ensures UniqueKeys(Assign(acc, es))
    decreases |es|
  {
    if es != [] {
      PutUnique(acc, Lower(es[0].lang), es[0].text);
      AssignUnique(Put(acc, Lower(es[0].lang), es[0].text), es[1..]);
    }
  }
}

=== FILE: values.dfy ===
/** The data a template is applied to: the JSON-shaped Python values the
    engine meets (None, booleans, integers, strings, lists and dicts with
    string keys), with Python's truthiness and Python's `==`. */
module Values {
  import opened Results

  datatype Value =
    | Null
    | Bool(b: bool)
    | Int(n: int)
    | Str(s: string)
    | List(items: seq<Value>)
    | Map(entries: map<string, Value>)

  /** Python's `bool(v)`: None, False, 0, '', [] and {} are false. */
  predicate Truthy(v: Value) {
    match v
    case Null => false
    case Bool(b) => b
    case Int(n) => n != 0
    case Str(s) => s != []
    case List(xs) => xs != []
    case Map(m) => m != map[]
  }

  /** `d.get(k)`: the bound value, or None when `k` is absent. */
  function Get(m: map<string, Value>, k: string): (r: Value)
    ensures k !in m ==> r == Null
  {
    if k in m then m[k] else Null
  }

  /** The number a boolean or an integer stands for in a Python comparison. */
  function Numeric(v: Value): Option<int> {
    match v
    case Bool(b) => Some(if b then 1 else 0)
    case Int(n) => Some(n)
    case _ => None
  }

  /** Python's `a == b` on these values: booleans compare equal to 0 and 1,
      containers compare element by element. */
  predicate PyEq(a: Value, b: Value)
    decreases a
  {
    if Numeric(a).Some? || Numeric(b).Some? then Numeric(a) == Numeric(b)
    else match (a, b)
      case (Null, Null) => true
      case (Str(x), Str(y)) => x == y
      case (List(xs), List(ys)) =>
        |xs| == |ys| && forall k :: 0 <= k < |xs| ==> PyEq(xs[k], ys[k])
      case (Map(m), Map(n)) =>
        m.Keys == n.Keys && forall k :: k in m ==> PyEq(m[k], n[k])
      case _ => false
  }

  /** No boolean occurs anywhere inside `v`. */
  predicate BoolFree(v: Value)
    decreases v
  {
    match v
    case Bool(_) => false
    case List(xs) => forall k :: 0 <= k < |xs| ==> BoolFree(xs[k])
    case Map(m) => forall k :: k in m ==> BoolFree(m[k])
    case _ => true
  }

  /** Python's `==` is the structural equality of the values unless a boolean
      is compared with a number somewhere inside them. */
  lemma {:induction false} PyEqIsEquality(a: Value, b: Value)
    requires BoolFree(a) && BoolFree(b)
    ensures PyEq(a, b) <==> a == b
    decreases a
  {
    match (a, b)
    case (List(xs), List(ys)) =>
      forall k | 0 <= k < |xs| && k < |ys|
        ensures PyEq(xs[k], ys[k]) <==> xs[k] == ys[k]
      {
        PyEqIsEquality(xs[k], ys[k]);
      }
      if PyEq(a, b) {
        assert xs == ys;
      }
    case (Map(m), Map(n)) =>
      forall k | k in m && k in n
        ensures PyEq(m[k], n[k]) <==> m[k] == n[k]
      {
        PyEqIsEquality(m[k], n[k]);
      }
      if PyEq(a, b) {
        assert m == n;
      }
    case _ =>
  }

  /** Python's `==` is reflexive on these values. */
  lemma {:induction false} PyEqReflexive(a: Value)
    ensures PyEq(a, a)
    decreases a
  {
    match a
    case List(xs) =>
      forall k | 0 <= k < |xs| ensures PyEq(xs[k], xs[k]) { PyEqReflexive(xs[k]); }
    case Map(m) =>
      forall k | k in m ensures PyEq(m[k], m[k]) { PyEqReflexive(m[k]); }
    case _ =>
  }

  /** `len(v)`: strings, lists and dicts have a length; anything else is a `TypeError`. */
  function Len(v: Value): (r: Result<nat>)
    ensures r.Ok? <==> v.Str? || v.List? || v.Map?
    ensures r.Ok? ==> (r.value == 0 <==> !Truthy(v))
  {
    match v
    case Str(s) => Ok(|s|)
    case List(xs) => Ok(|xs|)
    case Map(m) => Ok(|m|)
    case _ => Err(TypeError)
  }

  /** `v[n]` with an integer `n`: a list element or a one-character string,
      counted from the end when `n` is negative; a dict has no integer keys. */
  function Index(v: Value, n: int): (r: Result<Value>)
    ensures v.List? && 0 <= n < |v.items| ==> r == Ok(v.items[n])
    ensures v.List? && -|v.items| <= n < 0 ==> r == Ok(v.items[|v.items| + n])
    ensures (v.List? || v.Str?) && r.Err? ==> r.error == IndexError
    ensures v.Map? ==> r == Err(KeyError)
  {
    match v
    case List(xs) =>
      if 0 <= n < |xs| then Ok(xs[n])
      else if -|xs| <= n < 0 then Ok(xs[|xs| + n])
      else Err(IndexError)
    case Str(s) =>
      if 0 <= n < |s| then Ok(Str([s[n]]))
      else if -|s| <= n < 0 then Ok(Str([s[|s| + n]]))
      else Err(IndexError)
    case Map(_) => Err(KeyError)
    case _ => Err(TypeError)
  }
}
